=== FILE: README.md ===
# MURRS client core in Dafny

MURRS (Multi-University Research Repository System) is a React front end over an
HTTP back end. The server owns the papers, their review lifecycle and the accounts.
The client owns a set of small rules, and this project models them as pure Dafny
functions over immutable records:

- the REST client's base URL, error messages, query strings, upload fields and
  download filename;
- the session held by the authentication provider: the signed-in user next to a
  three-key browser store;
- the home route's tab guard and notification bell;
- the public catalog and the search page, with filters, pagination, saved searches,
  bookmarks and download counts;
- the checks of the sign-up, login, profile and upload forms;
- the review dialog of the approval workflow;
- the librarian's account list.

Every server round trip is a parameter: an outcome datatype saying whether the call
succeeded and what it returned. Each operation reports the calls it would make, so
"no call is made" is a statement about its result. `JSON.parse` is a function
parameter `parse: string -> JsonBody`. A parsed `detail` is either a string or another
JSON value, and the other kind is given by its truthiness and its `String()` text.

Values read from the DOM are parameters as well, and so is `Date.now()` (the `now`
argument of a guest login).

JavaScript's built-ins that the rules rely on are written out in `strings.dfy`:

- truthiness and `||`;
- `trim` with JavaScript's white-space set;
- ASCII `toLowerCase`;
- `split`/`join`;
- `.length`, counted in UTF-16 code units;
- `String(n)` and `Number(s)` for integers.

One module per source file: `Api` (app/lib/api.ts), `Auth` (app/context/AuthContext.tsx),
`Home`, `Catalog`, `Search`, `Signup`, `Login`, `Profile`, `Upload`, `Approval`
and `Accounts`; `Wrappers` holds `Option` and `Result`. `Lists` holds the by-id replacement that the notification bell and the account list share.

## Model

| member | source | states |
|---|---|---|
| Api.ApiRoleFromName | app/lib/api.ts:12 | a wire name read as a role names that role back |
| Api.ApiRoleNameRoundTrip | app/lib/api.ts:12 | every role's wire name reads back as the same role, so no two roles share a name |
| Api.BaseUrl | app/lib/api.ts:1-3 | the configured URL when it is non-empty, else the local default; never empty |
| Api.ApiBase | app/lib/api.ts:4 | the base URL with exactly one trailing '/' removed, followed by "/api" |
| Api.DefaultApiBase | app/lib/api.ts:1-4 | with no configured URL, or an empty one, the client talks to http://127.0.0.1:8000/api |
| Api.ApiBaseDropsOneSlash | app/lib/api.ts:4 | a base ending in "//" keeps one of its two slashes |
| Api.ResponseErrorMessage | app/lib/api.ts:103-116 | the thrown message is the text of the JSON `detail` when the body parses and `detail` is truthy (`String(detail)` for a detail that is not a string), else the non-empty body, else the status text |
| Api.PlainErrorMessage | app/lib/api.ts:204-213 | a failed delete throws the raw body, or the status text for an empty body, with no `detail` lookup |
| Api.PlainVersusResponseMessage | app/lib/api.ts:209-212 | the two error paths disagree exactly when the body is JSON whose `detail` differs from the body |
| Api.FindDistinct | app/lib/api.ts:190-196 | in a table without repeated keys, a listed key finds its own value and an unlisted key finds nothing |
| Api.Present | app/lib/api.ts:248-257 | the pairs a run of conditional `set` calls produces: none exactly when no candidate is set |
| Api.FindPresentAt | app/lib/api.ts:248-257 | with distinct keys, a key is present exactly when its parameter was set, and then carries that value |
| Api.DistinctByKeys | app/lib/api.ts:190-196 | pairs whose key list repeats no key have distinct keys |
| Api.TextSetting | app/lib/api.ts:249 | a text parameter is set exactly when it is truthy (present and non-empty) |
| Api.NumberSetting | app/lib/api.ts:252 | a numeric parameter is set exactly when it is a number |
| Api.BoolSetting | app/lib/api.ts:257 | a boolean parameter is set exactly when it is a boolean |
| Api.Serialize | app/lib/api.ts:259 | a query with at least one pair serialises to non-empty text |
| Api.JoinNonEmpty | app/lib/api.ts:259 | a join whose first piece is non-empty is non-empty |
| Api.WithQuery | app/lib/api.ts:259 | the path alone for an empty query, else the path, '?', and the serialised pairs |
| Api.PaperKeysDistinct | app/lib/api.ts:248-257 | each key of the papers query is set by one statement only |
| Api.PaperQuery | app/lib/api.ts:248-257 | the keys keep the fixed order q, discipline, university, year, status, sort, skip, limit, catalog, and none is set exactly when no parameter passes its test |
| Api.PaperQueryLookup | app/lib/api.ts:249-257 | q, discipline, university, status and sort are sent only when non-empty; year, skip and limit only when numbers; catalog only when a boolean; each with its own value |
| Api.EndpointQueryMark | app/lib/api.ts:259 | an endpoint URL keeps the base as its prefix and has '?' after it exactly when the query is non-empty; an empty query leaves the bare endpoint |
| Api.PapersUrlQuestionMark | app/lib/api.ts:259 | the papers URL has '?' after the base exactly when some key was set, and is the bare endpoint otherwise |
| Api.UserQuery | app/lib/api.ts:190-196 | keys in the fixed order skip, limit, email, is_active, is_admin, role, and none at all exactly when no parameter is set |
| Api.UserQueryLookup | app/lib/api.ts:191-196 | each users key is present exactly when its parameter is (email only when non-empty) and carries that parameter's text |
| Api.UsersUrl | app/lib/api.ts:198 | the users URL has "?" after "/users" exactly when some key was set |
| Api.TextField | app/lib/api.ts:283 | an optional text field is sent exactly when truthy |
| Api.NumberField | app/lib/api.ts:286 | an optional numeric field is sent exactly when it is a number |
| Api.UploadKeysDistinct | app/lib/api.ts:281-292 | each multipart field is set by one statement only |
| Api.UploadForm | app/lib/api.ts:280-292 | the multipart fields keep the order title, abstract, discipline, university, year, document_type, license, supervisor_id, tags, authors, file |
| Api.UploadFormFixedFields | app/lib/api.ts:282-292 | title, tags, authors and the file are always sent; absent tags and authors are the JSON text "[]"; file_name is never sent |
| Api.UploadFormTextFields | app/lib/api.ts:283-288 | abstract, discipline, university, document_type and license are sent only when non-empty, and then as given |
| Api.UploadFormNumberFields | app/lib/api.ts:286-289 | year and supervisor_id are sent only when numbers, as their decimal text |
| Api.NameRun | app/lib/api.ts:360 | what `[^";]+` consumes: the longest prefix free of '"' and ';', stopped only by one of them or the end |
| Api.ValueStart | app/lib/api.ts:360 | the capture starts past "filename=" and past at most one optional '"' |
| Api.FirstMatch | app/lib/api.ts:360 | the leftmost position where the filename pattern matches, with no match before it |
| Api.FirstMatchIsLeftmost | app/lib/api.ts:360 | the search from the start finds every match position with no match before it |
| Api.DownloadFilename | app/lib/api.ts:359-361 | never empty; `paper-<id>` when the pattern matches nowhere (a missing header included); otherwise the group captured at the leftmost match, a name free of '"' and ';' |
| Api.DownloadFilenameDefault | app/lib/api.ts:359-361 | without a Content-Disposition header the file is called `paper-<id>` |
| Api.DownloadFilenameQuoted | app/lib/api.ts:360-361 | the header `attachment; filename="<name>"` yields exactly `<name>` for a name free of '"' and ';' |
| Api.NoKeyInPrefix | app/lib/api.ts:360 | no match of "filename=" (in any case) starts inside "attachment; " |
| Auth.RoleFromApiUser | app/context/AuthContext.tsx:41 | the server role when there is one; otherwise librarian exactly for administrators and member for everybody else |
| Auth.BuildUser | app/context/AuthContext.tsx:43-50 | identity from the server; name from full_name or else an '@'-free part of the e-mail; department prefers the server's; university from the extras only; never a guest |
| Auth.BuildUserNameFromEmail | app/context/AuthContext.tsx:46 | without a full name, the name is the e-mail up to its first '@' (all of it when there is none) |
| Auth.EveryKeyListed | app/context/AuthContext.tsx:37-39 | the three storage keys are all the keys there are |
| Auth.Restore | app/context/AuthContext.tsx:55-94 | no call without a stored access token and user; with them, a successful `apiMe` signs in `buildUser` of the server's record with the stored university and department as extras; after a failed `apiMe`, a refresh and a second `apiMe` store the new tokens and sign in the server's user with no extras; each failure is pinned exactly: without a refresh token the user and access token are removed after one call, a failed refresh clears the store, and a failed second `apiMe` clears the store after the new tokens were written; a signed-in result is never a guest |
| Auth.FailedRestoreSignsOut | app/context/AuthContext.tsx:69-89 | whenever the stored session cannot be confirmed, the restore ends signed out with neither the user record nor an access token stored |
| Auth.RestoreEstablishesInv | app/context/AuthContext.tsx:55-94 | from any well-typed store, the restored session keeps the store and the user consistent |
| Auth.Login | app/context/AuthContext.tsx:96-126 | empty e-mail or password fails and changes nothing; a guest login drops both tokens and signs in "Guest" with no call; a normal login succeeds exactly when the server accepts and `apiMe` answers, and then stores both issued tokens and signs in exactly the server's user; a refused login makes one call and changes nothing; after a failed `apiMe` both issued tokens stay stored and the user is kept |
| Auth.LoginPreservesInv | app/context/AuthContext.tsx:96-126 | login keeps the session consistent: the signed-in user is the stored record, and a registered user has an access token |
| Auth.Logout | app/context/AuthContext.tsx:128-139 | always ends signed out (`isAuthenticated` false) with the store empty; the server is told only when a refresh token is stored |
| Auth.CreateAccount | app/context/AuthContext.tsx:141-156 | empty e-mail, password or name fails with no call; so does the librarian role unless a librarian is signed in; past those guards a refused registration fails after one call, and a registered account succeeds exactly when the login is accepted, signing in the server's user after the register, login and `apiMe` calls |
| Auth.CreateAccountPreservesInv | app/context/AuthContext.tsx:141-156 | account creation keeps the session consistent |
| Auth.ChangePassword | app/context/AuthContext.tsx:158-181 | without a user, with an empty or unchanged password, or without an access token it fails with no call; the user never changes; a first success returns true with one call; after a first failure it fails without a refresh token or a refresh, and otherwise stores the refreshed tokens and succeeds exactly when the retry does |
| Auth.ChangePasswordPreservesInv | app/context/AuthContext.tsx:158-181 | a password change keeps the session consistent |
| Auth.UpdatedUser | app/context/AuthContext.tsx:192 | the updated user takes id, e-mail, name (`buildUser`'s, so the full name when there is one) and role from the server, keeps the previous university, and takes the given department unless it is empty |
| Auth.UpdateProfile | app/context/AuthContext.tsx:183-211 | fails with no call when signed out, for an empty name, or without an access token; a first success signs in `UpdatedUser` of the server's reply; after a first failure with a refresh, the refreshed tokens are stored and it succeeds exactly when the retry does, signing in `UpdatedUser` of the second reply; without a refresh token or refresh it fails with the session unchanged |
| Auth.UpdateProfilePreservesInv | app/context/AuthContext.tsx:183-211 | a profile update keeps the session consistent |
| Auth.RunKeepsInv | app/context/AuthContext.tsx:52-214 | after a start-up restore from any well-typed store, every sequence of logins, logouts, account creations, password changes and profile updates leaves the session consistent |
| Home.HandleTabChange | app/routes/home.tsx:36-53 | a visitor who is signed out or a guest asking for a non-public tab goes to login and the tab stays; approval without a reviewer and librarian without a librarian keep the tab; a signed-in non-guest whose role allows the tab (approval and librarian included) switches to it |
| Home.GuestStaysOnPublicTabs | app/routes/home.tsx:36-53 | from a public tab, a visitor who is signed out or a guest stays on catalog or search whatever tabs are requested |
| Home.GuestSessionTabs | app/routes/home.tsx:30 | from the initial catalog tab, such a visitor only ever sees catalog or search |
| Home.ReviewerReachesRequested | app/routes/home.tsx:34 | a reviewer (librarian, project coordinator, HOD, lecturer) ends on the last tab requested unless it is the librarian tab |
| Home.UnreadCount | app/routes/home.tsx:99 | the number of unread notifications: at most the list's length, and zero exactly when all are read |
| Home.ReadUnreadPartition | app/routes/home.tsx:99 | read and unread notifications add up to the whole list |
| Lists.ReplaceWhere | app/components/library/AccountManagement.tsx:109 | a `map` that swaps the selected entries for one value: same length, every selected entry replaced, every other entry kept in place |
| Home.MarkRead | app/routes/home.tsx:106 | only entries with the clicked id are replaced by the server's record; length and order are kept |
| Home.MarkReadLowersUnread | app/routes/home.tsx:106 | marking read never raises the unread count, and lowers it when an entry with that id was unread |
| Home.NotificationClick | app/routes/home.tsx:101-108 | without a token or when the call fails the list is unchanged; otherwise every entry with the clicked id becomes the server's record; entries with other ids never change |
| Home.LoadNotifications | app/routes/home.tsx:81-97 | nothing is fetched without a token or for a visitor who is signed out or a guest; a failed fetch empties the list |
| Catalog.SortFor | app/components/library/PublicCatalog.tsx:22-27 | all gives relevance, trending gives trending, highest-rated gives highest-rated, most-downloaded gives downloads, and any other category gives relevance |
| Catalog.CatalogQuery | app/components/library/PublicCatalog.tsx:46-51 | the catalog request always carries its category's sort, catalog=true and limit=200; it carries the search box as q exactly when the box is non-empty, and no other key |
| Catalog.Load | app/components/library/PublicCatalog.tsx:40-66 | the error is cleared at the start; a cancelled load leaves the papers; otherwise the papers found, or no papers and the Error's message (possibly empty) or "Failed to load papers" for anything else thrown; the error is empty exactly when nothing failed or the message was empty |
| Catalog.NewestLoadWins | app/components/library/PublicCatalog.tsx:41-65 | when only the newest of overlapping loads is not cancelled, whatever order the responses arrive in and whatever was shown, the page ends with the newest load's outcome |
| Catalog.AllCancelledKeep | app/components/library/PublicCatalog.tsx:52-57 | cancelled responses change neither the papers nor the error |
| Catalog.TrendingCount | app/components/library/PublicCatalog.tsx:103 | the papers with more than 2500 views: none exactly when every paper has at most 2500, all exactly when every paper has more |
| Catalog.TrendingCountAppend | app/components/library/PublicCatalog.tsx:103 | trending counts of two lists add up |
| Catalog.Counts | app/components/library/PublicCatalog.tsx:101-107 | all is the number of papers, trending at most all, highest min(4, n), downloads min(5, n) |
| Catalog.ToggleBookmark | app/components/library/PublicCatalog.tsx:94-99 | the id's membership flips and no other id changes |
| Catalog.ToggleBookmarkTwice | app/components/library/PublicCatalog.tsx:94-99 | toggling a bookmark twice restores the bookmarks |
| Catalog.IncrementDownloads | app/components/library/PublicCatalog.tsx:88 | the matching paper's downloads go up by one and every other paper is unchanged |
| Catalog.IncrementDownloadsTotal | app/components/library/PublicCatalog.tsx:88 | a download raises the total by the number of papers with that id: one for a listed paper with a unique id |
| Catalog.Download | app/components/library/PublicCatalog.tsx:68-92 | a visitor who is signed out, a guest, or without a token goes to login with no fetch; a fetched file is saved under the header's name, the paper's downloads go up by one, and the error stays; a failure keeps the papers and shows its message or "Failed to download file" |
| Search.Put | app/components/library/SearchDiscovery.tsx:139-142 | the category gets the new values and every other category keeps its own |
| Search.PutKeys | app/components/library/SearchDiscovery.tsx:139-142 | an existing category keeps its place, a new one goes last |
| Search.Delete | app/components/library/SearchDiscovery.tsx:66-70 | the category is gone, the others are unchanged, and nothing new appears |
| Search.FirstValue | app/components/library/SearchDiscovery.tsx:59 | a category's first selected value, absent when the category is absent or empty |
| Search.Without | app/components/library/SearchDiscovery.tsx:141 | the value is gone and every other value is kept as often as it occurred |
| Search.WithoutAppend | app/components/library/SearchDiscovery.tsx:141 | removal distributes over concatenation, so the kept values keep their order |
| Search.Toggled | app/components/library/SearchDiscovery.tsx:138-141 | a value not selected becomes the only selection; a selected value is removed with every other value kept (`Without`) |
| Search.SchoolsAreMapKeys | app/components/library/SearchDiscovery.tsx:33-58 | the school filter offers exactly the schools of the discipline map, in its order |
| Search.Flatten | app/components/library/SearchDiscovery.tsx:51 | a value is in the flattened list exactly when it is in one of the lists |
| Search.FirstIndex | app/components/library/SearchDiscovery.tsx:51 | where a value first occurs in a list, the length when it does not occur |
| Search.Dedup | app/components/library/SearchDiscovery.tsx:51 | the same values with no repeats, in the order of their first occurrences |
| Search.DedupOfDistinct | app/components/library/SearchDiscovery.tsx:51 | a list without repeats is left as it is |
| Search.AllDisciplines | app/components/library/SearchDiscovery.tsx:51 | every discipline of every school, each once |
| Search.VisibleDisciplines | app/components/library/SearchDiscovery.tsx:59-60 | the selected school's list, nothing for an unknown school, and every discipline when no school is selected |
| Search.VisibleWithinAll | app/components/library/SearchDiscovery.tsx:51-60 | the visible disciplines are always among all disciplines |
| Search.Reconcile | app/components/library/SearchDiscovery.tsx:62-71 | afterwards the discipline agrees with the school; agreeing filters are unchanged; otherwise only the discipline category is removed |
| Search.ReconcileIdempotent | app/components/library/SearchDiscovery.tsx:62-71 | reconciling twice is reconciling once |
| Search.Slice | app/components/library/SearchDiscovery.tsx:131 | `slice` with bounds clamped to the length, empty when start passes end or the length |
| Search.PageOf | app/components/library/SearchDiscovery.tsx:130-133 | page p holds items p·6 onwards, at most six, all six while enough remain, none past the end |
| Search.TotalPages | app/components/library/SearchDiscovery.tsx:134 | the fewest pages of six holding all results |
| Search.PageNonEmpty | app/components/library/SearchDiscovery.tsx:130-134 | a page shows something exactly when its number is below the page count |
| Search.PagesCoverList | app/components/library/SearchDiscovery.tsx:130-134 | the pages read in order are exactly the results, nothing lost or repeated |
| Search.PrevPage | app/components/library/SearchDiscovery.tsx:430 | Previous is the larger of 0 and page − 1: page − 1 from any page from 1 on |
| Search.NextPage | app/components/library/SearchDiscovery.tsx:440 | Next is the smaller of totalPages − 1 and page + 1: page + 1 whenever that is not past the last page |
| Search.PagerStaysInRange | app/components/library/SearchDiscovery.tsx:428-440 | while the pager is shown, Previous and Next keep the page in [0, totalPages − 1] |
| Search.ToggleFilter | app/components/library/SearchDiscovery.tsx:136-145 | the value leaves its category if there, otherwise becomes its only value; other categories are untouched; the page resets to 0 |
| Search.ToggleKeepsSingleSelect | app/components/library/SearchDiscovery.tsx:136-145 | toggling keeps every category to at most one value |
| Search.ClearFilters | app/components/library/SearchDiscovery.tsx:168-172 | no filters, no query, first page, and no active filter count |
| Search.ActiveFilterCount | app/components/library/SearchDiscovery.tsx:174 | the length of all categories' values flattened into one list; zero exactly when no category holds a value; at most the number of categories under single selection |
| Search.SaveCurrentSearch | app/components/library/SearchDiscovery.tsx:154-159 | a blank name does nothing; otherwise exactly one entry with the trimmed name and the current query, filters and sort is appended, and the dialog closes |
| Search.LoadSearch | app/components/library/SearchDiscovery.tsx:161-166 | the saved query, filters and sort on the first page, the rest unchanged |
| Search.SaveThenLoad | app/components/library/SearchDiscovery.tsx:154-166 | loading the search just saved restores its query, filters and sort |
| Search.ToggleBookmark | app/components/library/SearchDiscovery.tsx:147-152 | the id's membership flips, no other id changes, nothing else on the page changes |
| Search.SearchQuery | app/components/library/SearchDiscovery.tsx:79-87 | the request carries the query, the selected discipline and school when non-empty, a selected year as the text of `Number(year)` (a decimal year as the same text), the sort when non-empty, the catalog flag and limit=200 |
| Search.Loaded | app/components/library/SearchDiscovery.tsx:88-96 | the papers found with the error cleared, or no papers and the Error's message as given (even empty), or "Failed to search papers" for anything else thrown; the page number is not touched |
| Search.LoadsAgree | app/components/library/SearchDiscovery.tsx:88-92 | the search page's load and the catalog's show the same papers and the same error for the same outcome, except each page's own fallback text |
| Search.Download | app/components/library/SearchDiscovery.tsx:104-128 | the catalog's download on this page's papers: no fetch for a visitor who is signed out, a guest, or without a token; a fetched file raises that paper's downloads; a failure shows its message or "Failed to download file"; filters and page untouched |
| Search.SetQueryAsWritten | app/components/library/SearchDiscovery.tsx:184 | the search box changes the query and leaves the page number as it was |
| Search.SetSortAsWritten | app/components/library/SearchDiscovery.tsx:307 | the sort select changes the sort and leaves the page number as it was |
| Search.StalePageAfterQuery | app/components/library/SearchDiscovery.tsx:184 | on page 3 of 13 results, a new query finding 5 papers shows an empty page with no pager |
| Search.StalePageAfterSort | app/components/library/SearchDiscovery.tsx:307 | the same after a new sort that finds 5 papers |
| Search.SetQuery | app/components/library/SearchDiscovery.tsx:184 | corrected: a new query starts from the first page and changes nothing else |
| Search.SetSort | app/components/library/SearchDiscovery.tsx:307 | corrected: a new sort starts from the first page and changes nothing else |
| Search.FreshSearchShowsResults | app/components/library/SearchDiscovery.tsx:130-134 | after a corrected query or sort change, the page shown is the first six results, non-empty whenever anything was found |
| Signup.TablesCoverSchools | app/routes/signup.tsx:12-70 | the department and academic-area tables each cover exactly the offered schools, once each |
| Signup.AcademicAreasAreSearchDisciplines | app/routes/signup.tsx:53-70 | the academic areas are the search page's discipline map |
| Signup.AcademicAreaOptions | app/routes/signup.tsx:85-88 | the selected school's areas, non-empty exactly for an offered school, none otherwise |
| Signup.StaffDepartmentOptions | app/routes/signup.tsx:266 | the school's departments, or the default list for any other school; never empty |
| Signup.InputValue | app/routes/signup.tsx:90-93 | the element's value trimmed, "" when there is no element |
| Signup.FinalValue | app/routes/signup.tsx:99-104 | the trimmed state when not blank, else the trimmed element value; empty exactly when both are blank or missing |
| Signup.FinalValues | app/routes/signup.tsx:99-105 | the password is not trimmed and falls back to the element only when empty; name and e-mail are final values |
| Signup.RequirementsByRole | app/routes/signup.tsx:106-109 | no role needs both a school id and a department; a librarian needs none of school, school id and department |
| Signup.SchoolEmailIgnoresCase | app/routes/signup.tsx:127 | the school e-mail suffix test ignores case |
| Strings.Utf16Length | app/routes/signup.tsx:131 | `.length` counts UTF-16 code units: between one and two per character, exactly one per character when none lies outside the Basic Multilingual Plane, two when all do |
| Strings.Utf16LengthAppend | app/routes/signup.tsx:131 | code units add up over concatenation |
| Signup.Check | app/routes/signup.tsx:111-145 | the checks run in order and the first failure's message is returned; acceptance exactly when all pass; the password minimum counts UTF-16 code units; school id, school and department are passed only when the role needs them |
| Signup.HandleCreateAccount | app/routes/signup.tsx:95-145 | an account is asked for exactly when the final values pass every check, with the chosen role and a trimmed school e-mail |
| Signup.BlankFormRefused | app/routes/signup.tsx:111-114 | the untouched form with blank inputs is refused with "Please fill in all required fields" |
| Signup.LibrarianSkipsAffiliation | app/routes/signup.tsx:106-109 | a librarian's form never fails on school, school id or department and sends none of them |
| Signup.AcceptedFormSignsIn | app/routes/signup.tsx:137-145 | an accepted non-librarian form passes every guard of account creation, and with the server's success the new user is signed in |
| Login.SelectRole | app/routes/login.tsx:98 | a role button sets the account type only |
| Login.HandleLogin | app/routes/login.tsx:19-32 | empty e-mail or password is refused first; a non-guest e-mail without '@' next; otherwise login is called with the form's values unchanged |
| Login.InitialRoleSkipsEmailCheck | app/routes/login.tsx:14 | before a role button is pressed, any non-empty e-mail passes, '@' or not |
| Login.ChosenRoleChecksEmail | app/routes/login.tsx:27-30 | after a role button, an e-mail without '@' is refused |
| Login.SubmittedLoginPassesGuard | app/routes/login.tsx:32 | every call the page makes passes login's empty-field guard: a guest always signs in, a member or staff exactly when the server accepts |
| Login.HandleGuestAccess | app/routes/login.tsx:40-45 | always a guest login with fixed, non-empty credentials |
| Login.GuestAccessSignsInGuest | app/routes/login.tsx:41 | guest access signs in the guest user with no call and leaves no token |
| Login.HandleKeyPress | app/routes/login.tsx:47-49 | only Enter does anything |
| Login.EnterMatchesButton | app/routes/login.tsx:47-49 | Enter runs the same checks and makes the same call as the Sign In button |
| Profile.InitialPage | app/components/library/Profile.tsx:13-23 | both dialogs closed, the edit inputs prefilled with the user's name and department, the password inputs empty |
| Profile.HandleEditProfile | app/components/library/Profile.tsx:25-42 | a blank name is refused with no call; otherwise the update runs, success closes the dialog and failure shows an error and keeps the user |
| Profile.AcceptedNameReachesServer | app/components/library/Profile.tsx:29-34 | a non-blank name for a signed-in user with a token succeeds on the server's first answer |
| Profile.CheckPasswordForm | app/components/library/Profile.tsx:48-61 | "All fields are required", then "New passwords do not match", then the length check in UTF-16 code units, each exactly when the earlier checks pass |
| Profile.PasswordLengthInCodeUnits | app/components/library/Profile.tsx:58 | three emoji pass the six-character minimum and five letters do not |
| Profile.HandleChangePassword | app/components/library/Profile.tsx:44-74 | a failed check shows its message with no call; success clears the three fields and closes the dialog; a refusal reports the old password as wrong |
| Profile.SamePasswordReportedAsWrong | app/components/library/Profile.tsx:63-72 | reusing the old password passes the page's checks, is stopped by the session with no call, and is reported as a wrong old password |
| Profile.RoleBadgeVariant | app/components/library/Profile.tsx:88-95 | destructive exactly for librarian, outline otherwise |
| Profile.RoleLabel | app/components/library/Profile.tsx:97-115 | student and member read "Student", and the other server roles get their display names; exactly the server roles are renamed, anything else is returned unchanged |
| Profile.LabelOfRole | app/components/library/Profile.tsx:97-115 | each server role's label: "Student" exactly for student and member, and its own display name for each other role |
| Profile.RoleLabelsShared | app/components/library/Profile.tsx:97-115 | two server roles share a label exactly when they are the same role, or student and member |
| Profile.RoleLabelsOfUsers | app/components/library/Profile.tsx:97-115 | distinct server roles get distinct labels except student and member; a guest's badge shows "guest"; only a librarian's badge is destructive |
| Upload.DisciplinesAgreeWithSearch | app/components/library/DocumentUpload.tsx:15-43 | the upload table is the search page's, and its full list is the search page's deduplicated union |
| Upload.DisciplineOptions | app/components/library/DocumentUpload.tsx:62-65 | the user's school's list, or every discipline for a missing or unknown school; always drawn from the full list |
| Upload.TrimEach | app/components/library/DocumentUpload.tsx:133 | every piece trimmed, one for one |
| Upload.DropEmpty | app/components/library/DocumentUpload.tsx:133 | the non-empty pieces, nothing else |
| Upload.DropEmptyCounts | app/components/library/DocumentUpload.tsx:133 | every non-empty piece is kept as many times as it occurs, and no empty one |
| Upload.DropEmptyAppend | app/components/library/DocumentUpload.tsx:133 | filtering distributes over concatenation, so the kept pieces keep their order |
| Upload.TrimFrom | app/components/library/DocumentUpload.tsx:133 | trimming keeps only characters of its argument |
| Upload.ParseTags | app/components/library/DocumentUpload.tsx:133 | every tag non-empty, trimmed and comma-free; the tags are exactly the non-empty trimmed pieces of the keywords, in order and with repeats (`DropEmpty` of the trimmed split) |
| Upload.ParseTagsKeepsRepeats | app/components/library/DocumentUpload.tsx:133 | "a,a" gives both tags |
| Upload.ParseTagsDropsEmptyPiece | app/components/library/DocumentUpload.tsx:133 | "a,,b" gives "a" then "b" |
| Upload.TrimEachClean | app/components/library/DocumentUpload.tsx:133 | trimmed pieces free of a character stay free of it |
| Upload.TrimEachOfTrimmed | app/components/library/DocumentUpload.tsx:133 | pieces without white-space margins are left alone |
| Upload.TagsRoundTrip | app/components/library/DocumentUpload.tsx:133 | tags joined with commas parse back to the same list when each is non-empty, trimmed and comma-free |
| Upload.AddAuthor | app/components/library/DocumentUpload.tsx:165-167 | one empty author appended, the others kept |
| Upload.RemoveAuthor | app/components/library/DocumentUpload.tsx:169-171 | only the author at the index goes and the rest keep their order; an index outside the list removes nothing |
| Upload.AddThenRemove | app/components/library/DocumentUpload.tsx:165-171 | removing the author just added restores the list |
| Upload.RenameAuthor | app/components/library/DocumentUpload.tsx:384-388 | only the author at the index gets the new name |
| Upload.AuthorsNeverEmpty | app/components/library/DocumentUpload.tsx:367 | with removal offered only for more than one author, no sequence of edits empties the list |
| Upload.SubmitBlocked | app/components/library/DocumentUpload.tsx:107-119 | blocked, in this order, by a missing token, a missing file, and a student or member without a supervisor; free exactly when none applies |
| Upload.BuildPayload | app/components/library/DocumentUpload.tsx:124-140 | the user's university or 'GIMPA'; supervisor_id exactly when chosen, as a number; the parsed tags; one author per entry by name |
| Upload.HandleSubmit | app/components/library/DocumentUpload.tsx:104-163 | once the browser lets the submit through, a blocked submit only shows its message; otherwise the payload is sent, success resets the form, failure shows the error, and either way the upload ends at 0, not in progress |
| Upload.SubmitForm | app/components/library/DocumentUpload.tsx:182-426 | with the title, abstract, keywords, an author name or the copyright confirmation empty the browser stops the submit and nothing changes; otherwise it is `handleSubmit`; anything sent has a non-empty title, abstract and author names |
| Upload.EmptyTitleNeverSent | app/components/library/DocumentUpload.tsx:284-426 | an empty title or an unconfirmed copyright box never reaches the server and leaves the page as it was |
| Upload.SentUploadFields | app/components/library/DocumentUpload.tsx:129-137 | on the wire a sent upload carries the university (or 'GIMPA'), supervisor_id exactly when chosen, and the parsed tags |
| Upload.StudentNeedsSupervisor | app/components/library/DocumentUpload.tsx:116-119 | a student's upload without a supervisor never reaches the server |
| Approval.DecisionName | app/components/library/ApprovalWorkflow.tsx:311-313 | a decision is sent as approve, revision or reject |
| Approval.StatusListQuery | app/components/library/ApprovalWorkflow.tsx:42-43 | the approved and revision lists ask for their status, newest first, at most 50, and nothing else |
| Approval.LoadAll | app/components/library/ApprovalWorkflow.tsx:31-53 | without a token only the error is set; success replaces the three lists and clears the error; failure shows the error and keeps the lists; the dialog is never touched |
| Approval.OpenReviewDialog | app/components/library/ApprovalWorkflow.tsx:103-108 | the dialog opens on the paper with no decision and no comments; lists and error stay |
| Approval.Cancel | app/components/library/ApprovalWorkflow.tsx:110-115 | the dialog closes with no selection, decision or comments, from any state |
| Approval.Dismiss | app/components/library/ApprovalWorkflow.tsx:263 | Escape or the overlay only closes the dialog, keeping the paper, decision and comments that Cancel would clear |
| Approval.DismissThenOpen | app/components/library/ApprovalWorkflow.tsx:103-115 | reopening after a dismissal is the same as reopening after Cancel, so the leftovers are never seen |
| Approval.ChooseDecision | app/components/library/ApprovalWorkflow.tsx:306 | the decision is set; paper and comments stay |
| Approval.EditComments | app/components/library/ApprovalWorkflow.tsx:325 | the comments are set; paper and decision stay |
| Approval.HandleReview | app/components/library/ApprovalWorkflow.tsx:84-101 | nothing without a paper or decision; only the error without a token; otherwise exactly that paper, decision and comments are sent; success closes the dialog and reloads, failure keeps the dialog and shows the error |
| Approval.ReviewNeedsEnabledSubmit | app/components/library/ApprovalWorkflow.tsx:333 | while Submit is disabled, a review does nothing |
| Approval.OpenThenSubmitSendsNothing | app/components/library/ApprovalWorkflow.tsx:103-108 | submitting right after opening sends nothing, since opening clears the decision |
| Approval.OpenChooseSubmit | app/components/library/ApprovalWorkflow.tsx:84-108 | open, choose and submit sends exactly that paper, decision and comments |
| Approval.SuccessClosesLikeCancel | app/components/library/ApprovalWorkflow.tsx:93-96 | a successful review leaves the dialog as Cancel does |
| Accounts.MapApiUser | app/components/library/AccountManagement.tsx:24-36 | missing text fields show '-'; the name is full_name or an '@'-free prefix of the e-mail; a missing role is librarian for an admin and student otherwise |
| Accounts.MapApiUserAgreesWithSession | app/components/library/AccountManagement.tsx:32 | the list and the session agree on names and roles, except a non-admin without a role: a student here, a member in the session |
| Accounts.ExtractErrorMessage | app/components/library/AccountManagement.tsx:38-46 | 'Request failed' for a non-Error, the text of the message's truthy JSON `detail`, or the message itself |
| Accounts.ExtractRecoversDetail | app/components/library/AccountManagement.tsx:94 | a raw-body delete error still shows the body's `detail`, as a detail-aware handler would have raised it |
| Accounts.ExtractOfPlainText | app/components/library/AccountManagement.tsx:38-46 | a message that is not JSON with a `detail` is shown as it is |
| Accounts.ListQuery | app/components/library/AccountManagement.tsx:68 | the account list asks for limit=200 and nothing else |
| Accounts.ListQueryShape | app/lib/api.ts:190-196 | a users query that sets only limit is that one pair |
| Accounts.KeysFromList | app/lib/api.ts:190-196 | the keys of a users query are drawn from its fixed key list |
| Accounts.LoadAccounts | app/components/library/AccountManagement.tsx:57-75 | without a token the error is set; success maps every server user in order and clears the error; failure shows the extracted error and keeps the list; loading always ends |
| Accounts.Mount | app/components/library/AccountManagement.tsx:77-81 | anyone but a librarian sees Access Denied and nothing is loaded; a librarian's accounts are loaded |
| Accounts.RemoveId | app/components/library/AccountManagement.tsx:92 | exactly the accounts with other ids remain, one fewer for each removed |
| Accounts.RemoveIdAppend | app/components/library/AccountManagement.tsx:92 | removal works piecewise, so the remaining accounts keep their order |
| Accounts.RemoveAbsentId | app/components/library/AccountManagement.tsx:92 | removing an id nobody has changes nothing |
| Accounts.ReplaceId | app/components/library/AccountManagement.tsx:109 | only entries with the id are replaced; length and order are kept |
| Accounts.DeleteAccount | app/components/library/AccountManagement.tsx:83-98 | without a token only the error is set; success removes the id's accounts; failure shows the extracted error and keeps the list |
| Accounts.ActivateAccount | app/components/library/AccountManagement.tsx:100-115 | without a token only the error is set; success replaces the id's accounts with the server's record; failure shows the error; the count never changes |
| Accounts.PendingCount | app/components/library/AccountManagement.tsx:227 | accounts not active: zero exactly when all are active |
| Accounts.ActiveCount | app/components/library/AccountManagement.tsx:235 | active accounts: zero exactly when none is active |
| Accounts.CountsPartition | app/components/library/AccountManagement.tsx:219-235 | pending and active accounts add up to the total |
| Accounts.ActivationLowersPending | app/components/library/AccountManagement.tsx:109 | activating never raises the pending count or lowers the active count |

## Left out

- Network and browser I/O: `fetch`, response bodies, `Blob`, object URLs and the anchor that saves a download, and `FormData`/`URLSearchParams` percent-encoding. Every call is an outcome parameter; a query or form is the ordered list of pairs the client sets.
- `localStorage` beyond the three-key map, and `JSON.stringify` of the stored user. The store holds the user record itself, so a stored user that fails `JSON.parse` on restore is not modelled.
- React hooks, effect scheduling and the 10-second pending-papers poll in the home route: these are lifecycle, not sequential logic. The effects are modelled as functions run at the point they fire (`Home.LoadNotifications`, `Catalog.Load`, `Search.Loaded`, `Search.Reconcile`, `Accounts.Mount`); the catalog's cancellation flag is a parameter of `Catalog.Load`, and `Catalog.NewestLoadWins` covers overlapping loads. `Search.Loaded` models a response that was not cancelled; the search page's identical flag is left to that lemma.
- The loading flags of the catalog, search and workflow pages, and the message timers of the profile page: they only drive spinners and time-outs.
- The paper status lifecycle: the client only carries the status names (`Api.PaperStatus`); the transitions are on the server.
- UI primitives (tabs, dialog, collapsible, select, switch), the static views (dashboard, statistics, user account, circulation, administration, cataloguing), the paper detail route, and the unused mock data: none holds client logic beyond layout.
- Number and date formatting (`toFixed`, `toLocaleString`, sizes in MB): floating point and locale behaviour.
- The sign-up page's handling of `createAccount`'s result: it passes seven arguments to a four-argument function and reads `result.ok`/`result.error` from a boolean. `Signup.HandleCreateAccount` stops at the call.
- The login page's handling of `login`'s result: it treats the returned Promise as a boolean, so it always navigates. `Login.HandleLogin` stops at the call.
- The workflow page's download button, the upload page's supervisor list effect, and file selection by input or drag and drop: none holds logic beyond what the catalog download and `Upload.HandleSubmit` already model.
- The browser's constraint-validation bubbles on the upload form: `Upload.SubmitForm` models only that an empty `required` field stops the submit, not the message the browser shows. Whether a UI library component forwards `required` to a real input is taken from its markup.
- Upload.RenameAuthor: the page mutates the author object in place inside a shallow copy of the list. No other reference to that object is observable, so the model treats the rename as a plain replacement.
- `Number(s)` and `String(n)` for non-integer or non-decimal text: `Strings.NumberOf` reads optionally signed decimal digit strings exactly; decimal-point, exponent and hex text become NaN in the model, where JavaScript reads a number. Only the integer years of the fixed list in SearchDiscovery.tsx:52 reach it. `Strings.IntToString` covers integers only.
- Look-ups in plain objects keyed by inherited names (`constructor`, `__proto__`): the tables are modelled as association lists that hold only their own keys.
- Accounts.ExtractErrorMessage: for a truthy `detail` that is not a string, the page keeps the value itself as the error and React renders it (a number as its digits, an array as its items side by side, an object not at all). The model gives the value's `String()` text instead, as `Api.ResponseErrorMessage` does where `new Error` converts it.
- `toLowerCase` of non-ASCII letters: `Strings.Lower` maps only A-Z and leaves every other character as it is. This differs from JavaScript for the few letters whose lower case is ASCII, such as the Kelvin sign. Both comparisons it feeds are against ASCII text: the e-mail suffix test and the case-insensitive `filename=` pattern.

## Findings

| source | as written | input that shows it | evidently intended | confidence | as-written member | corrected member |
|---|---|---|---|---|---|---|
| app/components/library/SearchDiscovery.tsx:184 | typing a query (and, at line 307, choosing a sort) keeps `currentPage`, while every filter change, loaded search and clear resets it to 0 | 13 results, page 3 shown (items 13 only), then a query that finds 5 papers: the slice from 12 is empty and, with one page, the pager that could go back is hidden | a new query or sort starts from the first page, as the filter toggles do | not executed | Search.SetQueryAsWritten, Search.StalePageAfterQuery | Search.SetQuery, Search.FreshSearchShowsResults |

=== FILE: accounts.dfy ===
/** Account management, the librarian's page: the account record shown for each
    server user, the error text shown for a failed call, loading, deleting and
    activating accounts, and the summary counts. */
module Accounts {
  import opened Wrappers
  import opened Strings
  import opened Api
  import opened Auth
  import opened Lists

  // ---------------------------------------------------------------------------
  // Accounts as shown
  // ---------------------------------------------------------------------------

  /** `ManagedAccount`. */
  datatype ManagedAccount = ManagedAccount(
    id: int, email: string, schoolId: string, school: string, name: string,
    department: string, role: ApiRole, isActive: bool, createdAt: string)

  /** The placeholder shown for a missing field. */
  const Dash := "-"

  /** `mapApiUser`: missing text fields become '-', the name falls back to the
      e-mail's local part, and a missing role to librarian for an admin and
      student otherwise. */
  function MapApiUser(u: ApiUser): (r: ManagedAccount)
    ensures r.id == u.id && r.email == u.email && r.isActive == u.isActive
    ensures r.schoolId == OptOrElse(u.schoolId, Dash) && r.school == OptOrElse(u.school, Dash)
    ensures r.department == OptOrElse(u.department, Dash) && r.createdAt == OptOrElse(u.createdAt, Dash)
    ensures r.schoolId != [] && r.school != [] && r.department != [] && r.createdAt != []
    ensures Truthy(u.fullName) ==> r.name == u.fullName.value
    ensures !Truthy(u.fullName) ==> '@' !in r.name && StartsWith(u.email, r.name)
    ensures u.role.Some? ==> r.role == u.role.value
    ensures u.role.None? ==> r.role == (if u.isAdmin then Librarian else Student)
  {
    BeforeFirstPrefix(u.email, '@');
    ManagedAccount(u.id, u.email, OptOrElse(u.schoolId, Dash), OptOrElse(u.school, Dash),
                   OptOrElse(u.fullName, BeforeFirst(u.email, '@')), OptOrElse(u.department, Dash),
                   u.role.GetOr(if u.isAdmin then Librarian else Student), u.isActive, OptOrElse(u.createdAt, Dash))
  }

  /** The account list and the session agree on a user's name, and on the role
      except for a non-admin the server gives no role: the list calls such a user a
      student, the session a member. */
  lemma MapApiUserAgreesWithSession(u: ApiUser, x: Extras)
    ensures MapApiUser(u).name == BuildUser(u, x).name
    ensures MapApiUser(u).role != RoleFromApiUser(u) <==> u.role.None? && !u.isAdmin
    ensures u.role.None? && !u.isAdmin ==> MapApiUser(u).role == Student && RoleFromApiUser(u) == Member
  {
  }

  // ---------------------------------------------------------------------------
  // Error text
  // ---------------------------------------------------------------------------

  /** A thrown value: an `Error` with its message, or anything else. */
  datatype Thrown = ErrorValue(message: string) | NotAnError

  const RequestFailed := "Request failed"

  /** `extractErrorMessage`: 'Request failed' for a non-Error; the `detail` of a
      message that parses as JSON with a truthy `detail`; the message otherwise.
      `parse` is `JSON.parse`. */
  function ExtractErrorMessage(e: Thrown, parse: string -> JsonBody): (r: string)
    ensures e.NotAnError? ==> r == RequestFailed
    ensures e.ErrorValue? && HasDetail(parse(e.message)) ==> r == DetailMessage(parse(e.message))
    ensures e.ErrorValue? && !HasDetail(parse(e.message)) ==> r == e.message
  {
    match e
    case NotAnError => RequestFailed
    case ErrorValue(m) =>
      var b := parse(m);
      if HasDetail(b) then DetailMessage(b) else m
  }

  /** Calls whose errors carry the raw body (deleting an account) still show the
      body's `detail` on this page: the message is the one a `detail`-aware response
      handler would have raised, unless the body is empty and the status text itself
      is JSON with a `detail`. */
  lemma ExtractRecoversDetail(text: string, statusText: string, parse: string -> JsonBody)
    requires text != [] || !HasDetail(parse(statusText))
    ensures ExtractErrorMessage(ErrorValue(PlainErrorMessage(text, statusText)), parse)
      == ResponseErrorMessage(text, statusText, parse)
  {
  }

  /** Showing an extracted message again changes nothing when the message is not
      itself JSON with a `detail`. */
  lemma ExtractOfPlainText(m: string, parse: string -> JsonBody)
    requires !HasDetail(parse(m))
    ensures ExtractErrorMessage(ErrorValue(m), parse) == m
  {
  }

  // ---------------------------------------------------------------------------
  // The page
  // ---------------------------------------------------------------------------

  /** The page's state: the accounts, whether they are loading, and the error line. */
  datatype AccountsPage = AccountsPage(accounts: seq<ManagedAccount>, loading: bool, error: string)

  const InitialPage := AccountsPage([], true, "")

  const MissingSession := "Missing session token. Please sign in again."

  /** Only a signed-in librarian sees the accounts. */
  predicate IsLibrarian(user: Option<User>)
  {
    user.Some? && user.value.role == Registered(Librarian)
  }

  /** The request the page lists users with. */
  const ListParams := UserListParams(None, Some(Finite(200)), None, None, None, None)

  /** The list request asks for at most 200 users and sets nothing else. */
  lemma ListQuery()
    ensures UserQuery(ListParams) == [("limit", "200")]
  {
    var r := UserQuery(ListParams);
    UserQueryLookup(ListParams);
    assert DigitChar(2) == '2' && DigitChar(0) == '0';
    assert IntToString(200) == "200";
    assert Find(r, "limit") == Some("200");
    assert IsSubsequence(KeysOf(r), UserQueryKeys);
    ListQueryShape(r);
  }

  /** A query whose keys are drawn from the users keys in order, and in which only
      `limit` is found, is that one setting. */
  lemma ListQueryShape(r: seq<(string, string)>)
    requires IsSubsequence(KeysOf(r), UserQueryKeys)
    requires Find(r, "limit") == Some("200")
    requires Find(r, "skip") == None && Find(r, "email") == None && Find(r, "is_active") == None
    requires Find(r, "is_admin") == None && Find(r, "role") == None
    ensures r == [("limit", "200")]
  {
    KeysFromList(r, UserQueryKeys);
    if |r| > 1 {
      assert r[1].0 in KeysOf(r);
      FindFound(r, 1);
    }
    FindFound(r, 0);
  }

  /** Every key of pairs whose keys are a subsequence of `b` is in `b`. */
  lemma KeysFromList(r: seq<(string, string)>, b: seq<string>)
    requires IsSubsequence(KeysOf(r), b)
    ensures forall i | 0 <= i < |r| :: r[i].0 in b
  {
    var ks := KeysOf(r);
    SubsequenceMembers(ks, b);
    forall i | 0 <= i < |r| ensures r[i].0 in b {
      assert ks[i] in ks;
    }
  }

  /** A subsequence draws its elements from the sequence. */
  lemma {:induction false} SubsequenceMembers(a: seq<string>, b: seq<string>)
    requires IsSubsequence(a, b)
    ensures forall x | x in a :: x in b
    decreases |b|
  {
    if |a| > 0 && |b| > 0 {
      if a[0] == b[0] {
        SubsequenceMembers(a[1..], b[1..]);
        assert forall x | x in a :: x == a[0] || x in a[1..];
      } else {
        SubsequenceMembers(a, b[1..]);
      }
    }
  }

  /** The key at some index is found with some value. */
  lemma {:induction false} FindFound(r: seq<(string, string)>, i: nat)
    requires i < |r|
    ensures Find(r, r[i].0).Some?
  {
    if i > 0 && r[0].0 != r[i].0 {
      FindFound(r[1..], i - 1);
    }
  }

  /** `loadAccounts`: without an access token the error is set and loading stops;
      otherwise the accounts are replaced by the server's users, or the error is
      shown and the accounts kept. Loading always ends. */
  function LoadAccounts(p: AccountsPage, token: Option<string>, net: Result<seq<ApiUser>, Thrown>,
                        parse: string -> JsonBody): (r: AccountsPage)
    ensures !r.loading
    ensures !Truthy(token) ==> r == p.(error := MissingSession, loading := false)
    ensures Truthy(token) && net.Ok? ==>
      && r.error == "" && |r.accounts| == |net.value|
      && forall i | 0 <= i < |net.value| :: r.accounts[i] == MapApiUser(net.value[i])
    ensures Truthy(token) && net.Err? ==>
      r == p.(error := ExtractErrorMessage(net.error, parse), loading := false)
  {
    if !Truthy(token) then p.(error := MissingSession, loading := false)
    else match net
      case Ok(users) =>
        AccountsPage(seq(|users|, i requires 0 <= i < |users| => MapApiUser(users[i])), false, "")
      case Err(e) => p.(error := ExtractErrorMessage(e, parse), loading := false)
  }

  /** What the page shows: Access Denied for anyone but a librarian. */
  datatype AccountsView = AccessDenied | AccountList(page: AccountsPage)

  /** The page once mounted: a librarian's accounts are loaded; anybody else is
      shown Access Denied and nothing is loaded. */
  function Mount(user: Option<User>, token: Option<string>, net: Result<seq<ApiUser>, Thrown>,
                 parse: string -> JsonBody): (r: AccountsView)
    ensures r.AccessDenied? <==> !IsLibrarian(user)
    ensures r.AccountList? ==> r.page == LoadAccounts(InitialPage, token, net, parse)
  {
    if IsLibrarian(user) then AccountList(LoadAccounts(InitialPage, token, net, parse)) else AccessDenied
  }

  // ---------------------------------------------------------------------------
  // Delete and activate
  // ---------------------------------------------------------------------------

  /** How many accounts have the id. */
  function CountId(xs: seq<ManagedAccount>, id: int): nat
  {
    if |xs| == 0 then 0 else (if xs[0].id == id then 1 else 0) + CountId(xs[1..], id)
  }

  /** `prev.filter((a) => a.id !== id)`. */
  function RemoveId(xs: seq<ManagedAccount>, id: int): (r: seq<ManagedAccount>)
    ensures forall a :: a in r <==> a in xs && a.id != id
    ensures |r| + CountId(xs, id) == |xs|
  {
    if |xs| == 0 then []
    else
      var rest := RemoveId(xs[1..], id);
      assert forall a :: a in xs <==> a == xs[0] || a in xs[1..];
      if xs[0].id == id then rest else [xs[0]] + rest
  }

  /** Removal works piecewise, so the accounts kept stay in their order. */
  lemma {:induction false} RemoveIdAppend(a: seq<ManagedAccount>, b: seq<ManagedAccount>, id: int)
    ensures RemoveId(a + b, id) == RemoveId(a, id) + RemoveId(b, id)
  {
    if |a| > 0 {
      var ab := a + b;
      assert ab[0] == a[0] && ab[1..] == a[1..] + b;
      RemoveIdAppend(a[1..], b, id);
      if a[0].id != id {
        assert RemoveId(ab, id) == [a[0]] + RemoveId(ab[1..], id);
        assert RemoveId(a, id) == [a[0]] + RemoveId(a[1..], id);
      }
    } else {
      assert a + b == b;
    }
  }

  /** Removing an id nobody has changes nothing. */
  lemma {:induction false} RemoveAbsentId(xs: seq<ManagedAccount>, id: int)
    requires forall i | 0 <= i < |xs| :: xs[i].id != id
    ensures RemoveId(xs, id) == xs
  {
    if |xs| > 0 {
      RemoveAbsentId(xs[1..], id);
      assert [xs[0]] + xs[1..] == xs;
    }
  }

  /** `prev.map((a) => (a.id === id ? mapApiUser(updated) : a))`. */
  function ReplaceId(xs: seq<ManagedAccount>, id: int, a: ManagedAccount): (r: seq<ManagedAccount>)
    ensures |r| == |xs|
    ensures forall i | 0 <= i < |xs| :: r[i] == (if xs[i].id == id then a else xs[i])
  {
    ReplaceWhere(xs, (x: ManagedAccount) => x.id == id, a)
  }

  /** The server's answer to a delete or an activation. */
  datatype ChangeOutcome<T> = Done(value: T) | Refused(thrown: Thrown)

  /** `handleDeleteAccount`: without an access token only the error is set; a
      successful delete drops every account with the id; a failed one shows the
      error and keeps the list. */
  function DeleteAccount(p: AccountsPage, token: Option<string>, id: int, net: ChangeOutcome<()>,
                         parse: string -> JsonBody): (r: AccountsPage)
    ensures !Truthy(token) ==> r == p.(error := MissingSession)
    ensures Truthy(token) && net.Done? ==> r == p.(accounts := RemoveId(p.accounts, id))
    ensures Truthy(token) && net.Refused? ==> r == p.(error := ExtractErrorMessage(net.thrown, parse))
    ensures r.loading == p.loading
  {
    if !Truthy(token) then p.(error := MissingSession)
    else match net
      case Done(_) => p.(accounts := RemoveId(p.accounts, id))
      case Refused(e) => p.(error := ExtractErrorMessage(e, parse))
  }

  /** `handleActivateAccount`: like a delete, but success replaces every account
      with the id by the server's updated record. */
  function ActivateAccount(p: AccountsPage, token: Option<string>, id: int, net: ChangeOutcome<ApiUser>,
                           parse: string -> JsonBody): (r: AccountsPage)
    ensures !Truthy(token) ==> r == p.(error := MissingSession)
    ensures Truthy(token) && net.Done? ==> r == p.(accounts := ReplaceId(p.accounts, id, MapApiUser(net.value)))
    ensures Truthy(token) && net.Refused? ==> r == p.(error := ExtractErrorMessage(net.thrown, parse))
    ensures |r.accounts| == |p.accounts|
  {
    if !Truthy(token) then p.(error := MissingSession)
    else match net
      case Done(u) => p.(accounts := ReplaceId(p.accounts, id, MapApiUser(u)))
      case Refused(e) => p.(error := ExtractErrorMessage(e, parse))
  }

  // ---------------------------------------------------------------------------
  // Counts
  // ---------------------------------------------------------------------------

  /** Accounts pending activation. */
  function PendingCount(xs: seq<ManagedAccount>): (r: nat)
    ensures r <= |xs|
    ensures r == 0 <==> forall i | 0 <= i < |xs| :: xs[i].isActive
  {
    if |xs| == 0 then 0
    else
      assert forall i | 1 <= i < |xs| :: xs[1..][i - 1] == xs[i];
      (if xs[0].isActive then 0 else 1) + PendingCount(xs[1..])
  }

  /** Active accounts. */
  function ActiveCount(xs: seq<ManagedAccount>): (r: nat)
    ensures r <= |xs|
    ensures r == 0 <==> forall i | 0 <= i < |xs| :: !xs[i].isActive
  {
    if |xs| == 0 then 0
    else
      assert forall i | 1 <= i < |xs| :: xs[1..][i - 1] == xs[i];
      (if xs[0].isActive then 1 else 0) + ActiveCount(xs[1..])
  }

  /** Pending and active accounts together are all of them. */
  lemma {:induction false} CountsPartition(xs: seq<ManagedAccount>)
    ensures PendingCount(xs) + ActiveCount(xs) == |xs|
  {
    if |xs| > 0 {
      CountsPartition(xs[1..]);
    }
  }

  /** Activating an account never raises the pending count when the server returns
      it active. */
  lemma {:induction false} ActivationLowersPending(xs: seq<ManagedAccount>, id: int, a: ManagedAccount)
    requires a.isActive
    ensures PendingCount(ReplaceId(xs, id, a)) <= PendingCount(xs)
    ensures ActiveCount(ReplaceId(xs, id, a)) >= ActiveCount(xs)
  {
    if |xs| > 0 {
      assert ReplaceId(xs, id, a)[1..] == ReplaceId(xs[1..], id, a);
      ActivationLowersPending(xs[1..], id, a);
    }
  }
}

=== FILE: api.dfy ===
/** The REST client (app/lib/api.ts): the records the server sends, the base URL, the
    message of the error a failed response raises, the query strings of the list
    endpoints, the multipart fields of a paper upload, and the download filename.
    `fetch`, `FormData` and `URLSearchParams` themselves are not modelled: a query is
    the ordered list of the pairs the client sets, and a form the ordered list of the
    fields it sets. */
module Api {
  import opened Wrappers
  import opened Strings

  // ---------------------------------------------------------------------------
  // Records the server sends
  // ---------------------------------------------------------------------------

  /** `ApiUserRole`: the roles an account can hold on the server. */
  datatype ApiRole = Student | Member | Lecturer | Staff | ProjectCoordinator | Hod | Librarian

  /** The wire name of a role. */
  function ApiRoleName(r: ApiRole): string
  {
    match r
    case Student => "student"
    case Member => "member"
    case Lecturer => "lecturer"
    case Staff => "staff"
    case ProjectCoordinator => "project_coordinator"
    case Hod => "hod"
    case Librarian => "librarian"
  }

  /** The role a wire name denotes, if any. */
  function ApiRoleFromName(s: string): (r: Option<ApiRole>)
    ensures r.Some? ==> ApiRoleName(r.value) == s
  {
    if s == "student" then Some(Student)
    else if s == "member" then Some(Member)
    else if s == "lecturer" then Some(Lecturer)
    else if s == "staff" then Some(Staff)
    else if s == "project_coordinator" then Some(ProjectCoordinator)
    else if s == "hod" then Some(Hod)
    else if s == "librarian" then Some(Librarian)
    else None
  }

  /** Every role's wire name reads back as that role, so no two roles share a name. */
  lemma ApiRoleNameRoundTrip(r: ApiRole)
    ensures ApiRoleFromName(ApiRoleName(r)) == Some(r)
  {
  }

  /** `ApiUser`. The source types `role` as always present but falls back when it is
      falsy, so the model lets it be absent. */
  datatype ApiUser = ApiUser(
    id: int,
    email: string,
    schoolId: Option<string>,
    school: Option<string>,
    fullName: Option<string>,
    department: Option<string>,
    isActive: bool,
    isAdmin: bool,
    role: Option<ApiRole>,
    createdAt: Option<string>)

  /** `ApiPaper.status`: the only part of the paper lifecycle the client sees. */
  datatype PaperStatus =
    | Draft | Pending | PendingLecturer | PendingCoordinator | PendingHod
    | PendingHodAndCoordinator | ApprovedForLibrary | Approved | Revision | Rejected

  function StatusName(s: PaperStatus): string
  {
    match s
    case Draft => "draft"
    case Pending => "pending"
    case PendingLecturer => "pending_lecturer"
    case PendingCoordinator => "pending_coordinator"
    case PendingHod => "pending_hod"
    case PendingHodAndCoordinator => "pending_hod_and_coordinator"
    case ApprovedForLibrary => "approved_for_library"
    case Approved => "approved"
    case Revision => "revision"
    case Rejected => "rejected"
  }

  /** The fields of `ApiPaper` the client computes with. */
  datatype Paper = Paper(id: int, title: string, status: PaperStatus, views: int, downloads: int)

  /** `TokenResponse`. */
  datatype Tokens = Tokens(access: string, refresh: string)

  /** `ApiNotification`. */
  datatype Notification = Notification(
    id: int,
    userId: int,
    paperId: Option<int>,
    kind: string,
    message: string,
    isRead: bool,
    createdAt: Option<string>)

  // ---------------------------------------------------------------------------
  // Base URL
  // ---------------------------------------------------------------------------

  const DefaultApiUrl: string := "http://127.0.0.1:8000"

  /** `VITE_API_URL || DEFAULT_API_URL`; `configured` is the environment value. */
  function BaseUrl(configured: Option<string>): (r: string)
    ensures r != []
  {
    OptOrElse(configured, DefaultApiUrl)
  }

  /** `apiBase`: the base URL with one trailing '/' dropped, then "/api". */
  function ApiBase(configured: Option<string>): (r: string)
    ensures EndsWith(r, "/api")
    ensures EndsWith(BaseUrl(configured), "/") ==> r[..|r| - 4] + "/" == BaseUrl(configured)
    ensures !EndsWith(BaseUrl(configured), "/") ==> r[..|r| - 4] == BaseUrl(configured)
  {
    var b := BaseUrl(configured);
    var stem := if EndsWith(b, "/") then b[..|b| - 1] else b;
    assert (stem + "/api")[..|stem|] == stem;
    stem + "/api"
  }

  /** Without a configured URL (or with an empty one) the client talks to the local server. */
  lemma DefaultApiBase(configured: Option<string>)
    requires !Truthy(configured)
    ensures ApiBase(configured) == "http://127.0.0.1:8000/api"
  {
    assert !EndsWith(DefaultApiUrl, "/") by { assert DefaultApiUrl[|DefaultApiUrl| - 1] == '0'; }
  }

  /** Only one slash is dropped: a base ending in "//" keeps one of them. */
  lemma ApiBaseDropsOneSlash(stem: string)
    requires stem != []
    ensures ApiBase(Some(stem + "//")) == stem + "/" + "/api"
  {
    var b := stem + "//";
    assert EndsWith(b, "/") by { assert b[|b| - 1..] == "/"; }
    assert b[..|b| - 1] == stem + "/";
  }

  // ---------------------------------------------------------------------------
  // Error messages
  // ---------------------------------------------------------------------------

  /** A JSON `detail` property: a string, or another JSON value (a number, a boolean,
      an array, an object) given by its truthiness and by `String(value)`. */
  datatype Detail = TextDetail(text: string) | OtherDetail(truthy: bool, shown: string)

  /** The detail is truthy: a non-empty string, or a truthy other value. */
  predicate DetailTruthy(d: Detail)
  {
    match d
    case TextDetail(t) => t != []
    case OtherDetail(t, _) => t
  }

  /** `String(detail)`: the text `new Error(detail)` gives its message. */
  function DetailText(d: Detail): (r: string)
    ensures d.TextDetail? ==> r == d.text
    ensures d.OtherDetail? ==> r == d.shown
  {
    match d
    case TextDetail(t) => t
    case OtherDetail(_, shown) => shown
  }

  /** What `JSON.parse` makes of a text: not JSON, or a JSON value with its `detail`
      property when it has one (`parsed?.detail` is `undefined` for `null`, for
      primitives and for objects without it). */
  datatype JsonBody = NotJson | JsonValue(detail: Option<Detail>)

  /** `parsed?.detail` is truthy. */
  predicate HasDetail(b: JsonBody)
  {
    b.JsonValue? && b.detail.Some? && DetailTruthy(b.detail.value)
  }

  /** The text of a truthy `detail`. */
  function DetailMessage(b: JsonBody): string
    requires HasDetail(b)
  {
    DetailText(b.detail.value)
  }

  /** The message of the Error `handleResponse` raises for a non-OK response with body
      `text`; `parse` is `JSON.parse`. */
  function ResponseErrorMessage(text: string, statusText: string, parse: string -> JsonBody): (r: string)
    ensures text != [] && HasDetail(parse(text)) ==> r == DetailMessage(parse(text))
    ensures text != [] && !HasDetail(parse(text)) ==> r == text
    ensures text == [] ==> r == statusText
  {
    var message := OrElse(text, statusText);
    if text != [] && HasDetail(parse(text)) then DetailMessage(parse(text)) else message
  }

  /** The message `apiDeleteUser` and `apiDownloadPaperFile` raise: the raw body, or the
      status text when the body is empty, with no `detail` lookup. */
  function PlainErrorMessage(text: string, statusText: string): (r: string)
    ensures text != [] ==> r == text
    ensures text == [] ==> r == statusText
  {
    OrElse(text, statusText)
  }

  /** The two error paths disagree exactly when the body is JSON whose `detail` differs
      from the body itself. */
  lemma PlainVersusResponseMessage(text: string, statusText: string, parse: string -> JsonBody)
    ensures PlainErrorMessage(text, statusText) != ResponseErrorMessage(text, statusText, parse)
        <==> text != [] && HasDetail(parse(text)) && DetailMessage(parse(text)) != text
  {
  }

  // ---------------------------------------------------------------------------
  // Ordered key/value lists (URLSearchParams, FormData)
  // ---------------------------------------------------------------------------

  /** The value of the first pair with key `k`, as `params.get(k)` / `form.get(k)`. */
  function Find<V>(ps: seq<(string, V)>, k: string): Option<V>
  {
    if |ps| == 0 then None
    else if ps[0].0 == k then Some(ps[0].1)
    else Find(ps[1..], k)
  }

  /** A key no pair carries is not found. */
  lemma {:induction false} FindMissing<V>(ps: seq<(string, V)>, k: string)
    requires forall i | 0 <= i < |ps| :: ps[i].0 != k
    ensures Find(ps, k) == None
  {
    if |ps| > 0 {
      assert forall i | 0 <= i < |ps[1..]| :: ps[1..][i] == ps[i + 1];
      FindMissing(ps[1..], k);
    }
  }

  /** The value found for a key is the one at its first occurrence. */
  lemma {:induction false} FindAt<V>(ps: seq<(string, V)>, i: nat)
    requires i < |ps| && forall j | 0 <= j < i :: ps[j].0 != ps[i].0
    ensures Find(ps, ps[i].0) == Some(ps[i].1)
  {
    if i > 0 {
      assert forall j | 0 <= j < i - 1 :: ps[1..][j] == ps[j + 1];
      FindAt(ps[1..], i - 1);
    }
  }

  /** In a table without repeated keys, a listed key finds its own value and an
      unlisted key finds nothing. */
  lemma FindDistinct<V>(ps: seq<(string, V)>, k: string)
    requires DistinctKeys(ps)
    ensures forall i | 0 <= i < |ps| && ps[i].0 == k :: Find(ps, k) == Some(ps[i].1)
    ensures k !in KeysOf(ps) ==> Find(ps, k) == None
  {
    forall i | 0 <= i < |ps| && ps[i].0 == k
      ensures Find(ps, k) == Some(ps[i].1)
    {
      FindAt(ps, i);
    }
    if k !in KeysOf(ps) {
      FindMissing(ps, k);
    }
  }

  /** The keys, in order. */
  function KeysOf<V>(ps: seq<(string, V)>): (r: seq<string>)
    ensures |r| == |ps|
    ensures forall i | 0 <= i < |ps| :: r[i] == ps[i].0
  {
    if |ps| == 0 then [] else [ps[0].0] + KeysOf(ps[1..])
  }

  /** Each key paired with the value at the same position. */
  function Zip<V>(ks: seq<string>, vs: seq<V>): (r: seq<(string, V)>)
    requires |ks| == |vs|
    ensures |r| == |ks| && forall i | 0 <= i < |ks| :: r[i] == (ks[i], vs[i])
  {
    seq(|ks|, i requires 0 <= i < |ks| => (ks[i], vs[i]))
  }

  /** Zipped pairs carry the keys they were zipped from. */
  lemma KeysOfZip<V>(ks: seq<string>, vs: seq<V>)
    requires |ks| == |vs|
    ensures KeysOf(Zip(ks, vs)) == ks
  {
    var r := KeysOf(Zip(ks, vs));
    assert forall i | 0 <= i < |ks| :: r[i] == ks[i];
  }

  /** `a` is `b` with some elements left out. */
  predicate IsSubsequence(a: seq<string>, b: seq<string>)
    decreases |b|
  {
    if |a| == 0 then true
    else if |b| == 0 then false
    else if a[0] == b[0] then IsSubsequence(a[1..], b[1..])
    else IsSubsequence(a, b[1..])
  }

  predicate DistinctKeys<V>(ps: seq<(string, V)>)
  {
    forall i, j | 0 <= i < j < |ps| :: ps[i].0 != ps[j].0
  }

  /** The candidate settings, in the order the client considers them, with the
      unset ones dropped: a run of `if (…) query.set(key, value)` on a fresh object. */
  function Present<V>(cs: seq<(string, Option<V>)>): (r: seq<(string, V)>)
    ensures |r| <= |cs|
    ensures r == [] <==> forall i | 0 <= i < |cs| :: cs[i].1.None?
  {
    if |cs| == 0 then []
    else
      var rest := Present(cs[1..]);
      assert forall i | 1 <= i < |cs| :: cs[1..][i - 1] == cs[i];
      if cs[0].1.Some? then [(cs[0].0, cs[0].1.value)] + rest else rest
  }

  /** The value a candidate list gives key `k`: the setting of its first candidate with
      that key. */
  function Setting<V>(cs: seq<(string, Option<V>)>, k: string): Option<V>
  {
    if |cs| == 0 then None
    else if cs[0].0 == k then cs[0].1
    else Setting(cs[1..], k)
  }

  /** Looking a key up in the set pairs gives exactly that key's setting, when keys
      are distinct: a key is present only when its parameter was set. */
  lemma {:induction false} FindPresent<V>(cs: seq<(string, Option<V>)>, k: string)
    requires DistinctKeys(cs)
    ensures Find(Present(cs), k) == Setting(cs, k)
  {
    if |cs| > 0 {
      assert DistinctKeys(cs[1..]) by {
        forall i, j | 0 <= i < j < |cs[1..]| ensures cs[1..][i].0 != cs[1..][j].0 {
          assert cs[1..][i] == cs[i + 1] && cs[1..][j] == cs[j + 1];
        }
      }
      FindPresent(cs[1..], k);
      if cs[0].0 == k {
        SettingAbsent(cs[1..], k);
        FindAbsent(Present(cs[1..]), cs[1..], k);
      }
    }
  }

  /** With distinct keys, the setting of the key at index `i` is the value there. */
  lemma {:induction false} SettingAt<V>(cs: seq<(string, Option<V>)>, i: nat)
    requires DistinctKeys(cs) && i < |cs|
    ensures Setting(cs, cs[i].0) == cs[i].1
  {
    if i > 0 {
      assert cs[0].0 != cs[i].0;
      assert DistinctKeys(cs[1..]) by {
        forall a, b | 0 <= a < b < |cs[1..]| ensures cs[1..][a].0 != cs[1..][b].0 {
          assert cs[1..][a] == cs[a + 1] && cs[1..][b] == cs[b + 1];
        }
      }
      SettingAt(cs[1..], i - 1);
    }
  }

  /** With distinct keys, the set pairs give the key at index `i` exactly the value
      of its candidate: present when set, absent when not. */
  lemma FindPresentAt<V>(cs: seq<(string, Option<V>)>, i: nat)
    requires DistinctKeys(cs) && i < |cs|
    ensures Find(Present(cs), cs[i].0) == cs[i].1
  {
    FindPresent(cs, cs[i].0);
    SettingAt(cs, i);
  }

  /** Pairs whose key list has no repeated key have distinct keys. */
  lemma DistinctByKeys<V>(ps: seq<(string, V)>, ks: seq<string>)
    requires KeysOf(ps) == ks
    requires forall i, j | 0 <= i < j < |ks| :: ks[i] != ks[j]
    ensures DistinctKeys(ps)
  {
  }

  /** A key no candidate carries has no setting. */
  lemma {:induction false} SettingAbsent<V>(cs: seq<(string, Option<V>)>, k: string)
    requires forall i | 0 <= i < |cs| :: cs[i].0 != k
    ensures Setting(cs, k) == None
  {
    if |cs| > 0 {
      assert forall i | 0 <= i < |cs[1..]| :: cs[1..][i] == cs[i + 1];
      SettingAbsent(cs[1..], k);
    }
  }

  /** The set pairs carry no key their candidates lack. */
  lemma {:induction false} FindAbsent<V>(ps: seq<(string, V)>, cs: seq<(string, Option<V>)>, k: string)
    requires ps == Present(cs)
    requires forall i | 0 <= i < |cs| :: cs[i].0 != k
    ensures Find(ps, k) == None
    decreases |cs|
  {
    if |cs| > 0 {
      assert forall i | 0 <= i < |cs[1..]| :: cs[1..][i] == cs[i + 1];
      FindAbsent(Present(cs[1..]), cs[1..], k);
    }
  }

  /** The keys that are set keep the order of the candidates. */
  lemma {:induction false} PresentKeysInOrder<V>(cs: seq<(string, Option<V>)>)
    ensures IsSubsequence(KeysOf(Present(cs)), KeysOf(cs))
  {
    if |cs| > 0 {
      PresentKeysInOrder(cs[1..]);
      var rest := KeysOf(Present(cs[1..]));
      assert KeysOf(cs)[1..] == KeysOf(cs[1..]);
      if cs[0].1.Some? {
        assert KeysOf(Present(cs)) == [cs[0].0] + rest;
        assert ([cs[0].0] + rest)[1..] == rest;
      } else {
        SubsequenceSkip(rest, KeysOf(cs));
      }
    }
  }

  /** A subsequence of the tail is a subsequence of the whole. */
  lemma {:induction false} SubsequenceSkip(a: seq<string>, b: seq<string>)
    requires |b| > 0 && IsSubsequence(a, b[1..])
    ensures IsSubsequence(a, b)
    decreases |b|, 1
  {
    if |a| > 0 && a[0] == b[0] {
      SubsequenceDropHead(a, b[1..]);
    }
  }

  /** Dropping the first element of a subsequence keeps it a subsequence. */
  lemma {:induction false} SubsequenceDropHead(a: seq<string>, c: seq<string>)
    requires |a| > 0 && IsSubsequence(a, c)
    ensures IsSubsequence(a[1..], c)
    decreases |c| + 1, 0
  {
    if a[0] == c[0] {
      SubsequenceSkip(a[1..], c);
    } else {
      SubsequenceDropHead(a, c[1..]);
      SubsequenceSkip(a[1..], c);
    }
  }

  /** Candidate keys are the setting names of one `if (…) query.set(…)` each. */
  function TextSetting(o: Option<string>): (r: Option<string>)
    ensures r.Some? <==> Truthy(o)
  {
    if Truthy(o) then o else None
  }

  function NumberSetting(o: Option<JsNumber>): (r: Option<string>)
    ensures r.Some? <==> o.Some?
  {
    if o.Some? then Some(NumberText(o.value)) else None
  }

  function BoolText(b: bool): string
  {
    if b then "true" else "false"
  }

  function BoolSetting(o: Option<bool>): (r: Option<string>)
    ensures r.Some? <==> o.Some?
  {
    if o.Some? then Some(BoolText(o.value)) else None
  }

  /** `URLSearchParams.toString()` without percent-encoding: "k=v" pairs joined by '&'. */
  function Serialize(q: seq<(string, string)>): (r: string)
    ensures q != [] ==> r != []
  {
    var parts := seq(|q|, i requires 0 <= i < |q| => q[i].0 + "=" + q[i].1);
    var r := Join(parts, '&');
    assert q != [] ==> '=' in parts[0];
    assert q != [] ==> r != [] by {
      if q != [] {
        JoinNonEmpty(parts, '&');
      }
    }
    r
  }

  /** A join of pieces whose first piece is non-empty is non-empty. */
  lemma JoinNonEmpty(parts: seq<string>, sep: char)
    requires |parts| > 0 && parts[0] != []
    ensures Join(parts, sep) != []
  {
  }

  /** `${path}${query.toString() ? `?${query}` : ""}`. */
  function WithQuery(path: string, q: seq<(string, string)>): (r: string)
    ensures q == [] ==> r == path
    ensures q != [] ==> StartsWith(r, path + "?") && |r| > |path| + 1
  {
    if q == [] then path else
      var r := path + "?" + Serialize(q);
      assert r[..|path + "?"|] == path + "?";
      r
  }

  // ---------------------------------------------------------------------------
  // apiListPapers
  // ---------------------------------------------------------------------------

  /** The optional parameters of `apiListPapers`. */
  datatype PaperListParams = PaperListParams(
    q: Option<string>,
    discipline: Option<string>,
    university: Option<string>,
    year: Option<JsNumber>,
    status: Option<string>,
    sort: Option<string>,
    skip: Option<JsNumber>,
    limit: Option<JsNumber>,
    catalog: Option<bool>)

  /** `{}`: the default parameters. */
  const NoPaperParams := PaperListParams(None, None, None, None, None, None, None, None, None)

  const PaperQueryKeys: seq<string> := ["q", "discipline", "university", "year", "status", "sort", "skip", "limit", "catalog"]

  /** One `if (params.x) query.set("x", …)` per parameter, in the order they run. */
  function PaperCandidates(p: PaperListParams): (cs: seq<(string, Option<string>)>)
    ensures KeysOf(cs) == PaperQueryKeys
  {
    var vs := [TextSetting(p.q), TextSetting(p.discipline), TextSetting(p.university), NumberSetting(p.year),
               TextSetting(p.status), TextSetting(p.sort), NumberSetting(p.skip), NumberSetting(p.limit),
               BoolSetting(p.catalog)];
    KeysOfZip(PaperQueryKeys, vs);
    Zip(PaperQueryKeys, vs)
  }

  /** No parameter of `apiListPapers` passes its `if`. */
  predicate SetsNoPaperKey(p: PaperListParams)
  {
    && !Truthy(p.q) && !Truthy(p.discipline) && !Truthy(p.university) && p.year.None?
    && !Truthy(p.status) && !Truthy(p.sort) && p.skip.None? && p.limit.None? && p.catalog.None?
  }

  /** Every key of `apiListPapers` is named once. */
  lemma PaperKeysDistinct(p: PaperListParams)
    ensures DistinctKeys(PaperCandidates(p))
  {
    DistinctByKeys(PaperCandidates(p), PaperQueryKeys);
  }

  /** The query `apiListPapers` builds: its keys keep the fixed order q, discipline,
      university, year, status, sort, skip, limit, catalog, and it is empty exactly
      when no parameter passes its `if`. */
  function PaperQuery(p: PaperListParams): (r: seq<(string, string)>)
    ensures IsSubsequence(KeysOf(r), PaperQueryKeys)
    ensures r == [] <==> SetsNoPaperKey(p)
  {
    var cs := PaperCandidates(p);
    PresentKeysInOrder(cs);
    PaperCandidatesUnset(p);
    Present(cs)
  }

  /** The candidates are all unset exactly when no parameter passes its `if`. */
  lemma PaperCandidatesUnset(p: PaperListParams)
    ensures (forall i | 0 <= i < |PaperCandidates(p)| :: PaperCandidates(p)[i].1.None?) <==> SetsNoPaperKey(p)
  {
    var cs := PaperCandidates(p);
    if SetsNoPaperKey(p) {
      NoPaperKeyNoCandidate(p, cs);
    } else {
      var i :=
        if Truthy(p.q) then 0 else if Truthy(p.discipline) then 1
        else if Truthy(p.university) then 2 else if p.year.Some? then 3
        else if Truthy(p.status) then 4 else if Truthy(p.sort) then 5
        else if p.skip.Some? then 6 else if p.limit.Some? then 7 else 8;
      assert cs[i].1.Some?;
    }
  }

  lemma NoPaperKeyNoCandidate(p: PaperListParams, cs: seq<(string, Option<string>)>)
    requires cs == PaperCandidates(p) && SetsNoPaperKey(p)
    ensures forall i | 0 <= i < |cs| :: cs[i].1.None?
  {
    assert cs == [("q", None), ("discipline", None), ("university", None), ("year", None), ("status", None),
                  ("sort", None), ("skip", None), ("limit", None), ("catalog", None)];
  }

  /** Each key of the papers query is present only when its parameter is set, text
      parameters when non-empty, numbers when present, `catalog` when it is a
      boolean, and then carries that parameter's text. */
  lemma PaperQueryLookup(p: PaperListParams)
    ensures var r := PaperQuery(p);
      && Find(r, "q") == (if Truthy(p.q) then p.q else None)
      && Find(r, "discipline") == (if Truthy(p.discipline) then p.discipline else None)
      && Find(r, "university") == (if Truthy(p.university) then p.university else None)
      && Find(r, "year") == (if p.year.Some? then Some(NumberText(p.year.value)) else None)
      && Find(r, "status") == (if Truthy(p.status) then p.status else None)
      && Find(r, "sort") == (if Truthy(p.sort) then p.sort else None)
      && Find(r, "skip") == (if p.skip.Some? then Some(NumberText(p.skip.value)) else None)
      && Find(r, "limit") == (if p.limit.Some? then Some(NumberText(p.limit.value)) else None)
      && Find(r, "catalog") == (if p.catalog.Some? then Some(BoolText(p.catalog.value)) else None)
  {
    var cs := PaperCandidates(p);
    PaperKeysDistinct(p);
    FindPresentAt(cs, 0);
    FindPresentAt(cs, 1);
    FindPresentAt(cs, 2);
    FindPresentAt(cs, 3);
    FindPresentAt(cs, 4);
    FindPresentAt(cs, 5);
    FindPresentAt(cs, 6);
    FindPresentAt(cs, 7);
    FindPresentAt(cs, 8);
  }

  /** The URL `apiListPapers` fetches. */
  function PapersUrl(apiBase: string, p: PaperListParams): string
  {
    WithQuery(apiBase + "/papers", PaperQuery(p))
  }

  /** The papers URL has a '?' after the base exactly when some parameter was set, and
      is the bare endpoint otherwise. */
  lemma PapersUrlQuestionMark(apiBase: string, p: PaperListParams)
    ensures var u := PapersUrl(apiBase, p);
      && |apiBase| <= |u| && u[..|apiBase|] == apiBase
      && ('?' in u[|apiBase|..] <==> !SetsNoPaperKey(p))
      && (SetsNoPaperKey(p) <==> u == apiBase + "/papers")
  {
    var q := PaperQuery(p);
    assert '?' !in "/papers";
    assert PapersUrl(apiBase, p) == WithQuery(apiBase + "/papers", q);
    EndpointQueryMark(apiBase, "/papers", q);
  }

  /** An endpoint URL carries a '?' after the base exactly when the query is non-empty,
      as long as the endpoint path has none. */
  lemma EndpointQueryMark(apiBase: string, endpoint: string, q: seq<(string, string)>)
    requires '?' !in endpoint
    ensures var u := WithQuery(apiBase + endpoint, q);
      && |apiBase| <= |u| && u[..|apiBase|] == apiBase
      && ('?' in u[|apiBase|..] <==> q != [])
      && (q == [] <==> u == apiBase + endpoint)
  {
    var path := apiBase + endpoint;
    var u := WithQuery(path, q);
    assert u[..|apiBase|] == apiBase by { assert u[..|path|][..|apiBase|] == apiBase; }
    if q == [] {
      assert u[|apiBase|..] == endpoint;
    } else {
      assert u[|path|] == '?';
      assert u[|apiBase|..][|endpoint|] == '?';
    }
  }

  // ---------------------------------------------------------------------------
  // apiListUsers
  // ---------------------------------------------------------------------------

  /** `ApiListUsersParams`. */
  datatype UserListParams = UserListParams(
    skip: Option<JsNumber>,
    limit: Option<JsNumber>,
    email: Option<string>,
    isActive: Option<bool>,
    isAdmin: Option<bool>,
    role: Option<ApiRole>)

  const UserQueryKeys: seq<string> := ["skip", "limit", "email", "is_active", "is_admin", "role"]

  function UserCandidates(p: UserListParams): (cs: seq<(string, Option<string>)>)
    ensures KeysOf(cs) == UserQueryKeys
  {
    var vs := [NumberSetting(p.skip), NumberSetting(p.limit), TextSetting(p.email), BoolSetting(p.isActive),
               BoolSetting(p.isAdmin), if p.role.Some? then Some(ApiRoleName(p.role.value)) else None];
    KeysOfZip(UserQueryKeys, vs);
    Zip(UserQueryKeys, vs)
  }

  predicate SetsNoUserKey(p: UserListParams)
  {
    p.skip.None? && p.limit.None? && !Truthy(p.email) && p.isActive.None? && p.isAdmin.None? && p.role.None?
  }

  /** The query `apiListUsers` builds: keys in the fixed order skip, limit, email,
      is_active, is_admin, role, and none at all exactly when no parameter is set. */
  function UserQuery(p: UserListParams): (r: seq<(string, string)>)
    ensures IsSubsequence(KeysOf(r), UserQueryKeys)
    ensures r == [] <==> SetsNoUserKey(p)
  {
    var cs := UserCandidates(p);
    PresentKeysInOrder(cs);
    assert (forall i | 0 <= i < |cs| :: cs[i].1.None?) <==> SetsNoUserKey(p) by {
      assert cs[0].1.None? <==> p.skip.None?;
      assert cs[1].1.None? <==> p.limit.None?;
      assert cs[2].1.None? <==> !Truthy(p.email);
      assert cs[3].1.None? <==> p.isActive.None?;
      assert cs[4].1.None? <==> p.isAdmin.None?;
      assert cs[5].1.None? <==> p.role.None?;
    }
    Present(cs)
  }

  /** Each key of the users query is present only when its parameter is, and then
      carries that parameter's text; `email` only when non-empty. */
  lemma UserQueryLookup(p: UserListParams)
    ensures var r := UserQuery(p);
      && Find(r, "skip") == (if p.skip.Some? then Some(NumberText(p.skip.value)) else None)
      && Find(r, "limit") == (if p.limit.Some? then Some(NumberText(p.limit.value)) else None)
      && Find(r, "email") == (if Truthy(p.email) then p.email else None)
      && Find(r, "is_active") == (if p.isActive.Some? then Some(BoolText(p.isActive.value)) else None)
      && Find(r, "is_admin") == (if p.isAdmin.Some? then Some(BoolText(p.isAdmin.value)) else None)
      && Find(r, "role") == (if p.role.Some? then Some(ApiRoleName(p.role.value)) else None)
  {
    UserFieldAt(p, 0);
    UserFieldAt(p, 1);
    UserFieldAt(p, 2);
    UserFieldAt(p, 3);
    UserFieldAt(p, 4);
    UserFieldAt(p, 5);
  }

  /** The users query carries the key at position `i` of the candidate list exactly
      when that candidate is set, with its text. */
  lemma UserFieldAt(p: UserListParams, i: nat)
    requires i < |UserQueryKeys|
    ensures Find(UserQuery(p), UserQueryKeys[i]) == UserCandidates(p)[i].1
  {
    var cs := UserCandidates(p);
    UserKeysUnique();
    DistinctByKeys(cs, UserQueryKeys);
    FindPresentAt(cs, i);
  }

  lemma UserKeysUnique()
    ensures forall i, j | 0 <= i < j < |UserQueryKeys| :: UserQueryKeys[i] != UserQueryKeys[j]
  {
  }

  /** The URL `apiListUsers` fetches: '?' appears exactly when a key was set. */
  function UsersUrl(apiBase: string, p: UserListParams): (u: string)
    ensures SetsNoUserKey(p) ==> u == apiBase + "/users"
    ensures !SetsNoUserKey(p) ==> StartsWith(u, apiBase + "/users?")
  {
    WithQuery(apiBase + "/users", UserQuery(p))
  }

  // ---------------------------------------------------------------------------
  // apiUploadPaper
  // ---------------------------------------------------------------------------

  /** The `File` being uploaded, by name and size. */
  datatype FileRef = FileRef(name: string, size: nat)

  /** An entry of `authors` in the payload. */
  datatype AuthorPayload = AuthorPayload(name: string, email: Option<string>, affiliation: Option<string>)

  /** `ApiUploadPaperPayload`. */
  datatype UploadPayload = UploadPayload(
    title: string,
    abstractText: Option<string>,
    discipline: Option<string>,
    university: Option<string>,
    year: Option<JsNumber>,
    documentType: Option<string>,
    license: Option<string>,
    fileName: Option<string>,
    supervisorId: Option<JsNumber>,
    tags: Option<seq<string>>,
    authors: Option<seq<AuthorPayload>>,
    file: FileRef)

  /** A multipart field value: text or the file itself. */
  datatype FormValue = Text(text: string) | Attachment(file: FileRef)

  /** Four hexadecimal digits of a code unit below 0x10000, lower case, as `JSON.stringify` writes them. */
  function Hex4(n: nat): string
    requires n < 0x1_0000
  {
    var digits := "0123456789abcdef";
    [digits[n / 0x1000], digits[(n / 0x100) % 16], digits[(n / 16) % 16], digits[n % 16]]
  }

  /** The escape `JSON.stringify` writes for one character of a string. */
  function JsonChar(c: char): string
  {
    if c == '"' then "\\\""
    else if c == '\\' then "\\\\"
    else if c == '\n' then "\\n"
    else if c == '\r' then "\\r"
    else if c == '\t' then "\\t"
    else if c == '\U{0008}' then "\\b"
    else if c == '\U{000C}' then "\\f"
    else if (c as int) < 0x20 then "\\u" + Hex4(c as int)
    else [c]
  }

  function JsonEscape(s: string): string
  {
    if |s| == 0 then "" else JsonChar(s[0]) + JsonEscape(s[1..])
  }

  /** `JSON.stringify` of a string. */
  function JsonString(s: string): string
  {
    "\"" + JsonEscape(s) + "\""
  }

  /** `JSON.stringify` of an array of strings. */
  function JsonStrings(xs: seq<string>): string
  {
    "[" + Join(seq(|xs|, i requires 0 <= i < |xs| => JsonString(xs[i])), ',') + "]"
  }

  /** `JSON.stringify` of one author object; absent properties are left out. */
  function JsonAuthor(a: AuthorPayload): string
  {
    "{\"name\":" + JsonString(a.name)
      + (if a.email.Some? then ",\"email\":" + JsonString(a.email.value) else "")
      + (if a.affiliation.Some? then ",\"affiliation\":" + JsonString(a.affiliation.value) else "")
      + "}"
  }

  function JsonAuthors(xs: seq<AuthorPayload>): string
  {
    "[" + Join(seq(|xs|, i requires 0 <= i < |xs| => JsonAuthor(xs[i])), ',') + "]"
  }

  function TextField(o: Option<string>): (r: Option<FormValue>)
    ensures r.Some? <==> Truthy(o)
  {
    if Truthy(o) then Some(Text(o.value)) else None
  }

  function NumberField(o: Option<JsNumber>): (r: Option<FormValue>)
    ensures r.Some? <==> o.Some?
  {
    if o.Some? then Some(Text(NumberText(o.value))) else None
  }

  const UploadKeys: seq<string> := ["title", "abstract", "discipline", "university", "year", "document_type", "license", "supervisor_id", "tags", "authors", "file"]

  function UploadCandidates(p: UploadPayload): (cs: seq<(string, Option<FormValue>)>)
    ensures KeysOf(cs) == UploadKeys
  {
    var vs := [Some(Text(p.title)), TextField(p.abstractText), TextField(p.discipline), TextField(p.university),
               NumberField(p.year), TextField(p.documentType), TextField(p.license), NumberField(p.supervisorId),
               Some(Text(JsonStrings(p.tags.GetOr([])))), Some(Text(JsonAuthors(p.authors.GetOr([])))),
               Some(Attachment(p.file))];
    KeysOfZip(UploadKeys, vs);
    Zip(UploadKeys, vs)
  }

  /** Every field of the upload form is named once. */
  lemma UploadKeysDistinct(p: UploadPayload)
    ensures DistinctKeys(UploadCandidates(p))
  {
    UploadKeysUnique();
    DistinctByKeys(UploadCandidates(p), UploadKeys);
  }

  lemma UploadKeysUnique()
    ensures forall i, j | 0 <= i < j < |UploadKeys| :: UploadKeys[i] != UploadKeys[j]
  {
  }

  /** The multipart fields `apiUploadPaper` sends, in the order it appends them. */
  function UploadForm(p: UploadPayload): (r: seq<(string, FormValue)>)
    ensures IsSubsequence(KeysOf(r), UploadKeys)
  {
    var cs := UploadCandidates(p);
    PresentKeysInOrder(cs);
    Present(cs)
  }

  /** The fields the upload form always carries: title, tags, authors and the file,
      tags and authors as the JSON text "[]" when absent; and `file_name` never,
      although the payload type has it. */
  lemma UploadFormFixedFields(p: UploadPayload)
    ensures var r := UploadForm(p);
      && Find(r, "title") == Some(Text(p.title))
      && Find(r, "file") == Some(Attachment(p.file))
      && Find(r, "tags") == Some(Text(JsonStrings(p.tags.GetOr([]))))
      && Find(r, "authors") == Some(Text(JsonAuthors(p.authors.GetOr([]))))
      && (p.tags.None? ==> Find(r, "tags") == Some(Text("[]")))
      && (p.authors.None? ==> Find(r, "authors") == Some(Text("[]")))
      && Find(r, "file_name") == None
  {
    UploadFieldAt(p, 0);
    UploadFieldAt(p, 8);
    UploadFieldAt(p, 9);
    UploadFieldAt(p, 10);
    assert JsonStrings([]) == "[]";
    assert JsonAuthors([]) == "[]";
    UploadFormNoFileName(p);
  }

  lemma UploadFormNoFileName(p: UploadPayload)
    ensures Find(UploadForm(p), "file_name") == None
  {
    var cs := UploadCandidates(p);
    assert "file_name" !in UploadKeys;
    assert forall i | 0 <= i < |cs| :: cs[i].0 != "file_name" by {
      forall i | 0 <= i < |cs| ensures cs[i].0 != "file_name" {
        assert cs[i].0 == KeysOf(cs)[i];
      }
    }
    FindAbsent(UploadForm(p), cs, "file_name");
  }

  /** The optional text fields of the upload form: abstract, discipline, university,
      document_type and license are sent only when non-empty, and then as given. */
  lemma UploadFormTextFields(p: UploadPayload)
    ensures var r := UploadForm(p);
      && Find(r, "abstract") == (if Truthy(p.abstractText) then Some(Text(p.abstractText.value)) else None)
      && Find(r, "discipline") == (if Truthy(p.discipline) then Some(Text(p.discipline.value)) else None)
      && Find(r, "university") == (if Truthy(p.university) then Some(Text(p.university.value)) else None)
      && Find(r, "document_type") == (if Truthy(p.documentType) then Some(Text(p.documentType.value)) else None)
      && Find(r, "license") == (if Truthy(p.license) then Some(Text(p.license.value)) else None)
  {
    UploadFieldAt(p, 1);
    UploadFieldAt(p, 2);
    UploadFieldAt(p, 3);
    UploadFieldAt(p, 5);
    UploadFieldAt(p, 6);
  }

  /** The numeric fields of the upload form: year and supervisor_id are sent only
      when present, as their decimal text. */
  lemma UploadFormNumberFields(p: UploadPayload)
    ensures var r := UploadForm(p);
      && Find(r, "year") == (if p.year.Some? then Some(Text(NumberText(p.year.value))) else None)
      && Find(r, "supervisor_id") == (if p.supervisorId.Some? then Some(Text(NumberText(p.supervisorId.value))) else None)
  {
    UploadFieldAt(p, 4);
    UploadFieldAt(p, 7);
  }

  /** The upload form carries the field at position `i` of the candidate list exactly
      when that candidate is set, with its value. */
  lemma UploadFieldAt(p: UploadPayload, i: nat)
    requires i < |UploadKeys|
    ensures Find(UploadForm(p), UploadKeys[i]) == UploadCandidates(p)[i].1
  {
    var cs := UploadCandidates(p);
    UploadKeysDistinct(p);
    FindPresentAt(cs, i);
  }

  // ---------------------------------------------------------------------------
  // apiDownloadPaperFile
  // ---------------------------------------------------------------------------

  const FilenameKey: string := "filename="

  /** The longest prefix of `s` holding neither '"' nor ';': what `[^";]+` consumes. */
  function NameRun(s: string): (r: string)
    ensures |r| <= |s| && r == s[..|r|]
    ensures '"' !in r && ';' !in r
    ensures |r| < |s| ==> s[|r|] == '"' || s[|r|] == ';'
  {
    if |s| == 0 || s[0] == '"' || s[0] == ';' then []
    else [s[0]] + NameRun(s[1..])
  }

  /** Where the capture starts for a "filename=" found at `i`: past one optional quote. */
  function ValueStart(d: string, i: nat): (k: nat)
    requires i + |FilenameKey| <= |d|
    ensures i + |FilenameKey| <= k <= |d|
  {
    var j := i + |FilenameKey|;
    if j < |d| && d[j] == '"' then j + 1 else j
  }

  /** `/filename="?([^";]+)"?/i` matches at position `i` of `d`. */
  predicate MatchesAt(d: string, i: nat)
  {
    && i + |FilenameKey| <= |d|
    && StartsWithIgnoreCase(d[i..], FilenameKey)
    && NameRun(d[ValueStart(d, i)..]) != []
  }

  /** The group the regex captures at a match position. */
  function CaptureAt(d: string, i: nat): string
    requires MatchesAt(d, i)
  {
    NameRun(d[ValueStart(d, i)..])
  }

  /** The leftmost position at or after `from` where the regex matches, as `match` finds it. */
  function FirstMatch(d: string, from: nat): (r: Option<nat>)
    decreases |d| - from
    ensures r.Some? ==> from <= r.value && MatchesAt(d, r.value)
    ensures r.Some? ==> forall j | from <= j < r.value :: !MatchesAt(d, j)
    ensures r.None? ==> forall j | from <= j :: !MatchesAt(d, j)
  {
    if from + |FilenameKey| > |d| then None
    else if MatchesAt(d, from) then Some(from)
    else FirstMatch(d, from + 1)
  }

  /** The filename `apiDownloadPaperFile` returns for a Content-Disposition header
      (`None` when the header is missing): the group captured at the leftmost match of
      the regex, else "paper-<id>". */
  function DownloadFilename(disposition: Option<string>, paperId: int): (r: string)
    ensures r != []
    ensures var d := disposition.GetOr("");
      (forall j | 0 <= j :: !MatchesAt(d, j)) ==> r == "paper-" + IntToString(paperId)
    ensures var d := disposition.GetOr("");
      forall j | 0 <= j && MatchesAt(d, j) :: '"' !in r && ';' !in r
    ensures var d := disposition.GetOr("");
      forall i | 0 <= i && MatchesAt(d, i) && (forall j | 0 <= j < i :: !MatchesAt(d, j)) :: r == CaptureAt(d, i)
  {
    var d := disposition.GetOr("");
    FirstMatchIsLeftmost(d);
    match FirstMatch(d, 0)
    case Some(i) => CaptureAt(d, i)
    case None => "paper-" + IntToString(paperId)
  }

  /** The search from the start finds every position where the regex matches with no
      match before it. */
  lemma FirstMatchIsLeftmost(d: string)
    ensures forall i: nat | MatchesAt(d, i) && (forall j | 0 <= j < i :: !MatchesAt(d, j)) :: FirstMatch(d, 0) == Some(i)
  {
    forall i: nat | MatchesAt(d, i) && (forall j | 0 <= j < i :: !MatchesAt(d, j))
      ensures FirstMatch(d, 0) == Some(i)
    {
      FirstMatchSkips(d, 0, i);
    }
  }

  /** Without a header the file is named after the paper. */
  lemma DownloadFilenameDefault(paperId: int)
    ensures DownloadFilename(None, paperId) == "paper-" + IntToString(paperId)
  {
  }

  /** The usual header `attachment; filename="<name>"` yields `<name>` when it holds
      neither '"' nor ';'. */
  lemma DownloadFilenameQuoted(name: string, paperId: int)
    requires name != [] && '"' !in name && ';' !in name
    ensures DownloadFilename(Some("attachment; filename=\"" + name + "\""), paperId) == name
  {
    var d := "attachment; filename=\"" + name + "\"";
    var pre := "attachment; ";
    assert d[..12] == pre;
    forall j | 0 <= j < 12 ensures !MatchesAt(d, j) {
      if j + |FilenameKey| <= |d| {
        NoKeyInPrefix(d, j);
      }
    }
    var head := "attachment; filename=\"";
    assert d == head + name + "\"";
    assert d[12..21] == head[12..21] == FilenameKey;
    assert d[12..][..9] == d[12..21];
    assert StartsWithIgnoreCase(d[12..], FilenameKey);
    assert ValueStart(d, 12) == 22;
    assert d[22..] == name + "\"";
    NameRunUntilQuote(name);
    assert MatchesAt(d, 12);
    FirstMatchSkips(d, 0, 12);
  }

  /** `NameRun` of a name followed by a quote is the name. */
  lemma {:induction false} NameRunUntilQuote(name: string)
    requires '"' !in name && ';' !in name
    ensures NameRun(name + "\"") == name
  {
    if |name| > 0 {
      assert (name + "\"")[1..] == name[1..] + "\"";
      NameRunUntilQuote(name[1..]);
    }
  }

  /** No "filename=" starts inside "attachment; ": none of its characters is an 'f'. */
  lemma NoKeyInPrefix(d: string, j: nat)
    requires |d| >= 22 && d[..22] == "attachment; filename=\""
    requires j < 12 && j + |FilenameKey| <= |d|
    ensures !StartsWithIgnoreCase(d[j..], FilenameKey)
  {
    var p := "attachment; ";
    assert d[j] == d[..22][j] == p[j];
    assert p[j] != 'f' && p[j] != 'F' by {
      if j == 0 { assert p[j] == 'a'; }
      else if j == 1 { assert p[j] == 't'; }
      else if j == 2 { assert p[j] == 't'; }
      else if j == 3 { assert p[j] == 'a'; }
      else if j == 4 { assert p[j] == 'c'; }
      else if j == 5 { assert p[j] == 'h'; }
      else if j == 6 { assert p[j] == 'm'; }
      else if j == 7 { assert p[j] == 'e'; }
      else if j == 8 { assert p[j] == 'n'; }
      else if j == 9 { assert p[j] == 't'; }
      else if j == 10 { assert p[j] == ';'; }
      else { assert p[j] == ' '; }
    }
    var w := d[j..][..9];
    assert w[0] == d[j];
    assert Lower(w)[0] != Lower(FilenameKey)[0];
  }

  /** When nothing matches before `i` and something matches at `i`, the search finds `i`. */
  lemma {:induction false} FirstMatchSkips(d: string, from: nat, i: nat)
    requires from <= i && MatchesAt(d, i)
    requires forall j | from <= j < i :: !MatchesAt(d, j)
    ensures FirstMatch(d, from) == Some(i)
    decreases i - from
  {
    if from < i {
      FirstMatchSkips(d, from + 1, i);
    }
  }
}

=== FILE: approval.dfy ===
/** The approval workflow: loading the three lists a reviewer sees, and the review
    dialog — opening it on a paper, choosing a decision, cancelling, submitting. */
module Approval {
  import opened Wrappers
  import opened Strings
  import opened Api

  /** The decisions the dialog offers. */
  datatype Decision = Approve | RequestRevision | Reject

  /** The wire name of a decision. */
  function DecisionName(d: Decision): (r: string)
    ensures r in {"approve", "revision", "reject"}
  {
    match d
    case Approve => "approve"
    case RequestRevision => "revision"
    case Reject => "reject"
  }

  /** Distinct decisions have distinct wire names. */
  lemma DecisionNamesDistinct(a: Decision, b: Decision)
    ensures DecisionName(a) == DecisionName(b) ==> a == b
  {
  }

  /** The page's state: the three lists, the error line, and the dialog (whether it
      is open, the paper it is about, the decision chosen — `None` for '' — and the
      comments). */
  datatype WorkflowPage = WorkflowPage(
    pending: seq<Paper>, approved: seq<Paper>, revision: seq<Paper>, error: string,
    dialogOpen: bool, selected: Option<Paper>, decision: Option<Decision>, comments: string)

  const InitialPage := WorkflowPage([], [], [], "", false, None, None, "")

  /** The dialog at rest: closed, nothing selected, no decision, no comments. */
  predicate DialogClosed(p: WorkflowPage)
  {
    !p.dialogOpen && p.selected.None? && p.decision.None? && p.comments == ""
  }

  /** The server calls the page makes. */
  datatype WorkflowCall = LoadLists | ReviewCall(paperId: int, decision: string, comments: string)

  // ---------------------------------------------------------------------------
  // Loading
  // ---------------------------------------------------------------------------

  const MissingToken := "Missing auth token."
  const LoadFailed := "Failed to load workflow"

  /** The query of the approved and revision lists. */
  function StatusListParams(status: string): PaperListParams
  {
    NoPaperParams.(status := Some(status), sort := Some("newest"), limit := Some(Finite(50)))
  }

  /** The approved and revision lists ask for their status, newest first, 50 at most,
      and nothing else. */
  lemma StatusListQuery(status: string)
    requires status != []
    ensures var r := PaperQuery(StatusListParams(status));
      && Find(r, "status") == Some(status) && Find(r, "sort") == Some("newest")
      && Find(r, "limit") == Some("50") && Find(r, "q") == None && Find(r, "catalog") == None
  {
    PaperQueryLookup(StatusListParams(status));
    LimitTexts();
  }

  /** The three lists the server returns, or a thrown value (an `Error` with its
      message, or something else). */
  datatype LoadOutcome = Lists(pending: seq<Paper>, approved: seq<Paper>, revision: seq<Paper>) | LoadThrown(message: Option<string>)

  /** `loadAll`: without an access token only the error is set; otherwise the lists
      are replaced and the error cleared, or on failure the error is shown and the
      lists kept. The dialog is never touched. */
  function LoadAll(p: WorkflowPage, token: Option<string>, net: LoadOutcome): (r: (WorkflowPage, seq<WorkflowCall>))
    ensures !Truthy(token) ==> r == (p.(error := MissingToken), [])
    ensures Truthy(token) ==> r.1 == [LoadLists]
    ensures Truthy(token) && net.Lists? ==>
      r.0 == p.(pending := net.pending, approved := net.approved, revision := net.revision, error := "")
    ensures Truthy(token) && net.LoadThrown? ==> r.0 == p.(error := net.message.GetOr(LoadFailed))
    ensures r.0.dialogOpen == p.dialogOpen && r.0.selected == p.selected
    ensures r.0.decision == p.decision && r.0.comments == p.comments
  {
    if !Truthy(token) then (p.(error := MissingToken), [])
    else match net
      case Lists(a, b, c) => (p.(pending := a, approved := b, revision := c, error := ""), [LoadLists])
      case LoadThrown(m) => (p.(error := m.GetOr(LoadFailed)), [LoadLists])
  }

  // ---------------------------------------------------------------------------
  // The review dialog
  // ---------------------------------------------------------------------------

  /** `openReviewDialog`: the dialog opens on `paper` with no decision and no
      comments; the lists and the error stay. */
  function OpenReviewDialog(p: WorkflowPage, paper: Paper): (r: WorkflowPage)
    ensures r.dialogOpen && r.selected == Some(paper) && r.decision.None? && r.comments == ""
    ensures r.pending == p.pending && r.approved == p.approved && r.revision == p.revision && r.error == p.error
  {
    p.(selected := Some(paper), dialogOpen := true, comments := "", decision := None)
  }

  /** `handleCancel`: back to the closed dialog from any state. */
  function Cancel(p: WorkflowPage): (r: WorkflowPage)
    ensures DialogClosed(r)
    ensures r.pending == p.pending && r.approved == p.approved && r.revision == p.revision && r.error == p.error
  {
    p.(dialogOpen := false, selected := None, comments := "", decision := None)
  }

  /** `onOpenChange={setDialogOpen}`: Escape or a click on the overlay only closes
      the dialog; unlike Cancel it keeps the paper, decision and comments. */
  function Dismiss(p: WorkflowPage): (r: WorkflowPage)
    ensures !r.dialogOpen
    ensures r.selected == p.selected && r.decision == p.decision && r.comments == p.comments
    ensures r == Cancel(p).(selected := p.selected, decision := p.decision, comments := p.comments)
  {
    p.(dialogOpen := false)
  }

  /** What a dismissal leaves behind is never seen: the dialog is only reopened
      through `openReviewDialog`, which resets it exactly as after Cancel. */
  lemma DismissThenOpen(p: WorkflowPage, paper: Paper)
    ensures OpenReviewDialog(Dismiss(p), paper) == OpenReviewDialog(Cancel(p), paper)
    ensures OpenReviewDialog(Dismiss(p), paper) == OpenReviewDialog(p, paper)
  {
  }

  /** Choosing a decision in the select. */
  function ChooseDecision(p: WorkflowPage, d: Decision): (r: WorkflowPage)
    ensures r.decision == Some(d) && r.selected == p.selected && r.comments == p.comments
  {
    p.(decision := Some(d))
  }

  /** Typing comments. */
  function EditComments(p: WorkflowPage, text: string): (r: WorkflowPage)
    ensures r.comments == text && r.decision == p.decision && r.selected == p.selected
  {
    p.(comments := text)
  }

  /** The Submit button is enabled exactly when a decision is chosen. */
  predicate SubmitEnabled(p: WorkflowPage)
  {
    p.decision.Some?
  }

  const ReviewFailed := "Failed to submit review"

  /** The server's answer to a review: accepted, or a thrown value. */
  datatype ReviewOutcome = Reviewed | ReviewThrown(message: Option<string>)

  /** `handleReview`: nothing happens without a selected paper or a decision; without
      an access token only the error is set; otherwise the review is sent, and on
      success the dialog closes and everything is reloaded, on failure the error is
      shown and the dialog stays as it was. */
  function HandleReview(p: WorkflowPage, token: Option<string>, net: ReviewOutcome, reload: LoadOutcome): (r: (WorkflowPage, seq<WorkflowCall>))
    ensures p.selected.None? || p.decision.None? ==> r == (p, [])
    ensures p.selected.Some? && p.decision.Some? && !Truthy(token) ==> r == (p.(error := MissingToken), [])
    ensures (|r.1| > 0 && r.1[0].ReviewCall?) <==> p.selected.Some? && p.decision.Some? && Truthy(token)
    ensures |r.1| > 0 && r.1[0].ReviewCall? ==>
      r.1[0] == ReviewCall(p.selected.value.id, DecisionName(p.decision.value), p.comments)
    ensures p.selected.Some? && p.decision.Some? && Truthy(token) && net.Reviewed? ==>
      DialogClosed(r.0) && r.1 == [r.1[0], LoadLists] && r.0 == LoadAll(Cancel(p), token, reload).0
    ensures p.selected.Some? && p.decision.Some? && Truthy(token) && net.ReviewThrown? ==>
      r.0 == p.(error := net.message.GetOr(ReviewFailed)) && |r.1| == 1
  {
    if p.selected.None? || p.decision.None? then (p, [])
    else if !Truthy(token) then (p.(error := MissingToken), [])
    else
      var call := ReviewCall(p.selected.value.id, DecisionName(p.decision.value), p.comments);
      match net
      case Reviewed =>
        var l := LoadAll(Cancel(p), token, reload);
        (l.0, [call] + l.1)
      case ReviewThrown(m) => (p.(error := m.GetOr(ReviewFailed)), [call])
  }

  /** A review is sent only while Submit is enabled. */
  lemma ReviewNeedsEnabledSubmit(p: WorkflowPage, token: Option<string>, net: ReviewOutcome, reload: LoadOutcome)
    requires !SubmitEnabled(p)
    ensures HandleReview(p, token, net, reload) == (p, [])
  {
  }

  /** Submitting straight after opening the dialog sends nothing: opening clears
      the decision. */
  lemma OpenThenSubmitSendsNothing(p: WorkflowPage, paper: Paper, token: Option<string>, net: ReviewOutcome, reload: LoadOutcome)
    ensures var o := OpenReviewDialog(p, paper);
      HandleReview(o, token, net, reload) == (o, [])
  {
  }

  /** Opening the dialog, choosing a decision and submitting sends exactly that
      decision about that paper, with the comments typed. */
  lemma OpenChooseSubmit(p: WorkflowPage, paper: Paper, d: Decision, text: string, token: Option<string>,
                         net: ReviewOutcome, reload: LoadOutcome)
    requires Truthy(token)
    ensures var q := EditComments(ChooseDecision(OpenReviewDialog(p, paper), d), text);
      var r := HandleReview(q, token, net, reload);
      |r.1| > 0 && r.1[0] == ReviewCall(paper.id, DecisionName(d), text)
  {
  }

  /** Cancelling and a successful review end in the same dialog state. */
  lemma SuccessClosesLikeCancel(p: WorkflowPage, token: Option<string>, reload: LoadOutcome)
    requires p.selected.Some? && p.decision.Some? && Truthy(token)
    ensures var r := HandleReview(p, token, Reviewed, reload).0;
      var c := Cancel(p);
      r.dialogOpen == c.dialogOpen && r.selected == c.selected && r.decision == c.decision && r.comments == c.comments
  {
  }
}

=== FILE: auth.dfy ===
/** The client session of `AuthProvider`: the signed-in user next to a browser
    store of three keys (access token, refresh token, the user record). Every
    server round trip is an outcome passed in; each operation reports the calls
    it would make, so "no network call" is a statement about its result. */
module Auth {
  import opened Wrappers
  import opened Strings
  import opened Api

  // ---------------------------------------------------------------------------
  // Users
  // ---------------------------------------------------------------------------

  /** `UserRole`: the server roles plus the client-only guest. */
  datatype UserRole = Guest | Registered(role: ApiRole)

  function UserRoleName(r: UserRole): string
  {
    match r
    case Guest => "guest"
    case Registered(a) => ApiRoleName(a)
  }

  /** `User` as the client keeps it. */
  datatype User = User(
    id: int,
    email: string,
    name: string,
    role: UserRole,
    university: Option<string>,
    department: Option<string>)

  /** The optional `Partial<User>` that `buildUser` may draw on. */
  datatype Extras = Extras(university: Option<string>, department: Option<string>)

  const NoExtras := Extras(None, None)

  /** `roleFromApiUser`: the server role when there is one, otherwise librarian for
      administrators and member for everybody else. */
  function RoleFromApiUser(u: ApiUser): (r: ApiRole)
    ensures u.role.Some? ==> r == u.role.value
    ensures u.role.None? ==> (r == Librarian <==> u.isAdmin) && (r == Librarian || r == Member)
  {
    if u.role.Some? then u.role.value else if u.isAdmin then Librarian else Member
  }

  /** `buildUser`: identity from the server record; the name is the full name or
      else the e-mail's text before its first '@'; the department prefers the
      server's over the extras'; the university comes from the extras only. The
      result is never a guest. */
  function BuildUser(u: ApiUser, x: Extras): (r: User)
    ensures r.id == u.id && r.email == u.email
    ensures r.role == Registered(RoleFromApiUser(u))
    ensures Truthy(u.fullName) ==> r.name == u.fullName.value
    ensures !Truthy(u.fullName) ==> '@' !in r.name
    ensures r.university == x.university
    ensures r.department == (if Truthy(u.department) then u.department else x.department)
  {
    User(
      u.id,
      u.email,
      if Truthy(u.fullName) then u.fullName.value else BeforeFirst(u.email, '@'),
      Registered(RoleFromApiUser(u)),
      x.university,
      if Truthy(u.department) then u.department else x.department)
  }

  /** Without a full name, the built name is the longest '@'-free prefix of the
      e-mail: all of it, or the part before the first '@'. */
  lemma BuildUserNameFromEmail(u: ApiUser, x: Extras)
    requires !Truthy(u.fullName)
    ensures var n := BuildUser(u, x).name;
      && |n| <= |u.email| && n == u.email[..|n|] && '@' !in n
      && (|n| < |u.email| ==> u.email[|n|] == '@')
  {
    BeforeFirstPrefix(u.email, '@');
  }

  // ---------------------------------------------------------------------------
  // Session state
  // ---------------------------------------------------------------------------

  /** The three storage keys: murrs_access_token, murrs_refresh_token, murrs_user. */
  datatype StorageKey = AccessKey | RefreshKey | UserKey

  /** A stored value: a token, or the serialised user. */
  datatype Stored = Token(text: string) | UserRecord(user: User)

  type Storage = map<StorageKey, Stored>

  datatype Session = Session(user: Option<User>, storage: Storage)

  /** The server endpoints a session operation may call. */
  datatype Call = LoginCall | MeCall | RefreshCall | LogoutCall | RegisterCall | UpdateCall

  /** What a boolean operation returns, the session after it, and the calls made. */
  datatype Step = Step(ok: bool, session: Session, calls: seq<Call>)

  /** What an operation without a result leaves behind. */
  datatype Effect = Effect(session: Session, calls: seq<Call>)

  /** `localStorage.getItem` of a token key. */
  function TokenAt(st: Storage, k: StorageKey): Option<string>
  {
    if k in st && st[k].Token? then Some(st[k].text) else None
  }

  /** `isAuthenticated`: `!!user`. */
  predicate IsAuthenticated(s: Session)
  {
    s.user.Some?
  }

  /** `isAuthenticated && user.role !== 'guest'`: signed in, and not as a guest. */
  predicate AuthedNonGuest(user: Option<User>)
  {
    user.Some? && user.value.role != Guest
  }

  function StoreTokens(st: Storage, t: Tokens): Storage
  {
    st[AccessKey := Token(t.access)][RefreshKey := Token(t.refresh)]
  }

  /** `setUser(u)` together with writing the user record. */
  function SignIn(st: Storage, u: User): Session
  {
    Session(Some(u), st[UserKey := UserRecord(u)])
  }

  const AllKeys: set<StorageKey> := {AccessKey, RefreshKey, UserKey}

  lemma EveryKeyListed(k: StorageKey)
    ensures k in AllKeys
  {
  }

  /** The store is well typed and agrees with the user: tokens sit under the token
      keys and the user record under the user key; a signed-in user is the stored
      record; and a registered (non-guest) user has an access token stored. */
  predicate Inv(s: Session)
  {
    && (forall k | k in s.storage :: (k == UserKey) == s.storage[k].UserRecord?)
    && (s.user.Some? ==> UserKey in s.storage && s.storage[UserKey] == UserRecord(s.user.value))
    && (s.user.Some? && s.user.value.role.Registered? ==> AccessKey in s.storage)
  }

  /** A store with only well-typed entries, as the browser may hold on start-up. */
  predicate WellTyped(st: Storage)
  {
    forall k | k in st :: (k == UserKey) == st[k].UserRecord?
  }

  // ---------------------------------------------------------------------------
  // restore (on mount)
  // ---------------------------------------------------------------------------

  /** Server outcomes of a restore: `apiMe` with the stored access token, then
      `apiRefresh`, then `apiMe` with the refreshed token; `None` is a failure. */
  datatype RestoreOutcome = RestoreOutcome(me: Option<ApiUser>, refreshed: Option<Tokens>, meAfterRefresh: Option<ApiUser>)

  /** The store holds what `restore` starts from: a truthy access token and a
      user record. */
  predicate HasStoredSession(st: Storage)
  {
    Truthy(TokenAt(st, AccessKey)) && UserKey in st && st[UserKey].UserRecord?
  }

  /** The start-up restore from a store, with no user signed in yet. Without an
      access token or a stored user nothing happens; a valid token rebuilds the user
      keeping the stored university and department as extras; otherwise a refresh
      is tried, and any failure signs out and clears the store (keeping only a
      falsy refresh token when there was nothing to refresh with). */
  function Restore(st: Storage, net: RestoreOutcome): (r: Effect)
    ensures !HasStoredSession(st) ==> r == Effect(Session(None, st), [])
    ensures r.session.user.Some? ==> r.session.user.value.role.Registered?
    ensures r.session.user.Some? && r.calls == [MeCall] ==>
      r.session.user.value.university == st[UserKey].user.university
    ensures |r.calls| == 3 && r.session.user.Some? ==> r.session.user.value.university == None
    ensures r.session.user.None? && r.calls != [] ==> UserKey !in r.session.storage && AccessKey !in r.session.storage
    ensures HasStoredSession(st) && net.me.Some? ==>
      r == Effect(SignIn(st, BuildUser(net.me.value, Extras(st[UserKey].user.university, st[UserKey].user.department))), [MeCall])
    ensures HasStoredSession(st) && net.me.None? && Truthy(TokenAt(st, RefreshKey))
              && net.refreshed.Some? && net.meAfterRefresh.Some? ==>
      r == Effect(SignIn(StoreTokens(st, net.refreshed.value), BuildUser(net.meAfterRefresh.value, NoExtras)), [MeCall, RefreshCall, MeCall])
    ensures HasStoredSession(st) && net.me.None? && !Truthy(TokenAt(st, RefreshKey)) ==>
      r == Effect(Session(None, st - {UserKey, AccessKey}), [MeCall])
    ensures HasStoredSession(st) && net.me.None? && Truthy(TokenAt(st, RefreshKey)) && net.refreshed.None? ==>
      r == Effect(Session(None, st - AllKeys), [MeCall, RefreshCall])
    ensures HasStoredSession(st) && net.me.None? && Truthy(TokenAt(st, RefreshKey))
              && net.refreshed.Some? && net.meAfterRefresh.None? ==>
      r == Effect(Session(None, StoreTokens(st, net.refreshed.value) - AllKeys), [MeCall, RefreshCall, MeCall])
  {
    var refresh := TokenAt(st, RefreshKey);
    if !HasStoredSession(st) then Effect(Session(None, st), [])
    else
      var parsed := st[UserKey].user;
      if net.me.Some? then
        Effect(SignIn(st, BuildUser(net.me.value, Extras(parsed.university, parsed.department))), [MeCall])
      else if !Truthy(refresh) then
        Effect(Session(None, st - {UserKey, AccessKey}), [MeCall])
      else if net.refreshed.None? then
        Effect(Session(None, st - AllKeys), [MeCall, RefreshCall])
      else
        var st' := StoreTokens(st, net.refreshed.value);
        if net.meAfterRefresh.Some? then
          Effect(SignIn(st', BuildUser(net.meAfterRefresh.value, NoExtras)), [MeCall, RefreshCall, MeCall])
        else
          Effect(Session(None, st' - AllKeys), [MeCall, RefreshCall, MeCall])
  }

  /** Whenever the stored session cannot be confirmed (`apiMe` fails and there is
      no refresh token, the refresh fails, or `apiMe` fails again after it), the
      restore ends signed out with neither the user record nor an access token. */
  lemma FailedRestoreSignsOut(st: Storage, net: RestoreOutcome)
    requires HasStoredSession(st) && net.me.None?
    requires !Truthy(TokenAt(st, RefreshKey)) || net.refreshed.None? || net.meAfterRefresh.None?
    ensures var r := Restore(st, net);
      r.session.user.None? && UserKey !in r.session.storage && AccessKey !in r.session.storage && r.calls != []
  {
  }

  /** A restore from a well-typed store yields a consistent session. */
  lemma RestoreEstablishesInv(st: Storage, net: RestoreOutcome)
    requires WellTyped(st)
    ensures Inv(Restore(st, net).session)
  {
  }

  // ---------------------------------------------------------------------------
  // login
  // ---------------------------------------------------------------------------

  /** Server outcomes of a non-guest login: `apiLogin` refused; or it issued tokens
      and `apiMe` then failed; or both succeeded. */
  datatype LoginOutcome = Rejected | MeFailed(tokens: Tokens) | Accepted(tokens: Tokens, me: ApiUser)

  /** `login`. An empty e-mail or password fails and changes nothing. A guest login
      (at time `now`) drops both tokens and signs in the guest without any call. A
      normal login stores the tokens as soon as they are issued, and then signs in
      the server's user; the requested role only decides guest or not. */
  function Login(s: Session, email: string, password: string, role: UserRole, now: int, net: LoginOutcome): (r: Step)
    ensures email == [] || password == [] ==> r == Step(false, s, [])
    ensures email != [] && password != [] && role == Guest ==>
      && r.ok && r.calls == []
      && r.session.user == Some(User(now, email, "Guest", Guest, None, None))
      && AccessKey !in r.session.storage && RefreshKey !in r.session.storage
    ensures r.ok ==> r.session.user.Some?
    ensures r.ok && role != Guest ==> net.Accepted? && r.session.user == Some(BuildUser(net.me, NoExtras))
    ensures !r.ok ==> r.session.user == s.user
    ensures role != Guest && net.MeFailed? && email != [] && password != [] ==>
      !r.ok && TokenAt(r.session.storage, AccessKey) == Some(net.tokens.access)
    ensures email != [] && password != [] && role != Guest ==>
      && (r.ok <==> net.Accepted?)
      && (net.Rejected? ==> r == Step(false, s, [LoginCall]))
      && (net.MeFailed? ==> r == Step(false, Session(s.user, StoreTokens(s.storage, net.tokens)), [LoginCall, MeCall]))
      && (net.Accepted? ==>
            r == Step(true, SignIn(StoreTokens(s.storage, net.tokens), BuildUser(net.me, NoExtras)), [LoginCall, MeCall]))
  {
    if email == [] || password == [] then Step(false, s, [])
    else if role == Guest then
      var guest := User(now, email, "Guest", Guest, None, None);
      Step(true, SignIn(s.storage - {AccessKey, RefreshKey}, guest), [])
    else
      match net
      case Rejected => Step(false, s, [LoginCall])
      case MeFailed(t) => Step(false, Session(s.user, StoreTokens(s.storage, t)), [LoginCall, MeCall])
      case Accepted(t, me) => Step(true, SignIn(StoreTokens(s.storage, t), BuildUser(me, NoExtras)), [LoginCall, MeCall])
  }

  lemma LoginPreservesInv(s: Session, email: string, password: string, role: UserRole, now: int, net: LoginOutcome)
    requires Inv(s)
    ensures Inv(Login(s, email, password, role, now, net).session)
  {
  }

  // ---------------------------------------------------------------------------
  // logout
  // ---------------------------------------------------------------------------

  /** `logout`: tells the server only when a refresh token is stored, ignores the
      answer, and always ends signed out with the store empty. */
  function Logout(s: Session): (r: Effect)
    ensures !IsAuthenticated(r.session) && r.session.storage == map[]
    ensures r.calls == (if Truthy(TokenAt(s.storage, RefreshKey)) then [LogoutCall] else [])
  {
    var st := s.storage - AllKeys;
    assert st == map[] by {
      forall k | k in st ensures false {
        EveryKeyListed(k);
      }
    }
    Effect(Session(None, st), if Truthy(TokenAt(s.storage, RefreshKey)) then [LogoutCall] else [])
  }

  // ---------------------------------------------------------------------------
  // createAccount
  // ---------------------------------------------------------------------------

  /** The client-side guard of `createAccount`: e-mail, password and name are
      non-empty, and only a signed-in librarian may create a librarian. */
  predicate CreateAccountAllowed(s: Session, email: string, password: string, name: string, role: ApiRole)
  {
    email != [] && password != [] && name != []
    && !(role == Librarian && !(s.user.Some? && s.user.value.role == Registered(Librarian)))
  }

  /** `createAccount`: empty e-mail, password or name fail at once, and so does the
      librarian role unless a librarian is signed in. Otherwise the account is
      registered (without the role) and the new user logged in; the signed-in role
      is whatever the server reports. */
  function CreateAccount(s: Session, email: string, password: string, name: string, role: ApiRole,
                         registered: bool, now: int, net: LoginOutcome): (r: Step)
    ensures email == [] || password == [] || name == [] ==> r == Step(false, s, [])
    ensures role == Librarian && !(s.user.Some? && s.user.value.role == Registered(Librarian)) ==> r == Step(false, s, [])
    ensures r.ok ==> (registered && |r.calls| > 0 && r.calls[0] == RegisterCall
      && net.Accepted? && r.session.user == Some(BuildUser(net.me, NoExtras)))
    ensures !r.ok ==> r.session.user == s.user
    ensures CreateAccountAllowed(s, email, password, name, role) && registered ==>
      && (r.ok <==> net.Accepted?)
      && (net.Accepted? ==> r.session.user == Some(BuildUser(net.me, NoExtras)) && r.calls == [RegisterCall, LoginCall, MeCall])
    ensures CreateAccountAllowed(s, email, password, name, role) && !registered ==> r == Step(false, s, [RegisterCall])
  {
    if !CreateAccountAllowed(s, email, password, name, role) then Step(false, s, [])
    else if !registered then Step(false, s, [RegisterCall])
    else
      var l := Login(s, email, password, Registered(role), now, net);
      Step(l.ok, l.session, [RegisterCall] + l.calls)
  }

  lemma CreateAccountPreservesInv(s: Session, email: string, password: string, name: string, role: ApiRole,
                                  registered: bool, now: int, net: LoginOutcome)
    requires Inv(s)
    ensures Inv(CreateAccount(s, email, password, name, role, registered, now, net).session)
  {
    if email != [] && password != [] && name != [] && registered {
      LoginPreservesInv(s, email, password, Registered(role), now, net);
    }
  }

  // ---------------------------------------------------------------------------
  // changePassword and updateProfile
  // ---------------------------------------------------------------------------

  /** Server outcomes of a call with a refresh retry: the first attempt, the refresh,
      and the second attempt. */
  datatype RetryOutcome<T> = RetryOutcome(first: Option<T>, refreshed: Option<Tokens>, second: Option<T>)

  /** The client-side guard of `changePassword`: a user, both passwords non-empty and
      different, and an access token. */
  predicate ChangePasswordAllowed(s: Session, oldPassword: string, newPassword: string)
  {
    s.user.Some? && oldPassword != [] && newPassword != [] && oldPassword != newPassword
    && Truthy(TokenAt(s.storage, AccessKey))
  }

  /** `changePassword`: fails without any call unless the guard holds; then updates
      the password, refreshing the tokens and retrying once when the first attempt
      fails and a refresh token is stored. The user never changes. */
  function ChangePassword(s: Session, oldPassword: string, newPassword: string, net: RetryOutcome<()>): (r: Step)
    ensures !ChangePasswordAllowed(s, oldPassword, newPassword) ==> r == Step(false, s, [])
    ensures ChangePasswordAllowed(s, oldPassword, newPassword) ==> |r.calls| > 0 && r.calls[0] == UpdateCall
    ensures r.session.user == s.user
    ensures r.ok ==> net.first.Some? || net.second.Some?
    ensures net.first.Some? && ChangePasswordAllowed(s, oldPassword, newPassword) ==> r == Step(true, s, [UpdateCall])
    ensures ChangePasswordAllowed(s, oldPassword, newPassword) && net.first.None? ==>
      && (!Truthy(TokenAt(s.storage, RefreshKey)) ==> r == Step(false, s, [UpdateCall]))
      && (Truthy(TokenAt(s.storage, RefreshKey)) && net.refreshed.None? ==> r == Step(false, s, [UpdateCall, RefreshCall]))
      && (Truthy(TokenAt(s.storage, RefreshKey)) && net.refreshed.Some? ==>
            && (r.ok <==> net.second.Some?)
            && r.session.storage == StoreTokens(s.storage, net.refreshed.value)
            && r.calls == [UpdateCall, RefreshCall, UpdateCall])
  {
    if !ChangePasswordAllowed(s, oldPassword, newPassword) then Step(false, s, [])
    else if net.first.Some? then Step(true, s, [UpdateCall])
    else if !Truthy(TokenAt(s.storage, RefreshKey)) then Step(false, s, [UpdateCall])
    else if net.refreshed.None? then Step(false, s, [UpdateCall, RefreshCall])
    else
      var s' := Session(s.user, StoreTokens(s.storage, net.refreshed.value));
      Step(net.second.Some?, s', [UpdateCall, RefreshCall, UpdateCall])
  }

  lemma ChangePasswordPreservesInv(s: Session, oldPassword: string, newPassword: string, net: RetryOutcome<()>)
    requires Inv(s)
    ensures Inv(ChangePassword(s, oldPassword, newPassword, net).session)
  {
  }

  /** The user `updateProfile` keeps: the server's record, with the department given
      if non-empty (else the previous one) and the previous university. */
  function UpdatedUser(a: ApiUser, prev: User, department: Option<string>): (r: User)
    ensures r.id == a.id && r.email == a.email && r.role == Registered(RoleFromApiUser(a))
    ensures r.name == BuildUser(a, NoExtras).name
    ensures Truthy(a.fullName) ==> r.name == a.fullName.value
    ensures r.university == prev.university
    ensures r.department == (if Truthy(department) then department else prev.department)
  {
    BuildUser(a, NoExtras).(department := if Truthy(department) then department else prev.department,
                            university := prev.university)
  }

  /** The client-side guard of `updateProfile`: a user, a non-empty name and an
      access token. */
  predicate UpdateProfileAllowed(s: Session, name: string)
  {
    s.user.Some? && name != [] && Truthy(TokenAt(s.storage, AccessKey))
  }

  /** `updateProfile`: fails without any call when signed out, the name is empty or
      no access token is stored; otherwise sends the update, with one refresh retry,
      and signs in the updated user on success. */
  function UpdateProfile(s: Session, name: string, department: Option<string>, net: RetryOutcome<ApiUser>): (r: Step)
    ensures !UpdateProfileAllowed(s, name) ==> r == Step(false, s, [])
    ensures r.ok ==> (s.user.Some? && r.session.user.Some?
      && r.session.user.value.university == s.user.value.university)
    ensures !r.ok ==> r.session.user == s.user
    ensures UpdateProfileAllowed(s, name) && net.first.Some? ==>
      r == Step(true, SignIn(s.storage, UpdatedUser(net.first.value, s.user.value, department)), [UpdateCall])
    ensures UpdateProfileAllowed(s, name) && net.first.None? && Truthy(TokenAt(s.storage, RefreshKey)) && net.refreshed.Some? ==>
      && TokenAt(r.session.storage, AccessKey) == Some(net.refreshed.value.access)
      && TokenAt(r.session.storage, RefreshKey) == Some(net.refreshed.value.refresh)
      && (r.ok <==> net.second.Some?)
      && (net.second.Some? ==>
            r == Step(true, SignIn(StoreTokens(s.storage, net.refreshed.value), UpdatedUser(net.second.value, s.user.value, department)),
                      [UpdateCall, RefreshCall, UpdateCall]))
    ensures UpdateProfileAllowed(s, name) && net.first.None? && (!Truthy(TokenAt(s.storage, RefreshKey)) || net.refreshed.None?) ==>
      !r.ok && r.session == s
  {
    if !UpdateProfileAllowed(s, name) then Step(false, s, [])
    else if net.first.Some? then
      Step(true, SignIn(s.storage, UpdatedUser(net.first.value, s.user.value, department)), [UpdateCall])
    else if !Truthy(TokenAt(s.storage, RefreshKey)) then Step(false, s, [UpdateCall])
    else if net.refreshed.None? then Step(false, s, [UpdateCall, RefreshCall])
    else
      var st := StoreTokens(s.storage, net.refreshed.value);
      if net.second.Some? then
        Step(true, SignIn(st, UpdatedUser(net.second.value, s.user.value, department)), [UpdateCall, RefreshCall, UpdateCall])
      else Step(false, Session(s.user, st), [UpdateCall, RefreshCall, UpdateCall])
  }

  lemma UpdateProfilePreservesInv(s: Session, name: string, department: Option<string>, net: RetryOutcome<ApiUser>)
    requires Inv(s)
    ensures Inv(UpdateProfile(s, name, department, net).session)
  {
  }

  // ---------------------------------------------------------------------------
  // Whole sessions
  // ---------------------------------------------------------------------------

  /** One user action on the session, with the server's outcomes. */
  datatype Action =
    | DoLogin(email: string, password: string, role: UserRole, now: int, loginNet: LoginOutcome)
    | DoLogout
    | DoCreateAccount(email: string, password: string, name: string, newRole: ApiRole, registered: bool, now: int, loginNet: LoginOutcome)
    | DoChangePassword(oldPassword: string, newPassword: string, changeNet: RetryOutcome<()>)
    | DoUpdateProfile(name: string, department: Option<string>, profileNet: RetryOutcome<ApiUser>)

  function Apply(s: Session, a: Action): Session
  {
    match a
    case DoLogin(e, p, role, now, n) => Login(s, e, p, role, now, n).session
    case DoLogout => Logout(s).session
    case DoCreateAccount(e, p, name, role, reg, now, n) => CreateAccount(s, e, p, name, role, reg, now, n).session
    case DoChangePassword(o, n, net) => ChangePassword(s, o, n, net).session
    case DoUpdateProfile(name, d, net) => UpdateProfile(s, name, d, net).session
  }

  /** The session after a start-up restore and a run of actions. */
  function Run(s: Session, actions: seq<Action>): Session
    decreases |actions|
  {
    if |actions| == 0 then s else Run(Apply(s, actions[0]), actions[1..])
  }

  /** From any well-typed store, every reachable session is consistent: a signed-in
      user is the stored record, and a registered user has an access token. */
  lemma {:induction false} RunKeepsInv(st: Storage, net: RestoreOutcome, actions: seq<Action>)
    requires WellTyped(st)
    ensures Inv(Run(Restore(st, net).session, actions))
  {
    RestoreEstablishesInv(st, net);
    RunFromInv(Restore(st, net).session, actions);
  }

  lemma {:induction false} RunFromInv(s: Session, actions: seq<Action>)
    requires Inv(s)
    ensures Inv(Run(s, actions))
    decreases |actions|
  {
    if |actions| > 0 {
      var a := actions[0];
      match a {
        case DoLogin(e, p, role, now, n) => LoginPreservesInv(s, e, p, role, now, n);
        case DoLogout =>
        case DoCreateAccount(e, p, name, role, reg, now, n) => CreateAccountPreservesInv(s, e, p, name, role, reg, now, n);
        case DoChangePassword(o, n, net) => ChangePasswordPreservesInv(s, o, n, net);
        case DoUpdateProfile(name, d, net) => UpdateProfilePreservesInv(s, name, d, net);
      }
      RunFromInv(Apply(s, a), actions[1..]);
    }
  }
}

=== FILE: catalog.dfy ===
/** The public catalog: category tabs and their sort keys, the per-category counts,
    bookmarks, and downloads. The bookmark toggle and the download flow are the
    same code in the search page, which reuses them from here. */
module Catalog {
  import opened Wrappers
  import opened Strings
  import opened Api
  import opened Auth

  // ---------------------------------------------------------------------------
  // Categories
  // ---------------------------------------------------------------------------

  /** `sortByCategory`. */
  const SortByCategory: seq<(string, string)> := [
    ("all", "relevance"),
    ("trending", "trending"),
    ("highest-rated", "highest-rated"),
    ("most-downloaded", "downloads")
  ]

  /** `sortByCategory[activeCategory] || 'relevance'`: the sort the catalog asks for. */
  function SortFor(category: string): (r: string)
    ensures category == "all" ==> r == "relevance"
    ensures category == "trending" ==> r == "trending"
    ensures category == "highest-rated" ==> r == "highest-rated"
    ensures category == "most-downloaded" ==> r == "downloads"
    ensures category !in {"all", "trending", "highest-rated", "most-downloaded"} ==> r == "relevance"
  {
    assert category !in {"all", "trending", "highest-rated", "most-downloaded"} ==> Find(SortByCategory, category) == None by {
      if category !in {"all", "trending", "highest-rated", "most-downloaded"} {
        FindMissing(SortByCategory, category);
      }
    }
    match Find(SortByCategory, category)
    case Some(s) => OrElse(s, "relevance")
    case None => "relevance"
  }

  /** The parameters of the catalog's paper request. */
  function CatalogParams(query: string, category: string): PaperListParams
  {
    NoPaperParams.(q := if query != [] then Some(query) else None,
                   sort := Some(SortFor(category)), catalog := Some(true), limit := Some(Finite(200)))
  }

  /** The catalog's query always carries the category's sort, `catalog=true` and
      `limit=200`, carries the search box as `q` exactly when it is non-empty, and
      nothing else. */
  lemma CatalogQuery(query: string, category: string)
    ensures var r := PaperQuery(CatalogParams(query, category));
      && Find(r, "sort") == Some(SortFor(category))
      && Find(r, "catalog") == Some("true")
      && Find(r, "limit") == Some("200")
      && Find(r, "q") == (if query != [] then Some(query) else None)
      && Find(r, "discipline") == None && Find(r, "university") == None && Find(r, "year") == None
      && Find(r, "status") == None && Find(r, "skip") == None
  {
    PaperQueryLookup(CatalogParams(query, category));
    assert SortFor(category) != [];
    LimitTexts();
  }

  /** The result of the catalog's paper request: the papers, or the value thrown (an
      `Error` with its message, possibly empty, or `None` for anything else). */
  datatype ListOutcome = Listed(papers: seq<Paper>) | ListFailed(message: Option<string>)

  /** The catalog's load effect: the error is cleared when the request starts; a load
      cancelled by a newer one leaves the papers alone; otherwise the papers found are
      shown, or no papers and the `Error`'s message, with 'Failed to load papers' for
      anything else thrown. */
  function Load(ps: seq<Paper>, cancelled: bool, net: ListOutcome): (r: (seq<Paper>, string))
    ensures cancelled ==> r == (ps, "")
    ensures !cancelled && net.Listed? ==> r == (net.papers, "")
    ensures !cancelled && net.ListFailed? && net.message.Some? ==> r == ([], net.message.value)
    ensures !cancelled && net.ListFailed? && net.message.None? ==> r == ([], "Failed to load papers")
    ensures r.1 == [] <==> cancelled || net.Listed? || net.message == Some("")
  {
    if cancelled then (ps, "")
    else match net
      case Listed(found) => (found, "")
      case ListFailed(m) => ([], m.GetOr("Failed to load papers"))
  }

  /** Responses of overlapping loads arriving in some order, each marked with whether
      a newer load had cancelled it: a cancelled response changes nothing, any other
      one sets what the page shows. */
  function Responses(shown: (seq<Paper>, string), arrivals: seq<(bool, ListOutcome)>): (seq<Paper>, string)
    decreases |arrivals|
  {
    if |arrivals| == 0 then shown
    else if arrivals[0].0 then Responses(shown, arrivals[1..])
    else Responses(Load(shown.0, false, arrivals[0].1), arrivals[1..])
  }

  /** Only the newest load is not cancelled, so whatever order the responses arrive
      in, and whatever was shown before, the page ends with the newest load's
      outcome. */
  lemma {:induction false} NewestLoadWins(shown: (seq<Paper>, string), arrivals: seq<(bool, ListOutcome)>, k: nat)
    requires k < |arrivals| && !arrivals[k].0
    requires forall i | 0 <= i < |arrivals| && i != k :: arrivals[i].0
    ensures Responses(shown, arrivals) == Load([], false, arrivals[k].1)
    decreases |arrivals|
  {
    if k == 0 {
      AllCancelledKeep(Load(shown.0, false, arrivals[0].1), arrivals[1..]);
    } else {
      NewestLoadWins(shown, arrivals[1..], k - 1);
    }
  }

  /** Cancelled responses leave the page as it is. */
  lemma {:induction false} AllCancelledKeep(shown: (seq<Paper>, string), arrivals: seq<(bool, ListOutcome)>)
    requires forall i | 0 <= i < |arrivals| :: arrivals[i].0
    ensures Responses(shown, arrivals) == shown
    decreases |arrivals|
  {
    if |arrivals| > 0 {
      AllCancelledKeep(shown, arrivals[1..]);
    }
  }

  // ---------------------------------------------------------------------------
  // Counts
  // ---------------------------------------------------------------------------

  /** The number of papers with more than 2500 views. */
  function TrendingCount(ps: seq<Paper>): (r: nat)
    ensures r <= |ps|
    ensures r == 0 <==> forall i | 0 <= i < |ps| :: ps[i].views <= 2500
    ensures r == |ps| <==> forall i | 0 <= i < |ps| :: ps[i].views > 2500
  {
    if |ps| == 0 then 0
    else
      assert forall i | 1 <= i < |ps| :: ps[1..][i - 1] == ps[i];
      (if ps[0].views > 2500 then 1 else 0) + TrendingCount(ps[1..])
  }

  /** Trending papers of two lists add up. */
  lemma {:induction false} TrendingCountAppend(a: seq<Paper>, b: seq<Paper>)
    ensures TrendingCount(a + b) == TrendingCount(a) + TrendingCount(b)
  {
    if |a| > 0 {
      assert (a + b)[1..] == a[1..] + b;
      TrendingCountAppend(a[1..], b);
    } else {
      assert a + b == b;
    }
  }

  datatype CategoryCounts = CategoryCounts(all: nat, trending: nat, highest: nat, downloads: nat)

  function Min(a: int, b: int): int
  {
    if a <= b then a else b
  }

  /** `categoryCounts`: every count is at most the number of papers; highest rated
      and most downloaded are capped at 4 and 5. */
  function Counts(ps: seq<Paper>): (r: CategoryCounts)
    ensures r.all == |ps|
    ensures r.trending <= r.all
    ensures r.highest == Min(4, |ps|) && r.downloads == Min(5, |ps|)
    ensures r.highest <= r.downloads <= r.all
  {
    CategoryCounts(|ps|, TrendingCount(ps), Min(4, |ps|), Min(5, |ps|))
  }

  // ---------------------------------------------------------------------------
  // Bookmarks
  // ---------------------------------------------------------------------------

  /** `toggleBookmark`: flips the membership of `id` alone. */
  function ToggleBookmark(b: set<int>, id: int): (r: set<int>)
    ensures id in r <==> id !in b
    ensures forall x | x != id :: x in r <==> x in b
  {
    if id in b then b - {id} else b + {id}
  }

  /** Toggling twice gives back the original bookmarks. */
  lemma ToggleBookmarkTwice(b: set<int>, id: int)
    ensures ToggleBookmark(ToggleBookmark(b, id), id) == b
  {
  }

  // ---------------------------------------------------------------------------
  // Downloads
  // ---------------------------------------------------------------------------

  /** The list after a download: the matching paper's `downloads` goes up by one,
      and nothing else changes. */
  function IncrementDownloads(ps: seq<Paper>, id: int): (r: seq<Paper>)
    ensures |r| == |ps|
    ensures forall i | 0 <= i < |ps| && ps[i].id != id :: r[i] == ps[i]
    ensures forall i | 0 <= i < |ps| && ps[i].id == id :: r[i] == ps[i].(downloads := ps[i].downloads + 1)
  {
    seq(|ps|, i requires 0 <= i < |ps| => if ps[i].id == id then ps[i].(downloads := ps[i].downloads + 1) else ps[i])
  }

  function TotalDownloads(ps: seq<Paper>): int
  {
    if |ps| == 0 then 0 else ps[0].downloads + TotalDownloads(ps[1..])
  }

  function CountId(ps: seq<Paper>, id: int): nat
  {
    if |ps| == 0 then 0 else (if ps[0].id == id then 1 else 0) + CountId(ps[1..], id)
  }

  /** A download adds one to the total for each paper with that id: exactly one when
      ids are unique and the paper is listed, none when it is not listed. */
  lemma {:induction false} IncrementDownloadsTotal(ps: seq<Paper>, id: int)
    ensures TotalDownloads(IncrementDownloads(ps, id)) == TotalDownloads(ps) + CountId(ps, id)
  {
    if |ps| > 0 {
      assert IncrementDownloads(ps, id)[1..] == IncrementDownloads(ps[1..], id);
      IncrementDownloadsTotal(ps[1..], id);
    }
  }

  /** The server's answer to a download: the file with its Content-Disposition header,
      or a thrown value (an `Error` with its message, or something else). */
  datatype DownloadOutcome = Downloaded(disposition: Option<string>) | Failed(message: Option<string>)

  /** What a download click leaves behind: the paper list, whether the browser goes
      to login, the file fetched (with its name) if any, and the error shown. */
  datatype DownloadResult = DownloadResult(papers: seq<Paper>, toLogin: bool, saved: Option<string>, error: string)

  /** `handleDownload`: a visitor not signed in, a guest, or a session without an
      access token is sent to login with no fetch; otherwise the file is fetched,
      and on success saved under its header's name and counted, on failure the
      error's message (or 'Failed to download file') is shown. */
  function Download(user: Option<User>, token: Option<string>, ps: seq<Paper>, error: string,
                    id: int, net: DownloadOutcome): (r: DownloadResult)
    ensures !AuthedNonGuest(user) || !Truthy(token) ==> r == DownloadResult(ps, true, None, error)
    ensures r.saved.Some? ==> r.papers == IncrementDownloads(ps, id) && r.saved.value != []
    ensures r.saved.None? ==> r.papers == ps
    ensures AuthedNonGuest(user) && Truthy(token) && net.Downloaded? ==>
      r == DownloadResult(IncrementDownloads(ps, id), false, Some(DownloadFilename(net.disposition, id)), error)
    ensures AuthedNonGuest(user) && Truthy(token) && net.Failed? ==>
      && r.papers == ps && !r.toLogin && r.saved.None?
      && r.error == (if net.message.Some? then net.message.value else "Failed to download file")
  {
    if !AuthedNonGuest(user) || !Truthy(token) then DownloadResult(ps, true, None, error)
    else match net
      case Downloaded(d) => DownloadResult(IncrementDownloads(ps, id), false, Some(DownloadFilename(d, id)), error)
      case Failed(m) => DownloadResult(ps, false, None, if m.Some? then m.value else "Failed to download file")
  }
}

=== FILE: home.dfy ===
/** The home route: which tab a user may open, and the notification bell. */
module Home {
  import opened Wrappers
  import opened Strings
  import opened Api
  import opened Auth
  import opened Lists

  // ---------------------------------------------------------------------------
  // Tabs
  // ---------------------------------------------------------------------------

  /** The tab shown first. */
  const InitialTab: string := "catalog"

  /** The tabs anybody may open. */
  predicate PublicTab(tab: string)
  {
    tab == "catalog" || tab == "search"
  }

  /** Roles that review papers. */
  predicate ReviewerRole(r: ApiRole)
  {
    r == Librarian || r == ProjectCoordinator || r == Hod || r == Lecturer
  }

  /** `isReviewer`: a signed-in librarian, project coordinator, HOD or lecturer. */
  predicate IsReviewer(user: Option<User>)
  {
    user.Some? && user.value.role.Registered? && ReviewerRole(user.value.role.role)
  }

  /** The outcome of a tab request: the active tab afterwards, and whether the
      browser is sent to the login page. */
  datatype TabResult = TabResult(activeTab: string, toLogin: bool)

  /** A signed-in non-guest whose role allows the tab: the approval tab needs a
      reviewer and the librarian tab a librarian. */
  predicate MayOpen(user: Option<User>, tab: string)
  {
    AuthedNonGuest(user) && (tab == "approval" ==> IsReviewer(user))
    && (tab == "librarian" ==> user.value.role == Registered(Librarian))
  }

  /** `handleTabChange`: anyone not signed in (or a guest) asking for a tab other
      than catalog or search goes to login and the tab stays; the approval tab
      needs a reviewer and the librarian tab a librarian, otherwise the request is
      ignored; any other request switches to the tab asked for. */
  function HandleTabChange(user: Option<User>, active: string, tab: string): (r: TabResult)
    ensures r.toLogin <==> !AuthedNonGuest(user) && !PublicTab(tab)
    ensures r.activeTab == active || r.activeTab == tab
    ensures PublicTab(tab) ==> r == TabResult(tab, false)
    ensures r.activeTab != active ==> r.activeTab == tab && !r.toLogin
    ensures tab == "approval" && !IsReviewer(user) ==> r.activeTab == active
    ensures tab == "librarian" && !(user.Some? && user.value.role == Registered(Librarian)) ==> r.activeTab == active
    ensures MayOpen(user, tab) ==> r == TabResult(tab, false)
  {
    if !AuthedNonGuest(user) && !PublicTab(tab) then TabResult(active, true)
    else if tab == "approval" && !IsReviewer(user) then TabResult(active, false)
    else if tab == "librarian" && !(user.Some? && user.value.role == Registered(Librarian)) then TabResult(active, false)
    else TabResult(tab, false)
  }

  /** The active tab after a run of tab requests. */
  function TabAfter(user: Option<User>, active: string, requests: seq<string>): string
    decreases |requests|
  {
    if |requests| == 0 then active
    else TabAfter(user, HandleTabChange(user, active, requests[0]).activeTab, requests[1..])
  }

  /** Starting from the catalog, a visitor who is not signed in, or is a guest, only
      ever sees the catalog or search tab, whatever tabs are requested. */
  lemma {:induction false} GuestStaysOnPublicTabs(user: Option<User>, active: string, requests: seq<string>)
    requires !AuthedNonGuest(user) && PublicTab(active)
    ensures PublicTab(TabAfter(user, active, requests))
    decreases |requests|
  {
    if |requests| > 0 {
      GuestStaysOnPublicTabs(user, HandleTabChange(user, active, requests[0]).activeTab, requests[1..]);
    }
  }

  /** The whole-session form: from the initial tab. */
  lemma GuestSessionTabs(user: Option<User>, requests: seq<string>)
    requires !AuthedNonGuest(user)
    ensures PublicTab(TabAfter(user, InitialTab, requests))
  {
    GuestStaysOnPublicTabs(user, InitialTab, requests);
  }

  /** A reviewer always ends on the last tab asked for, unless that is the librarian
      tab. */
  lemma {:induction false} ReviewerReachesRequested(user: Option<User>, active: string, requests: seq<string>)
    requires IsReviewer(user) && |requests| > 0 && requests[|requests| - 1] != "librarian"
    ensures TabAfter(user, active, requests) == requests[|requests| - 1]
    decreases |requests|
  {
    if |requests| > 1 {
      ReviewerReachesRequested(user, HandleTabChange(user, active, requests[0]).activeTab, requests[1..]);
    }
  }

  // ---------------------------------------------------------------------------
  // Notifications
  // ---------------------------------------------------------------------------

  /** `unreadCount`: the notifications not yet read. */
  function UnreadCount(ns: seq<Notification>): (r: nat)
    ensures r <= |ns|
    ensures r == 0 <==> forall i | 0 <= i < |ns| :: ns[i].isRead
  {
    if |ns| == 0 then 0
    else
      assert forall i | 1 <= i < |ns| :: ns[1..][i - 1] == ns[i];
      (if ns[0].isRead then 0 else 1) + UnreadCount(ns[1..])
  }

  /** The notifications already read. */
  function ReadCount(ns: seq<Notification>): nat
  {
    if |ns| == 0 then 0 else (if ns[0].isRead then 1 else 0) + ReadCount(ns[1..])
  }

  /** Read and unread notifications together are all of them. */
  lemma {:induction false} ReadUnreadPartition(ns: seq<Notification>)
    ensures UnreadCount(ns) + ReadCount(ns) == |ns|
  {
    if |ns| > 0 {
      ReadUnreadPartition(ns[1..]);
    }
  }

  /** The list after a notification is marked read: every entry with that id is
      replaced by the server's updated record; length and order are kept. */
  function MarkRead(ns: seq<Notification>, id: int, updated: Notification): (r: seq<Notification>)
    ensures |r| == |ns|
    ensures forall i | 0 <= i < |ns| :: r[i] == (if ns[i].id == id then updated else ns[i])
  {
    ReplaceWhere(ns, (n: Notification) => n.id == id, updated)
  }

  /** Marking read never raises the unread count, and lowers it when some entry with
      that id was unread. */
  lemma {:induction false} MarkReadLowersUnread(ns: seq<Notification>, id: int, updated: Notification)
    requires updated.isRead
    ensures UnreadCount(MarkRead(ns, id, updated)) <= UnreadCount(ns)
    ensures (exists i | 0 <= i < |ns| :: ns[i].id == id && !ns[i].isRead) ==>
      UnreadCount(MarkRead(ns, id, updated)) < UnreadCount(ns)
  {
    if |ns| > 0 {
      var r := MarkRead(ns, id, updated);
      assert r[1..] == MarkRead(ns[1..], id, updated);
      MarkReadLowersUnread(ns[1..], id, updated);
      if exists i | 0 <= i < |ns| :: ns[i].id == id && !ns[i].isRead {
        var i :| 0 <= i < |ns| && ns[i].id == id && !ns[i].isRead;
        if i > 0 {
          assert ns[1..][i - 1] == ns[i];
        }
      }
    }
  }

  /** `handleNotificationClick`: without an access token, or when the server call
      fails, the list is unchanged; otherwise every entry with that id is replaced by
      the server's answer and the others are kept. */
  function NotificationClick(token: Option<string>, ns: seq<Notification>, id: int, answer: Option<Notification>): (r: seq<Notification>)
    ensures !Truthy(token) || answer.None? ==> r == ns
    ensures |r| == |ns|
    ensures forall i | 0 <= i < |ns| && ns[i].id != id :: r[i] == ns[i]
    ensures Truthy(token) && answer.Some? ==> r == MarkRead(ns, id, answer.value)
    ensures Truthy(token) && answer.Some? ==> forall i | 0 <= i < |ns| && ns[i].id == id :: r[i] == answer.value
  {
    if !Truthy(token) || answer.None? then ns else MarkRead(ns, id, answer.value)
  }

  /** The notification list after a load: nothing is fetched without an access token
      or for a visitor who is not signed in or is a guest; a failed fetch empties
      the list. */
  function LoadNotifications(token: Option<string>, user: Option<User>, current: seq<Notification>,
                             fetched: Option<seq<Notification>>): (r: seq<Notification>)
    ensures !Truthy(token) || !AuthedNonGuest(user) ==> r == current
    ensures Truthy(token) && AuthedNonGuest(user) ==> r == fetched.GetOr([])
  {
    if !Truthy(token) || !AuthedNonGuest(user) then current else fetched.GetOr([])
  }
}

=== FILE: lists.dfy ===
/** List operations shared by several pages. */
module Lists {
  /** `xs.map((v) => (hit(v) ? x : v))`: every entry that `hit` selects becomes `x`,
      every other entry stays where it was. */
  function ReplaceWhere<T>(xs: seq<T>, hit: T -> bool, x: T): (r: seq<T>)
    ensures |r| == |xs|
    ensures forall i | 0 <= i < |xs| :: r[i] == (if hit(xs[i]) then x else xs[i])
  {
    seq(|xs|, i requires 0 <= i < |xs| => if hit(xs[i]) then x else xs[i])
  }
}

=== FILE: login.dfy ===
/** The login page: the checks `handleLogin` runs before it calls `login`, the
    guest shortcut, and the Enter key. */
module Login {
  import opened Wrappers
  import opened Api
  import opened Auth

  /** The page's state: the two inputs and the account type, which starts as guest. */
  datatype LoginForm = LoginForm(email: string, password: string, selectedRole: UserRole)

  const InitialForm := LoginForm("", "", Guest)

  /** The account types the page's buttons select. */
  const SelectableRoles: seq<ApiRole> := [Member, Staff, Librarian]

  /** A role button sets the account type and nothing else. */
  function SelectRole(f: LoginForm, role: ApiRole): (r: LoginForm)
    requires role in SelectableRoles
    ensures r.selectedRole == Registered(role)
    ensures r.email == f.email && r.password == f.password
  {
    f.(selectedRole := Registered(role))
  }

  /** The arguments of a `login` call. */
  datatype LoginRequest = LoginRequest(email: string, password: string, role: UserRole)

  const MissingCredentials := "Please enter email and password"
  const InvalidEmail := "Please enter a valid email address"

  /** The e-mail and password are both filled in, and unless the account type is
      guest the e-mail contains '@'. */
  predicate Submittable(f: LoginForm)
  {
    f.email != [] && f.password != [] && (f.selectedRole != Guest ==> '@' in f.email)
  }

  /** `handleLogin` up to the `login` call: the first failing check's message, or
      the call made with the form's values unchanged. */
  function HandleLogin(f: LoginForm): (r: Result<LoginRequest, string>)
    ensures r.Ok? <==> Submittable(f)
    ensures r == Err(MissingCredentials) <==> f.email == [] || f.password == []
    ensures r == Err(InvalidEmail) <==>
      f.email != [] && f.password != [] && f.selectedRole != Guest && '@' !in f.email
    ensures r.Ok? ==> r.value == LoginRequest(f.email, f.password, f.selectedRole)
  {
    if f.email == [] || f.password == [] then Err(MissingCredentials)
    else if f.selectedRole != Guest && '@' !in f.email then Err(InvalidEmail)
    else Ok(LoginRequest(f.email, f.password, f.selectedRole))
  }

  /** Until a role button is pressed, any non-empty e-mail is accepted, '@' or not. */
  lemma InitialRoleSkipsEmailCheck(email: string, password: string)
    requires email != [] && password != []
    ensures HandleLogin(InitialForm.(email := email, password := password)).Ok?
  {
  }

  /** Once a role button is pressed, an e-mail without '@' is refused. */
  lemma ChosenRoleChecksEmail(f: LoginForm, role: ApiRole, email: string)
    requires role in SelectableRoles && f.password != [] && email != [] && '@' !in email
    ensures HandleLogin(SelectRole(f, role).(email := email)) == Err(InvalidEmail)
  {
  }

  /** Every call `handleLogin` makes gets past the empty-credentials guard of
      `login`: a guest call always signs in, and a normal call signs in exactly the
      server's user when the server accepts it. */
  lemma SubmittedLoginPassesGuard(s: Session, f: LoginForm, now: int, net: LoginOutcome)
    requires HandleLogin(f).Ok?
    ensures var q := HandleLogin(f).value;
      var r := Login(s, q.email, q.password, q.role, now, net);
      && (q.role == Guest ==> r.ok && r.calls == [])
      && (q.role != Guest ==> (r.ok <==> net.Accepted?))
      && (r.ok && q.role != Guest ==> r.session.user == Some(BuildUser(net.me, NoExtras)))
  {
  }

  const GuestEmail := "guest@murrs.edu"

  /** `handleGuestAccess`: always the same guest call, whatever the form holds. */
  function HandleGuestAccess(): (r: LoginRequest)
    ensures r.role == Guest && r.email != [] && r.password != []
  {
    LoginRequest(GuestEmail, "guest", Guest)
  }

  /** Guest access signs in the guest user, without any server call, and leaves no
      token behind. */
  lemma GuestAccessSignsInGuest(s: Session, now: int, net: LoginOutcome)
    ensures var q := HandleGuestAccess();
      var r := Login(s, q.email, q.password, q.role, now, net);
      && r.ok && r.calls == []
      && r.session.user == Some(User(now, GuestEmail, "Guest", Guest, None, None))
      && TokenAt(r.session.storage, AccessKey) == None && TokenAt(r.session.storage, RefreshKey) == None
  {
  }

  /** `handleKeyPress`: Enter in either input does what the Sign In button does; any
      other key does nothing (`None`). */
  function HandleKeyPress(f: LoginForm, key: string): (r: Option<Result<LoginRequest, string>>)
    ensures key == "Enter" <==> r.Some?
  {
    if key == "Enter" then Some(HandleLogin(f)) else None
  }

  /** Pressing Enter and clicking Sign In run the same checks and make the same call. */
  lemma EnterMatchesButton(f: LoginForm)
    ensures HandleKeyPress(f, "Enter") == Some(HandleLogin(f))
  {
  }
}

=== FILE: profile.dfy ===
/** The profile page: the checks in front of the profile edit and the password
    change, what each leaves on the page, and the role badge. */
module Profile {
  import opened Wrappers
  import opened Strings
  import opened Api
  import opened Auth

  /** The page's state: the two dialogs, their inputs, and their messages. */
  datatype ProfilePage = ProfilePage(
    editDialogOpen: bool, passwordDialogOpen: bool,
    editName: string, editDepartment: string,
    oldPassword: string, newPassword: string, confirmPassword: string,
    editError: string, passwordError: string, editSuccess: string, passwordSuccess: string)

  /** The page as first shown: both dialogs closed, the edit inputs holding the
      user's name and department (or ""), everything else empty. */
  function InitialPage(user: Option<User>): (r: ProfilePage)
    ensures !r.editDialogOpen && !r.passwordDialogOpen
    ensures r.editName == (if user.Some? then user.value.name else "")
    ensures user.Some? ==> r.editDepartment == OptOrElse(user.value.department, "")
    ensures r.oldPassword == r.newPassword == r.confirmPassword == ""
  {
    ProfilePage(false, false,
                if user.Some? then OrElse(user.value.name, "") else "",
                if user.Some? then OptOrElse(user.value.department, "") else "",
                "", "", "", "", "", "", "")
  }

  /** A page change together with the session it leaves and the server calls made. */
  datatype ProfileStep = ProfileStep(page: ProfilePage, session: Session, calls: seq<Call>)

  // ---------------------------------------------------------------------------
  // Profile edit
  // ---------------------------------------------------------------------------

  const NameRequired := "Name is required"
  const ProfileUpdated := "Profile updated successfully!"
  const ProfileUpdateFailed := "Failed to update profile"

  /** `handleEditProfile`: a name that is blank once trimmed is refused before any
      call; otherwise the profile is updated (with the name as typed), and success
      closes the dialog while failure leaves it open with an error. */
  function HandleEditProfile(p: ProfilePage, s: Session, net: RetryOutcome<ApiUser>): (r: ProfileStep)
    ensures IsBlank(p.editName) ==>
      r == ProfileStep(p.(editError := NameRequired, editSuccess := ""), s, [])
    ensures !IsBlank(p.editName) ==>
      var u := UpdateProfile(s, p.editName, Some(p.editDepartment), net);
      r.session == u.session && r.calls == u.calls
      && (u.ok ==> && r.page == p.(editError := "", editSuccess := ProfileUpdated, editDialogOpen := false)
                   && r.session.user.Some?)
      && (!u.ok ==> r.page == p.(editError := ProfileUpdateFailed, editSuccess := "") && r.session.user == s.user)
    ensures r.page.passwordDialogOpen == p.passwordDialogOpen && r.page.oldPassword == p.oldPassword
  {
    var cleared := p.(editError := "", editSuccess := "");
    if Trim(p.editName) == [] then ProfileStep(cleared.(editError := NameRequired), s, [])
    else
      var u := UpdateProfile(s, p.editName, Some(p.editDepartment), net);
      if u.ok then ProfileStep(cleared.(editSuccess := ProfileUpdated, editDialogOpen := false), u.session, u.calls)
      else ProfileStep(cleared.(editError := ProfileUpdateFailed), u.session, u.calls)
  }

  /** A name the page accepts is one the session accepts too: for a signed-in user
      with an access token, a first attempt the server answers always succeeds. */
  lemma AcceptedNameReachesServer(p: ProfilePage, s: Session, net: RetryOutcome<ApiUser>)
    requires !IsBlank(p.editName) && s.user.Some? && Truthy(TokenAt(s.storage, AccessKey)) && net.first.Some?
    ensures var r := HandleEditProfile(p, s, net);
      r.calls == [UpdateCall] && r.page.editSuccess == ProfileUpdated && !r.page.editDialogOpen
  {
    assert p.editName != [];
  }

  // ---------------------------------------------------------------------------
  // Password change
  // ---------------------------------------------------------------------------

  const FieldsRequired := "All fields are required"
  const PasswordsDiffer := "New passwords do not match"
  const PasswordTooShort := "Password must be at least 6 characters"
  const PasswordChanged := "Password changed successfully!"
  const OldPasswordWrong := "Old password is incorrect"

  /** The three inputs pass the page's checks. */
  predicate PasswordFormValid(oldPassword: string, newPassword: string, confirmPassword: string)
  {
    oldPassword != [] && newPassword != [] && confirmPassword != []
    && newPassword == confirmPassword && Utf16Length(newPassword) >= 6
  }

  /** The page's checks in order: all three filled in, the new one confirmed, at
      least six characters. */
  function CheckPasswordForm(oldPassword: string, newPassword: string, confirmPassword: string): (r: Result<(), string>)
    ensures r.Ok? <==> PasswordFormValid(oldPassword, newPassword, confirmPassword)
    ensures r == Err(FieldsRequired) <==> oldPassword == [] || newPassword == [] || confirmPassword == []
    ensures r == Err(PasswordsDiffer) <==>
      oldPassword != [] && newPassword != [] && confirmPassword != [] && newPassword != confirmPassword
    ensures r == Err(PasswordTooShort) <==>
      oldPassword != [] && newPassword != [] && newPassword == confirmPassword && Utf16Length(newPassword) < 6
  {
    if oldPassword == [] || newPassword == [] || confirmPassword == [] then Err(FieldsRequired)
    else if newPassword != confirmPassword then Err(PasswordsDiffer)
    else if Utf16Length(newPassword) < 6 then Err(PasswordTooShort)
    else Ok(())
  }

  /** The six-character minimum counts UTF-16 code units, as `.length` does: three
      emoji pass it, five letters do not. */
  lemma PasswordLengthInCodeUnits()
    ensures CheckPasswordForm("x", "\U{1F600}\U{1F600}\U{1F600}", "\U{1F600}\U{1F600}\U{1F600}") == Ok(())
    ensures CheckPasswordForm("x", "abcde", "abcde") == Err(PasswordTooShort)
  {
    var e := "\U{1F600}\U{1F600}\U{1F600}";
    assert IsAstral(e[0]) && IsAstral(e[1]) && IsAstral(e[2]);
    assert Utf16Length(e) == 6;
    assert Utf16Length("abcde") == 5;
  }

  /** `handleChangePassword`: the page's checks, then the change. Success clears the
      three inputs and closes the dialog; a refused change keeps them and reports
      the old password as wrong. */
  function HandleChangePassword(p: ProfilePage, s: Session, net: RetryOutcome<()>): (r: ProfileStep)
    ensures var c := CheckPasswordForm(p.oldPassword, p.newPassword, p.confirmPassword);
      c.Err? ==> r == ProfileStep(p.(passwordError := c.error, passwordSuccess := ""), s, [])
    ensures PasswordFormValid(p.oldPassword, p.newPassword, p.confirmPassword) ==>
      var u := ChangePassword(s, p.oldPassword, p.newPassword, net);
      r.session == u.session && r.calls == u.calls
      && (u.ok ==> && r.page.oldPassword == "" && r.page.newPassword == "" && r.page.confirmPassword == ""
                   && !r.page.passwordDialogOpen && r.page.passwordSuccess == PasswordChanged && r.page.passwordError == "")
      && (!u.ok ==> r.page == p.(passwordError := OldPasswordWrong, passwordSuccess := ""))
    ensures r.session.user == s.user
    ensures r.page.editDialogOpen == p.editDialogOpen && r.page.editName == p.editName
  {
    var cleared := p.(passwordError := "", passwordSuccess := "");
    match CheckPasswordForm(p.oldPassword, p.newPassword, p.confirmPassword)
    case Err(m) => ProfileStep(cleared.(passwordError := m), s, [])
    case Ok(_) =>
      var u := ChangePassword(s, p.oldPassword, p.newPassword, net);
      if u.ok then
        ProfileStep(cleared.(passwordSuccess := PasswordChanged, oldPassword := "", newPassword := "",
                             confirmPassword := "", passwordDialogOpen := false), u.session, u.calls)
      else ProfileStep(cleared.(passwordError := OldPasswordWrong), u.session, u.calls)
  }

  /** Reusing the old password passes every check on the page but is stopped by the
      session's guard before any call, and the page then reports the old password
      as wrong. */
  lemma SamePasswordReportedAsWrong(p: ProfilePage, s: Session, net: RetryOutcome<()>)
    requires PasswordFormValid(p.oldPassword, p.newPassword, p.confirmPassword)
    requires p.oldPassword == p.newPassword
    ensures var r := HandleChangePassword(p, s, net);
      r.calls == [] && r.page.passwordError == OldPasswordWrong && r.page.passwordDialogOpen == p.passwordDialogOpen
  {
  }

  // ---------------------------------------------------------------------------
  // Role badge
  // ---------------------------------------------------------------------------

  /** `getRoleBadgeVariant`. */
  function RoleBadgeVariant(role: string): (r: string)
    ensures r == "destructive" <==> role == "librarian"
    ensures r != "destructive" ==> r == "outline"
  {
    if role == "librarian" then "destructive" else "outline"
  }

  /** `getRoleLabel`: the display name of a role the page knows, the role itself
      otherwise. */
  function RoleLabel(role: string): (r: string)
    ensures role == "student" || role == "member" ==> r == "Student"
    ensures role == "project_coordinator" ==> r == "Project Coordinator"
    ensures role == "hod" ==> r == "HOD"
    ensures role == "lecturer" ==> r == "Lecturer"
    ensures role == "staff" ==> r == "Staff"
    ensures role == "librarian" ==> r == "Librarian"
    ensures r != role <==> ApiRoleFromName(role).Some?
  {
    if role == "student" || role == "member" then "Student"
    else if role == "project_coordinator" then "Project Coordinator"
    else if role == "hod" then "HOD"
    else if role == "lecturer" then "Lecturer"
    else if role == "staff" then "Staff"
    else if role == "librarian" then "Librarian"
    else role
  }

  /** Every server role gets a display name of its own kind (students and members
      share one), and the guest's badge shows the raw name "guest". */
  lemma RoleLabelsOfUsers(a: ApiRole, b: ApiRole)
    ensures RoleLabel(ApiRoleName(a)) != ApiRoleName(a)
    ensures RoleLabel(ApiRoleName(a)) == RoleLabel(ApiRoleName(b)) <==>
      a == b || (a == Student && b == Member) || (a == Member && b == Student)
    ensures RoleLabel(UserRoleName(Guest)) == "guest"
    ensures RoleBadgeVariant(UserRoleName(Registered(a))) == "destructive" <==> a == Librarian
  {
    LabelOfRole(a);
    RoleLabelsShared(a, b);
  }

  /** Two server roles share a label exactly when they are the same role, or are
      student and member. */
  lemma RoleLabelsShared(a: ApiRole, b: ApiRole)
    ensures RoleLabel(ApiRoleName(a)) == RoleLabel(ApiRoleName(b)) <==>
      a == b || (a == Student && b == Member) || (a == Member && b == Student)
  {
    LabelOfRole(a);
    LabelOfRole(b);
  }

  /** The label of each server role, by name. */
  lemma LabelOfRole(a: ApiRole)
    ensures a == Student || a == Member <==> RoleLabel(ApiRoleName(a)) == "Student"
    ensures a == Lecturer <==> RoleLabel(ApiRoleName(a)) == "Lecturer"
    ensures a == Staff <==> RoleLabel(ApiRoleName(a)) == "Staff"
    ensures a == ProjectCoordinator <==> RoleLabel(ApiRoleName(a)) == "Project Coordinator"
    ensures a == Hod <==> RoleLabel(ApiRoleName(a)) == "HOD"
    ensures a == Librarian <==> RoleLabel(ApiRoleName(a)) == "Librarian"
  {
    match a
    case Student => assert RoleLabel("student") == "Student";
    case Member => assert RoleLabel("member") == "Student";
    case Lecturer => assert RoleLabel("lecturer") == "Lecturer";
    case Staff => assert RoleLabel("staff") == "Staff";
    case ProjectCoordinator => assert RoleLabel("project_coordinator") == "Project Coordinator";
    case Hod => assert RoleLabel("hod") == "HOD";
    case Librarian => assert RoleLabel("librarian") == "Librarian";
  }
}

=== FILE: search.dfy ===
/** The search page: single-select filters kept per category, the school to
    discipline reconciliation, pagination over the loaded results, saved searches
    and bookmarks. */
module Search {
  import opened Wrappers
  import opened Strings
  import opened Api
  import opened Auth
  import Catalog

  // ---------------------------------------------------------------------------
  // Filters: an object from category to selected values, in insertion order
  // ---------------------------------------------------------------------------

  type Filters = seq<(string, seq<string>)>

  /** `{ ...f, [k]: v }`: an existing key keeps its place with the new value, a new
      key goes last. */
  function Put(f: Filters, k: string, v: seq<string>): (r: Filters)
    ensures Find(r, k) == Some(v)
    ensures forall k' | k' != k :: Find(r, k') == Find(f, k')
  {
    if |f| == 0 then [(k, v)]
    else if f[0].0 == k then [(k, v)] + f[1..]
    else
      var rest := Put(f[1..], k, v);
      var r := [f[0]] + rest;
      assert r[1..] == rest;
      r
  }

  /** Putting a key keeps the order of the keys, adding a new key at the end. */
  lemma {:induction false} PutKeys(f: Filters, k: string, v: seq<string>)
    ensures k in KeysOf(f) ==> KeysOf(Put(f, k, v)) == KeysOf(f)
    ensures k !in KeysOf(f) ==> KeysOf(Put(f, k, v)) == KeysOf(f) + [k]
  {
    if |f| > 0 {
      assert KeysOf(f) == [f[0].0] + KeysOf(f[1..]);
      if f[0].0 != k {
        PutKeys(f[1..], k, v);
        assert Put(f, k, v) == [f[0]] + Put(f[1..], k, v);
        assert KeysOf(Put(f, k, v)) == [f[0].0] + KeysOf(Put(f[1..], k, v));
      } else {
        assert KeysOf(Put(f, k, v)) == [k] + KeysOf(f[1..]);
      }
    }
  }

  /** Putting at most one value keeps every category to at most one value. */
  lemma {:induction false} PutSingle(f: Filters, k: string, v: seq<string>)
    requires SingleSelect(f) && |v| <= 1
    ensures SingleSelect(Put(f, k, v))
  {
    if |f| > 0 && f[0].0 != k {
      assert SingleSelect(f[1..]) by {
        forall i | 0 <= i < |f[1..]| ensures |f[1..][i].1| <= 1 {
          assert f[1..][i] == f[i + 1];
        }
      }
      PutSingle(f[1..], k, v);
      var r := Put(f, k, v);
      assert r == [f[0]] + Put(f[1..], k, v);
      forall i | 0 <= i < |r| ensures |r[i].1| <= 1 {
        if i > 0 {
          assert r[i] == Put(f[1..], k, v)[i - 1];
        }
      }
    }
  }

  /** `delete f[k]`: every entry with that key goes, the rest keep their order. */
  function Delete(f: Filters, k: string): (r: Filters)
    ensures Find(r, k) == None
    ensures forall k' | k' != k :: Find(r, k') == Find(f, k')
    ensures |r| <= |f|
    ensures forall i | 0 <= i < |r| :: r[i] in f && r[i].0 != k
  {
    if |f| == 0 then []
    else
      var rest := Delete(f[1..], k);
      assert forall i | 0 <= i < |rest| :: rest[i] in f;
      if f[0].0 == k then rest
      else
        var r := [f[0]] + rest;
        assert r[1..] == rest;
        r
  }

  /** `f[k]?.[0]`: the first selected value of a category. */
  function FirstValue(f: Filters, k: string): (r: Option<string>)
    ensures r.Some? <==> Find(f, k).Some? && Find(f, k).value != []
    ensures r.Some? ==> r.value == Find(f, k).value[0]
  {
    match Find(f, k)
    case Some(vs) => if |vs| > 0 then Some(vs[0]) else None
    case None => None
  }

  /** At most one value selected in every category. */
  predicate SingleSelect(f: Filters)
  {
    forall i | 0 <= i < |f| :: |f[i].1| <= 1
  }

  /** `xs.filter((v) => v !== x)`. */
  function Without(xs: seq<string>, x: string): (r: seq<string>)
    ensures x !in r
    ensures |r| <= |xs|
    ensures forall y | y != x :: y in r <==> y in xs
    ensures multiset(r)[x] == 0 && forall y | y != x :: multiset(r)[y] == multiset(xs)[y]
  {
    if |xs| == 0 then []
    else
      var rest := Without(xs[1..], x);
      assert xs == [xs[0]] + xs[1..];
      assert forall y :: y in xs <==> y == xs[0] || y in xs[1..];
      if xs[0] == x then rest else [xs[0]] + rest
  }

  /** Removal works piece by piece, so the kept values stay in their order. */
  lemma {:induction false} WithoutAppend(xs: seq<string>, ys: seq<string>, x: string)
    ensures Without(xs + ys, x) == Without(xs, x) + Without(ys, x)
    decreases |xs|
  {
    if |xs| > 0 {
      assert (xs + ys)[1..] == xs[1..] + ys;
      WithoutAppend(xs[1..], ys, x);
    } else {
      assert xs + ys == ys;
    }
  }

  /** The values a category holds, empty when the category is absent. */
  function Values(f: Filters, k: string): seq<string>
  {
    Find(f, k).GetOr([])
  }

  /** The new values of a category after toggling `value` in it. */
  function Toggled(current: seq<string>, value: string): (r: seq<string>)
    ensures value in r <==> value !in current
    ensures forall y | y in r :: y == value || y in current
    ensures value !in current ==> r == [value]
    ensures value in current ==> r == Without(current, value)
  {
    if value in current then Without(current, value) else [value]
  }

  /** A lookup returns the values of some entry with that key. */
  lemma {:induction false} FindInEntries(f: Filters, k: string)
    requires Find(f, k).Some?
    ensures exists i | 0 <= i < |f| :: f[i] == (k, Find(f, k).value)
  {
    if f[0].0 != k {
      FindInEntries(f[1..], k);
      var i :| 0 <= i < |f[1..]| && f[1..][i] == (k, Find(f[1..], k).value);
      assert f[i + 1] == f[1..][i];
    }
  }

  // ---------------------------------------------------------------------------
  // Schools and disciplines
  // ---------------------------------------------------------------------------

  /** `SCHOOL_DISCIPLINE_MAP`. */
  const SchoolDisciplineMap: seq<(string, seq<string>)> := [
    ("Business School", ["Business Administration", "Accounting and Finance"]),
    ("School of Public Service and Governance", ["Public Service and Governance"]),
    ("Faculty of Law", ["Law"]),
    ("School of Technology and Social Sciences (SOTSS)", [
      "Computer Science and Information Systems",
      "Information Systems and Innovation",
      "Economics and Hospitality Studies",
      "Liberal Arts and Communication Studies"])
  ]

  /** `schools`: the school filter's options, which are the keys of the map. */
  const Schools: seq<string> := [
    "Business School",
    "School of Public Service and Governance",
    "Faculty of Law",
    "School of Technology and Social Sciences (SOTSS)"
  ]

  /** `years`: the year filter's options. */
  const Years: seq<string> := ["2024", "2023", "2022", "2021", "2020"]

  /** The school filter offers exactly the schools that have a discipline list. */
  lemma SchoolsAreMapKeys()
    ensures KeysOf(SchoolDisciplineMap) == Schools
  {
  }

  function Flatten(xss: seq<seq<string>>): (r: seq<string>)
    ensures forall x :: x in r <==> exists i | 0 <= i < |xss| :: x in xss[i]
  {
    if |xss| == 0 then []
    else
      var rest := Flatten(xss[1..]);
      assert forall i | 1 <= i < |xss| :: xss[1..][i - 1] == xss[i];
      xss[0] + rest
  }

  predicate NoDuplicates(xs: seq<string>)
  {
    forall i, j | 0 <= i < j < |xs| :: xs[i] != xs[j]
  }

  /** Where `x` first occurs in `xs`, and `|xs|` when it does not occur: `xs.indexOf(x)`
      with the length standing for -1. */
  function FirstIndex(xs: seq<string>, x: string): (r: nat)
    ensures r <= |xs|
    ensures r < |xs| <==> x in xs
    ensures r < |xs| ==> xs[r] == x
    ensures forall j | 0 <= j < r :: xs[j] != x
  {
    if |xs| == 0 then 0
    else if xs[0] == x then 0
    else
      var k := FirstIndex(xs[1..], x);
      assert forall j | 1 <= j < |xs| :: xs[j] == xs[1..][j - 1];
      1 + k
  }

  /** A value of a prefix first occurs in the whole list where it first occurs in the
      prefix. */
  lemma FirstIndexOfPrefix(xs: seq<string>, n: nat, x: string)
    requires n <= |xs| && x in xs[..n]
    ensures FirstIndex(xs, x) == FirstIndex(xs[..n], x) < n
  {
    var k := FirstIndex(xs[..n], x);
    assert xs[k] == x;
  }

  /** `Array.from(new Set(xs))`: the values of `xs`, each once, in the order of their
      first occurrences. */
  function Dedup(xs: seq<string>): (r: seq<string>)
    ensures NoDuplicates(r)
    ensures forall x :: x in r <==> x in xs
    ensures forall i, j | 0 <= i < j < |r| :: FirstIndex(xs, r[i]) < FirstIndex(xs, r[j])
    ensures |r| <= |xs|
  {
    if |xs| == 0 then []
    else
      var front := xs[..|xs| - 1];
      var last := xs[|xs| - 1];
      var r := Dedup(front);
      assert xs == front + [last];
      DedupOrderStep(xs, r);
      if last in r then r else r + [last]
  }

  /** The step of `Dedup`: the first occurrences in the list without its last value keep
      their order, and a new last value occurs first after all of them. */
  lemma DedupOrderStep(xs: seq<string>, r: seq<string>)
    requires |xs| > 0
    requires forall x :: x in r <==> x in xs[..|xs| - 1]
    requires forall i, j | 0 <= i < j < |r| :: FirstIndex(xs[..|xs| - 1], r[i]) < FirstIndex(xs[..|xs| - 1], r[j])
    ensures forall i, j | 0 <= i < j < |r| :: FirstIndex(xs, r[i]) < FirstIndex(xs, r[j])
    ensures xs[|xs| - 1] !in r ==> var r' := r + [xs[|xs| - 1]];
      forall i, j | 0 <= i < j < |r'| :: FirstIndex(xs, r'[i]) < FirstIndex(xs, r'[j])
  {
    var n := |xs| - 1;
    forall y | y in r ensures FirstIndex(xs, y) == FirstIndex(xs[..n], y) < n {
      FirstIndexOfPrefix(xs, n, y);
    }
    if xs[n] !in r {
      var r' := r + [xs[n]];
      assert FirstIndex(xs, xs[n]) == n;
      forall i, j | 0 <= i < j < |r'| ensures FirstIndex(xs, r'[i]) < FirstIndex(xs, r'[j]) {
        assert r'[i] == r[i];
        if j < |r| {
          assert r'[j] == r[j];
        }
      }
    }
  }

  /** Without duplicates, deduplication changes nothing. */
  lemma {:induction false} DedupOfDistinct(xs: seq<string>)
    requires NoDuplicates(xs)
    ensures Dedup(xs) == xs
  {
    if |xs| > 0 {
      var front, last := xs[..|xs| - 1], xs[|xs| - 1];
      assert xs == front + [last];
      assert last !in front;
      assert NoDuplicates(front);
      DedupOfDistinct(front);
    }
  }

  function MapValues(m: seq<(string, seq<string>)>): (r: seq<seq<string>>)
    ensures |r| == |m| && forall i | 0 <= i < |m| :: r[i] == m[i].1
  {
    seq(|m|, i requires 0 <= i < |m| => m[i].1)
  }

  /** `disciplines`: every school's disciplines, each once. */
  function AllDisciplines(): (r: seq<string>)
    ensures NoDuplicates(r)
    ensures forall d :: d in r <==> exists i | 0 <= i < |SchoolDisciplineMap| :: d in SchoolDisciplineMap[i].1
  {
    Dedup(Flatten(MapValues(SchoolDisciplineMap)))
  }

  /** `visibleDisciplines`: the selected school's list when a school is selected and
      known, nothing for an unknown school, and every discipline when no school is
      selected. */
  function VisibleDisciplines(f: Filters): (r: seq<string>)
    ensures !Truthy(FirstValue(f, "university")) ==> r == AllDisciplines()
    ensures Truthy(FirstValue(f, "university")) ==> r == Find(SchoolDisciplineMap, FirstValue(f, "university").value).GetOr([])
    ensures Truthy(FirstValue(f, "university")) && FirstValue(f, "university").value !in Schools ==> r == []
  {
    var school := FirstValue(f, "university");
    if Truthy(school) then
      if school.value !in Schools then
        FindMissing(SchoolDisciplineMap, school.value);
        []
      else Find(SchoolDisciplineMap, school.value).GetOr([])
    else AllDisciplines()
  }

  /** A known school's visible disciplines are all disciplines. */
  lemma VisibleWithinAll(f: Filters)
    ensures forall d | d in VisibleDisciplines(f) :: d in AllDisciplines()
  {
    var school := FirstValue(f, "university");
    if Truthy(school) && Find(SchoolDisciplineMap, school.value).Some? {
      FindInEntries(SchoolDisciplineMap, school.value);
    }
  }

  /** The selections agree: no school selected, no discipline selected, or the
      discipline is one the school offers. */
  predicate Reconciled(f: Filters)
  {
    var school := FirstValue(f, "university");
    var discipline := FirstValue(f, "discipline");
    !Truthy(school) || !Truthy(discipline) || discipline.value in VisibleDisciplines(f)
  }

  /** The reconciliation effect: when a school and a discipline are selected and the
      school does not offer it, the discipline category is deleted; every other
      category is kept as it was. */
  function Reconcile(f: Filters): (r: Filters)
    ensures Reconciled(r)
    ensures Reconciled(f) ==> r == f
    ensures forall k | k != "discipline" :: Find(r, k) == Find(f, k)
    ensures !Reconciled(f) ==> Find(r, "discipline") == None
  {
    if Reconciled(f) then f else Delete(f, "discipline")
  }

  /** Reconciling twice is reconciling once. */
  lemma ReconcileIdempotent(f: Filters)
    ensures Reconcile(Reconcile(f)) == Reconcile(f)
  {
  }

  // ---------------------------------------------------------------------------
  // Pagination
  // ---------------------------------------------------------------------------

  const ResultsPerPage: nat := 6

  /** `xs.slice(start, end)` for non-negative bounds: both are clamped to the length. */
  function Slice<T>(xs: seq<T>, start: nat, end: nat): (r: seq<T>)
    ensures start < |xs| && start <= end ==> r == xs[start..if end < |xs| then end else |xs|]
    ensures start >= |xs| || end <= start ==> r == []
  {
    var s := if start < |xs| then start else |xs|;
    var e := if end < |xs| then end else |xs|;
    if s <= e then xs[s..e] else []
  }

  /** `paginatedPapers`: the items from `page * 6` up to `(page + 1) * 6`. */
  function PageOf<T>(xs: seq<T>, page: nat): (r: seq<T>)
    ensures |r| <= ResultsPerPage
    ensures page * ResultsPerPage >= |xs| ==> r == []
    ensures page * ResultsPerPage < |xs| ==> |r| == (if |xs| - page * ResultsPerPage < ResultsPerPage then |xs| - page * ResultsPerPage else ResultsPerPage)
    ensures forall i | 0 <= i < |r| :: r[i] == xs[page * ResultsPerPage + i]
  {
    Slice(xs, page * ResultsPerPage, (page + 1) * ResultsPerPage)
  }

  /** `Math.ceil(n / 6)`: the fewest pages of six that hold `n` items. */
  function TotalPages(n: nat): (r: nat)
    ensures r * ResultsPerPage >= n
    ensures r > 0 ==> (r - 1) * ResultsPerPage < n
  {
    (n + ResultsPerPage - 1) / ResultsPerPage
  }

  /** A page shows something exactly when its number is below the page count. */
  lemma PageNonEmpty<T>(xs: seq<T>, page: nat)
    ensures PageOf(xs, page) != [] <==> page < TotalPages(|xs|)
  {
  }

  /** The pages from `page` on, one after another. */
  function PagesFrom<T>(xs: seq<T>, page: nat): seq<T>
    decreases |xs| - page * ResultsPerPage
  {
    if page * ResultsPerPage >= |xs| then [] else PageOf(xs, page) + PagesFrom(xs, page + 1)
  }

  /** The pages tile the list: read one after another from the first, they are the
      list itself, with nothing lost or repeated. */
  lemma {:induction false} PagesTile<T>(xs: seq<T>, page: nat)
    requires page * ResultsPerPage <= |xs|
    ensures PagesFrom(xs, page) == xs[page * ResultsPerPage..]
    decreases |xs| - page * ResultsPerPage
  {
    var a := page * ResultsPerPage;
    if a < |xs| {
      var p := PageOf(xs, page);
      var b := a + |p|;
      assert p == xs[a..b];
      assert (page + 1) * ResultsPerPage == a + ResultsPerPage;
      assert PagesFrom(xs, page) == p + PagesFrom(xs, page + 1);
      if b < |xs| {
        PagesTile(xs, page + 1);
      }
      assert xs[a..] == xs[a..b] + xs[b..];
    }
  }

  /** The whole list is its pages in order. */
  lemma PagesCoverList<T>(xs: seq<T>)
    ensures PagesFrom(xs, 0) == xs
  {
    PagesTile(xs, 0);
  }

  /** `Math.max(0, page - 1)`: the page before, never below the first. */
  function PrevPage(page: int): (r: int)
    ensures r >= 0 && r >= page - 1 && (r == 0 || r == page - 1)
    ensures page >= 1 ==> r == page - 1
  {
    if page - 1 > 0 then page - 1 else 0
  }

  /** `Math.min(totalPages - 1, page + 1)`: the page after, never beyond the last. */
  function NextPage(page: int, total: int): (r: int)
    ensures r <= total - 1 && r <= page + 1 && (r == total - 1 || r == page + 1)
    ensures page + 1 <= total - 1 ==> r == page + 1
  {
    if total - 1 < page + 1 then total - 1 else page + 1
  }

  /** With the pager on screen (more than one page), Previous and Next keep a page
      in range, and Next brings an out-of-range page back to the last. */
  lemma PagerStaysInRange(page: int, total: int)
    requires total > 1 && 0 <= page
    ensures 0 <= NextPage(page, total) <= total - 1
    ensures page <= total - 1 ==> 0 <= PrevPage(page) <= total - 1
  {
  }

  // ---------------------------------------------------------------------------
  // Page state
  // ---------------------------------------------------------------------------

  /** A saved search: its name and the query, filters and sort it restores. */
  datatype SavedSearch = SavedSearch(name: string, query: string, filters: Filters, sortBy: string)

  /** The state of the search page. */
  datatype SearchState = SearchState(
    query: string,
    filters: Filters,
    sortBy: string,
    page: nat,
    papers: seq<Paper>,
    bookmarked: set<int>,
    saved: seq<SavedSearch>,
    searchName: string,
    showSaveSearch: bool,
    error: string)

  const Initial := SearchState("", [], "relevance", 0, [], {}, [], "", false, "")

  /** The results shown. */
  function Shown(st: SearchState): seq<Paper>
  {
    PageOf(st.papers, st.page)
  }

  /** `totalPages > 1`: whether the pager is on screen. */
  predicate PagerShown(st: SearchState)
  {
    TotalPages(|st.papers|) > 1
  }

  /** `toggleFilter`: the value leaves its category if there, otherwise becomes the
      category's only value; other categories are untouched and the page resets. */
  function ToggleFilter(st: SearchState, category: string, value: string): (r: SearchState)
    ensures r.page == 0
    ensures Find(r.filters, category) == Some(Toggled(Values(st.filters, category), value))
    ensures value in Values(r.filters, category) <==> value !in Values(st.filters, category)
    ensures forall k | k != category :: Find(r.filters, k) == Find(st.filters, k)
    ensures r == st.(filters := r.filters, page := 0)
  {
    st.(filters := Put(st.filters, category, Toggled(Values(st.filters, category), value)), page := 0)
  }

  /** Toggling keeps every category to at most one value. */
  lemma ToggleKeepsSingleSelect(st: SearchState, category: string, value: string)
    requires SingleSelect(st.filters)
    ensures SingleSelect(ToggleFilter(st, category, value).filters)
  {
    var cur := Values(st.filters, category);
    LookupSingle(st.filters, category);
    assert value in cur ==> cur == [value];
    PutSingle(st.filters, category, Toggled(cur, value));
  }

  /** A category's looked-up values in a single-select filter hold at most one value. */
  lemma {:induction false} LookupSingle(f: Filters, k: string)
    requires SingleSelect(f)
    ensures |Values(f, k)| <= 1
  {
    if Find(f, k).Some? {
      FindInEntries(f, k);
    }
  }

  /** `clearFilters`: no filters, no query, first page. */
  function ClearFilters(st: SearchState): (r: SearchState)
    ensures r.filters == [] && r.query == [] && r.page == 0
    ensures ActiveFilterCount(r.filters) == 0
    ensures r.sortBy == st.sortBy && r.papers == st.papers && r.saved == st.saved
  {
    st.(filters := [], query := "", page := 0)
  }

  /** `activeFilterCount`: how many values are selected across all categories, the
      length of `Object.values(activeFilters).flat()`. */
  function ActiveFilterCount(f: Filters): (r: nat)
    ensures r == |Flatten(MapValues(f))|
    ensures r == 0 <==> forall i | 0 <= i < |f| :: f[i].1 == []
    ensures SingleSelect(f) ==> r <= |f|
  {
    if |f| == 0 then 0
    else
      assert forall i | 1 <= i < |f| :: f[1..][i - 1] == f[i];
      assert MapValues(f)[1..] == MapValues(f[1..]);
      |f[0].1| + ActiveFilterCount(f[1..])
  }

  /** `saveCurrentSearch`: a name blank after trimming does nothing; otherwise one
      entry with the trimmed name and the current query, filters and sort is
      appended and the dialog closes. */
  function SaveCurrentSearch(st: SearchState): (r: SearchState)
    ensures IsBlank(st.searchName) ==> r == st
    ensures !IsBlank(st.searchName) ==>
      && |r.saved| == |st.saved| + 1 && r.saved[..|st.saved|] == st.saved
      && r.saved[|st.saved|] == SavedSearch(Trim(st.searchName), st.query, st.filters, st.sortBy)
      && r.saved[|st.saved|].name != [] && IsTrimmed(r.saved[|st.saved|].name)
      && r.searchName == [] && !r.showSaveSearch
  {
    var name := Trim(st.searchName);
    if name == [] then st
    else st.(saved := st.saved + [SavedSearch(name, st.query, st.filters, st.sortBy)],
             searchName := "", showSaveSearch := false)
  }

  /** `loadSearch`: the saved query, filters and sort, on the first page. */
  function LoadSearch(st: SearchState, s: SavedSearch): (r: SearchState)
    ensures r.query == s.query && r.filters == s.filters && r.sortBy == s.sortBy && r.page == 0
    ensures r.saved == st.saved && r.papers == st.papers && r.bookmarked == st.bookmarked
  {
    st.(query := s.query, filters := s.filters, sortBy := s.sortBy, page := 0)
  }

  /** Loading the search just saved restores the query, filters and sort it was
      saved with. */
  lemma SaveThenLoad(st: SearchState)
    requires !IsBlank(st.searchName)
    ensures var saved := SaveCurrentSearch(st);
      var back := LoadSearch(saved, saved.saved[|saved.saved| - 1]);
      back.query == st.query && back.filters == st.filters && back.sortBy == st.sortBy && back.page == 0
  {
  }

  /** `toggleBookmark` on this page. */
  function ToggleBookmark(st: SearchState, id: int): (r: SearchState)
    ensures id in r.bookmarked <==> id !in st.bookmarked
    ensures forall x | x != id :: x in r.bookmarked <==> x in st.bookmarked
    ensures r == st.(bookmarked := r.bookmarked)
  {
    st.(bookmarked := Catalog.ToggleBookmark(st.bookmarked, id))
  }

  // ---------------------------------------------------------------------------
  // The request and its results
  // ---------------------------------------------------------------------------

  /** The parameters of the search request: the query when non-empty, the first
      discipline, school and year (as a number), the sort, the catalog flag and a
      limit of 200. */
  function SearchParams(st: SearchState): PaperListParams
  {
    var year := FirstValue(st.filters, "year");
    NoPaperParams.(
      q := if st.query != [] then Some(st.query) else None,
      discipline := FirstValue(st.filters, "discipline"),
      university := FirstValue(st.filters, "university"),
      year := if Truthy(year) then Some(NumberOf(year.value)) else None,
      sort := Some(st.sortBy),
      catalog := Some(true),
      limit := Some(Finite(200)))
  }

  /** The search query carries the query and the selected discipline and school when
      non-empty; a selected non-empty year as the text of `Number(year)`, so a decimal
      year as the same text; the sort when non-empty; always the catalog flag; and
      always the limit 200. */
  lemma SearchQuery(st: SearchState, y: int)
    ensures var r := PaperQuery(SearchParams(st));
      && Find(r, "q") == (if st.query != [] then Some(st.query) else None)
      && Find(r, "discipline") == (if Truthy(FirstValue(st.filters, "discipline")) then FirstValue(st.filters, "discipline") else None)
      && Find(r, "university") == (if Truthy(FirstValue(st.filters, "university")) then FirstValue(st.filters, "university") else None)
      && var year := FirstValue(st.filters, "year");
      && Find(r, "year") == (if Truthy(year) then Some(NumberText(NumberOf(year.value))) else None)
      && (year == Some(IntToString(y)) ==> Find(r, "year") == Some(IntToString(y)))
      && Find(r, "sort") == (if st.sortBy != [] then Some(st.sortBy) else None)
      && Find(r, "catalog") == Some("true")
      && Find(r, "limit") == Some("200")
  {
    PaperQueryLookup(SearchParams(st));
    NumberOfIntToString(y);
    LimitTexts();
  }

  /** The results of a search: the papers found, or the error thrown: an `Error` with
      its message, possibly empty, or `None` for anything else thrown. */
  datatype SearchOutcome = Found(papers: seq<Paper>) | SearchFailed(message: Option<string>)

  /** The load effect: the papers found, or no papers and the error shown. The page
      number is left as it was. */
  function Loaded(st: SearchState, net: SearchOutcome): (r: SearchState)
    ensures r.page == st.page && r.query == st.query && r.filters == st.filters
    ensures net.Found? ==> r.papers == net.papers && r.error == []
    ensures net.SearchFailed? ==> r.papers == []
    ensures net.SearchFailed? && net.message.Some? ==> r.error == net.message.value
    ensures net.SearchFailed? && net.message.None? ==> r.error == "Failed to search papers"
    ensures r.error == [] <==> net.Found? || net.message == Some("")
  {
    match net
    case Found(ps) => st.(papers := ps, error := "")
    case SearchFailed(m) => st.(papers := [], error := m.GetOr("Failed to search papers"))
  }

  /** The same outcome as the catalog's list outcome. */
  function AsListOutcome(net: SearchOutcome): Catalog.ListOutcome
  {
    match net
    case Found(ps) => Catalog.Listed(ps)
    case SearchFailed(m) => Catalog.ListFailed(m)
  }

  /** The search page and the catalog show the same papers for the same outcome, and
      the same error unless what was thrown was not an `Error`, where each shows its
      own fallback text. */
  lemma LoadsAgree(st: SearchState, ps: seq<Paper>, net: SearchOutcome)
    ensures var c := Catalog.Load(ps, false, AsListOutcome(net));
      && c.0 == Loaded(st, net).papers
      && (net.Found? || net.message.Some? ==> c.1 == Loaded(st, net).error)
      && (net.SearchFailed? && net.message.None? ==>
            c.1 == "Failed to load papers" && Loaded(st, net).error == "Failed to search papers")
  {
  }

  /** A download from this page: the catalog's flow on this page's papers. */
  function Download(st: SearchState, user: Option<User>, token: Option<string>, id: int,
                    net: Catalog.DownloadOutcome): (r: (SearchState, bool))
    ensures !AuthedNonGuest(user) || !Truthy(token) ==> r == (st, true)
    ensures AuthedNonGuest(user) && Truthy(token) && net.Downloaded? ==>
      r == (st.(papers := Catalog.IncrementDownloads(st.papers, id)), false)
    ensures AuthedNonGuest(user) && Truthy(token) && net.Failed? ==>
      r == (st.(error := if net.message.Some? then net.message.value else "Failed to download file"), false)
    ensures r.0.page == st.page && r.0.filters == st.filters
  {
    var d := Catalog.Download(user, token, st.papers, st.error, id, net);
    (st.(papers := d.papers, error := d.error), d.toLogin)
  }

  // ---------------------------------------------------------------------------
  // Typing a query or choosing a sort
  // ---------------------------------------------------------------------------

  /** The search box and the sort select as written: they change the query or sort
      and leave the page number alone. */
  function SetQueryAsWritten(st: SearchState, q: string): (r: SearchState)
    ensures r.query == q && r.page == st.page
  {
    st.(query := q)
  }

  function SetSortAsWritten(st: SearchState, s: string): (r: SearchState)
    ensures r.sortBy == s && r.page == st.page
  {
    st.(sortBy := s)
  }

  /** On the third page of 13 results, typing a new query that finds 5 papers shows
      an empty page, and the pager is gone. */
  lemma StalePageAfterQuery(ps13: seq<Paper>, ps5: seq<Paper>)
    requires |ps13| == 13 && |ps5| == 5
    ensures var st := Initial.(papers := ps13, page := 2);
      && Shown(st) != []
      && var after := Loaded(SetQueryAsWritten(st, "ai"), Found(ps5));
      && Shown(after) == [] && |after.papers| == 5 && !PagerShown(after)
  {
  }

  /** The same with a new sort that returns fewer papers. */
  lemma StalePageAfterSort(ps13: seq<Paper>, ps5: seq<Paper>)
    requires |ps13| == 13 && |ps5| == 5
    ensures var st := Initial.(papers := ps13, page := 2);
      var after := Loaded(SetSortAsWritten(st, "newest"), Found(ps5));
      Shown(after) == [] && |after.papers| == 5 && !PagerShown(after)
  {
  }

  /** The search box as evidently intended: like the filter toggles, a new query
      starts again from the first page. */
  function SetQuery(st: SearchState, q: string): (r: SearchState)
    ensures r.query == q && r.page == 0
    ensures r == st.(query := q, page := 0)
  {
    st.(query := q, page := 0)
  }

  function SetSort(st: SearchState, s: string): (r: SearchState)
    ensures r.sortBy == s && r.page == 0
    ensures r == st.(sortBy := s, page := 0)
  {
    st.(sortBy := s, page := 0)
  }

  /** After a new query or sort, whatever results arrive, the page shown is the
      first one: non-empty whenever anything was found, and holding the first six. */
  lemma FreshSearchShowsResults(st: SearchState, q: string, s: string, net: SearchOutcome)
    ensures var a := Loaded(SetQuery(st, q), net);
      (|a.papers| > 0 ==> Shown(a) != []) && Shown(a) == a.papers[..|Shown(a)|]
    ensures var b := Loaded(SetSort(st, s), net);
      (|b.papers| > 0 ==> Shown(b) != []) && Shown(b) == b.papers[..|Shown(b)|]
  {
  }
}

=== FILE: signup.dfy ===
/** The sign-up page: the option lists its selects offer, and the ordered chain of
    checks `handleCreateAccount` runs before it asks for an account. */
module Signup {
  import opened Wrappers
  import opened Strings
  import opened Api
  import opened Auth
  import Search

  // ---------------------------------------------------------------------------
  // Option lists
  // ---------------------------------------------------------------------------

  /** The schools the school select offers. */
  const SchoolOptions: seq<string> := [
    "Business School",
    "School of Public Service and Governance",
    "Faculty of Law",
    "School of Technology and Social Sciences (SOTSS)"
  ]

  /** The departments a staff member may pick, by school. */
  const DepartmentsBySchool: seq<(string, seq<string>)> := [
    ("Business School", ["Accounting", "Finance", "Marketing", "Human Resource Management", "Operations and Supply Chain"]),
    ("School of Public Service and Governance", ["Public Administration", "Governance and Leadership", "Policy and Strategy"]),
    ("Faculty of Law", ["Public Law", "Private Law", "International Law"]),
    ("School of Technology and Social Sciences (SOTSS)", [
      "Computer Science", "Information Technology", "Information Systems", "Economics", "Social Sciences"])
  ]

  /** The departments offered when the school has no list of its own. */
  const DefaultDepartments: seq<string> := ["Administration", "Registry", "ICT", "Library Services"]

  /** The academic areas offered to lecturers, project coordinators and heads of
      department, by school. */
  const AcademicAreasBySchool: seq<(string, seq<string>)> := [
    ("Business School", ["Business Administration", "Accounting and Finance"]),
    ("School of Public Service and Governance", ["Public Service and Governance"]),
    ("Faculty of Law", ["Law"]),
    ("School of Technology and Social Sciences (SOTSS)", [
      "Computer Science and Information Systems",
      "Information Systems and Innovation",
      "Economics and Hospitality Studies",
      "Liberal Arts and Communication Studies"])
  ]

  /** Both tables cover exactly the schools the select offers, each once. */
  lemma TablesCoverSchools()
    ensures KeysOf(DepartmentsBySchool) == SchoolOptions && DistinctKeys(DepartmentsBySchool)
    ensures KeysOf(AcademicAreasBySchool) == SchoolOptions && DistinctKeys(AcademicAreasBySchool)
  {
  }

  /** The sign-up page's academic areas are the disciplines the search page filters by. */
  lemma AcademicAreasAreSearchDisciplines()
    ensures AcademicAreasBySchool == Search.SchoolDisciplineMap
  {
  }

  /** `academicAreaOptions`: the selected school's areas, or none for a school
      without a list (including no school at all). */
  function AcademicAreaOptions(school: string): (r: seq<string>)
    ensures forall i | 0 <= i < |AcademicAreasBySchool| && AcademicAreasBySchool[i].0 == school ::
      r == AcademicAreasBySchool[i].1
    ensures school !in SchoolOptions ==> r == []
    ensures r != [] <==> school in SchoolOptions
  {
    TablesCoverSchools();
    FindDistinct(AcademicAreasBySchool, school);
    Find(AcademicAreasBySchool, school).GetOr([])
  }

  /** The staff department select: the school's departments, or the default list
      for a school without one. A listed school's array is used as it is (an array
      is truthy even when empty); none of them is empty, so neither is the select. */
  function StaffDepartmentOptions(school: string): (r: seq<string>)
    ensures forall i | 0 <= i < |DepartmentsBySchool| && DepartmentsBySchool[i].0 == school ::
      r == DepartmentsBySchool[i].1
    ensures school !in SchoolOptions ==> r == DefaultDepartments
    ensures r != []
  {
    TablesCoverSchools();
    FindDistinct(DepartmentsBySchool, school);
    match Find(DepartmentsBySchool, school)
    case Some(ds) => ds
    case None => DefaultDepartments
  }

  // ---------------------------------------------------------------------------
  // The form and the values the checks read
  // ---------------------------------------------------------------------------

  /** The page's state. The role select starts on student. */
  datatype SignupForm = SignupForm(name: string, role: ApiRole, schoolId: string, school: string,
                                   department: string, schoolEmail: string, password: string)

  const InitialForm := SignupForm("", Student, "", "", "", "", "")

  /** What the input elements with ids name, school, school-id, department,
      school-email and password hold, `None` when no such element is on the page. */
  datatype DomInputs = DomInputs(name: Option<string>, school: Option<string>, schoolId: Option<string>,
                                 department: Option<string>, schoolEmail: Option<string>, password: Option<string>)

  /** `getInputValue`: the element's value trimmed, or "" without an element. */
  function InputValue(el: Option<string>): (r: string)
    ensures IsTrimmed(r)
    ensures el.None? ==> r == []
  {
    Trim(el.GetOr(""))
  }

  /** `state.trim() || getInputValue(id)`: the trimmed state, or when that is blank the
      trimmed element value. */
  function FinalValue(state: string, el: Option<string>): (r: string)
    ensures IsTrimmed(r)
    ensures !IsBlank(state) ==> r == Trim(state)
    ensures r == [] <==> IsBlank(state) && (el.None? || IsBlank(el.value))
  {
    OrElse(Trim(state), InputValue(el))
  }

  /** The values the checks look at. The password is not trimmed. */
  datatype Values = Values(name: string, school: string, schoolId: string, department: string,
                           email: string, password: string)

  function FinalValues(f: SignupForm, dom: DomInputs): (v: Values)
    ensures v.password == OrElse(f.password, InputValue(dom.password))
    ensures v.name == FinalValue(f.name, dom.name) && v.email == FinalValue(f.schoolEmail, dom.schoolEmail)
  {
    Values(FinalValue(f.name, dom.name), FinalValue(f.school, dom.school), FinalValue(f.schoolId, dom.schoolId),
           FinalValue(f.department, dom.department), FinalValue(f.schoolEmail, dom.schoolEmail),
           OrElse(f.password, InputValue(dom.password)))
  }

  // ---------------------------------------------------------------------------
  // Role-dependent requirements
  // ---------------------------------------------------------------------------

  /** Everyone but a librarian belongs to a school. */
  predicate NeedsSchool(role: ApiRole)
  {
    role != Librarian
  }

  /** Students and members carry a school id. */
  predicate NeedsSchoolId(role: ApiRole)
  {
    role == Student || role == Member
  }

  /** Lecturers, staff, project coordinators and HODs belong to a department. */
  predicate NeedsDepartment(role: ApiRole)
  {
    role == Lecturer || role == Staff || role == ProjectCoordinator || role == Hod
  }

  /** A role never needs both a school id and a department, and a librarian needs
      neither of the three. */
  lemma RequirementsByRole(role: ApiRole)
    ensures !(NeedsSchoolId(role) && NeedsDepartment(role))
    ensures role == Librarian <==> !NeedsSchool(role) && !NeedsSchoolId(role) && !NeedsDepartment(role)
  {
  }

  const SchoolEmailSuffix: string := "@st.gimpa.edu.gh"

  /** `email.toLowerCase().endsWith('@st.gimpa.edu.gh')`. */
  predicate IsSchoolEmail(email: string)
  {
    EndsWith(Lower(email), SchoolEmailSuffix)
  }

  /** The suffix check ignores case. */
  lemma SchoolEmailIgnoresCase(email: string)
    ensures IsSchoolEmail(email) <==> IsSchoolEmail(Lower(email))
  {
    assert Lower(Lower(email)) == Lower(email);
  }

  // ---------------------------------------------------------------------------
  // The check chain
  // ---------------------------------------------------------------------------

  /** What the page asks `createAccount` for: the optional fields are set only when
      the role needs them. */
  datatype Registration = Registration(email: string, password: string, name: string, role: ApiRole,
                                       schoolId: Option<string>, school: Option<string>, department: Option<string>)

  const MissingRequired := "Please fill in all required fields"
  const MissingSchool := "Please fill in School"
  const MissingSchoolId := "Please fill in School ID"
  const MissingDepartment := "Please fill in Department"
  const NotSchoolEmail := "School email must end with @st.gimpa.edu.gh"
  const ShortPassword := "Password must be at least 6 characters"

  /** Every check passes. */
  predicate Acceptable(v: Values, role: ApiRole)
  {
    && v.name != [] && v.email != [] && v.password != []
    && (NeedsSchool(role) ==> v.school != [])
    && (NeedsSchoolId(role) ==> v.schoolId != [])
    && (NeedsDepartment(role) ==> v.department != [])
    && IsSchoolEmail(v.email)
    && Utf16Length(v.password) >= 6
  }

  /** The `if (…) { setError(…); return }` chain: the first failing check's message,
      or the registration. */
  function Check(v: Values, role: ApiRole): (r: Result<Registration, string>)
    ensures r.Ok? <==> Acceptable(v, role)
    ensures r == Err(MissingRequired) <==> v.name == [] || v.email == [] || v.password == []
    ensures r == Err(MissingSchool) <==>
      v.name != [] && v.email != [] && v.password != [] && NeedsSchool(role) && v.school == []
    ensures r == Err(MissingSchoolId) <==>
      && v.name != [] && v.email != [] && v.password != [] && (NeedsSchool(role) ==> v.school != [])
      && NeedsSchoolId(role) && v.schoolId == []
    ensures r == Err(MissingDepartment) <==>
      && v.name != [] && v.email != [] && v.password != [] && (NeedsSchool(role) ==> v.school != [])
      && (NeedsSchoolId(role) ==> v.schoolId != []) && NeedsDepartment(role) && v.department == []
    ensures r == Err(NotSchoolEmail) <==>
      && v.name != [] && v.email != [] && v.password != [] && (NeedsSchool(role) ==> v.school != [])
      && (NeedsSchoolId(role) ==> v.schoolId != []) && (NeedsDepartment(role) ==> v.department != [])
      && !IsSchoolEmail(v.email)
    ensures r == Err(ShortPassword) <==>
      && v.name != [] && v.email != [] && v.password != [] && (NeedsSchool(role) ==> v.school != [])
      && (NeedsSchoolId(role) ==> v.schoolId != []) && (NeedsDepartment(role) ==> v.department != [])
      && IsSchoolEmail(v.email) && Utf16Length(v.password) < 6
    ensures r.Ok? ==> && r.value.email == v.email && r.value.password == v.password
                      && r.value.name == v.name && r.value.role == role
    ensures r.Ok? ==> && r.value.schoolId == (if NeedsSchoolId(role) then Some(v.schoolId) else None)
                      && r.value.school == (if NeedsSchool(role) then Some(v.school) else None)
                      && r.value.department == (if NeedsDepartment(role) then Some(v.department) else None)
  {
    if v.name == [] || v.email == [] || v.password == [] then Err(MissingRequired)
    else if NeedsSchool(role) && v.school == [] then Err(MissingSchool)
    else if NeedsSchoolId(role) && v.schoolId == [] then Err(MissingSchoolId)
    else if NeedsDepartment(role) && v.department == [] then Err(MissingDepartment)
    else if !IsSchoolEmail(v.email) then Err(NotSchoolEmail)
    else if Utf16Length(v.password) < 6 then Err(ShortPassword)
    else Ok(Registration(v.email, v.password, v.name, role,
                         if NeedsSchoolId(role) then Some(v.schoolId) else None,
                         if NeedsSchool(role) then Some(v.school) else None,
                         if NeedsDepartment(role) then Some(v.department) else None))
  }

  /** `handleCreateAccount` up to the `createAccount` call: the error shown, or the
      account asked for. */
  function HandleCreateAccount(f: SignupForm, dom: DomInputs): (r: Result<Registration, string>)
    ensures r.Ok? <==> Acceptable(FinalValues(f, dom), f.role)
    ensures r.Ok? ==> r.value.role == f.role && IsTrimmed(r.value.email) && IsSchoolEmail(r.value.email)
  {
    Check(FinalValues(f, dom), f.role)
  }

  /** The untouched form is refused with the first message whatever the page holds
      in its inputs as long as they are blank. */
  lemma BlankFormRefused(dom: DomInputs)
    requires dom.name.None? || IsBlank(dom.name.value)
    ensures HandleCreateAccount(InitialForm, dom) == Err(MissingRequired)
  {
    assert IsBlank(InitialForm.name);
  }

  /** A librarian's form never fails on school, school id or department, and sends
      none of them. */
  lemma LibrarianSkipsAffiliation(v: Values)
    requires v.name != [] && v.email != [] && IsSchoolEmail(v.email) && Utf16Length(v.password) >= 6
    ensures var r := Check(v, Librarian);
      r.Ok? && r.value.schoolId == None && r.value.school == None && r.value.department == None
  {
  }

  /** An accepted form gets past every client-side guard of `createAccount` when
      the role is not librarian: once the server registers the account and the
      follow-up login succeeds, the new user is signed in. */
  lemma AcceptedFormSignsIn(s: Session, f: SignupForm, dom: DomInputs, now: int, net: LoginOutcome)
    ensures var h := HandleCreateAccount(f, dom);
      h.Ok? && f.role != Librarian && net.Accepted? ==>
      var r := CreateAccount(s, h.value.email, h.value.password, h.value.name, h.value.role, true, now, net);
      r.ok && r.session.user == Some(BuildUser(net.me, NoExtras))
  {
    var h := HandleCreateAccount(f, dom);
    if h.Ok? && f.role != Librarian && net.Accepted? {
      var g := h.value;
      assert g.email != [] && g.password != [] && g.name != [] && g.role == f.role;
      var l := Login(s, g.email, g.password, Registered(g.role), now, net);
      assert l.ok && l.session.user == Some(BuildUser(net.me, NoExtras));
    }
  }
}

=== FILE: strings.dfy ===
/** The JavaScript string and number primitives the client relies on, stated over
    `string` (a sequence of Unicode scalar values): truthiness, `trim`, ASCII case
    folding, `split`/`join` on one character, `startsWith`/`endsWith`, and the
    decimal conversions `String(n)` and `Number(s)` restricted to integers. */
module Strings {
  import opened Wrappers

  // ---------------------------------------------------------------------------
  // Truthiness and `||`
  // ---------------------------------------------------------------------------

  /** `a || b` on two strings: the empty string is the only falsy string. */
  function OrElse(a: string, b: string): (r: string)
    ensures r == a || r == b
    ensures a != [] ==> r == a
  {
    if a != [] then a else b
  }

  /** A possibly absent string is truthy when present and non-empty. */
  predicate Truthy(o: Option<string>)
  {
    o.Some? && o.value != []
  }

  /** `o || fallback` where `o` may be `null`/`undefined`. */
  function OptOrElse(o: Option<string>, fallback: string): (r: string)
    ensures Truthy(o) ==> r == o.value
    ensures !Truthy(o) ==> r == fallback
  {
    if Truthy(o) then o.value else fallback
  }

  // ---------------------------------------------------------------------------
  // trim
  // ---------------------------------------------------------------------------

  /** The characters `String.prototype.trim` removes: ECMAScript WhiteSpace
      (including U+FEFF and the Unicode space separators) and LineTerminator. */
  predicate IsJsSpace(c: char)
  {
    || c == '\t' || c == '\n' || c == '\U{000B}' || c == '\U{000C}' || c == '\r' || c == ' '
    || c == '\U{00A0}' || c == '\U{1680}' || ('\U{2000}' <= c <= '\U{200A}')
    || c == '\U{2028}' || c == '\U{2029}' || c == '\U{202F}' || c == '\U{205F}'
    || c == '\U{3000}' || c == '\U{FEFF}'
  }

  /** Every character is white space (true of the empty string). */
  predicate IsBlank(s: string)
  {
    forall i | 0 <= i < |s| :: IsJsSpace(s[i])
  }

  /** Neither the first nor the last character is white space. */
  predicate IsTrimmed(s: string)
  {
    s == [] || (!IsJsSpace(s[0]) && !IsJsSpace(s[|s| - 1]))
  }

  /** Blank strings concatenate to a blank string. */
  lemma BlankConcat(a: string, b: string)
    requires IsBlank(a) && IsBlank(b)
    ensures IsBlank(a + b)
  {
    assert forall k | |a| <= k < |a + b| :: (a + b)[k] == b[k - |a|];
  }

  /** How many white-space characters `s` starts with. */
  function LeadingBlank(s: string): (n: nat)
    ensures n <= |s| && IsBlank(s[..n])
    ensures n < |s| ==> !IsJsSpace(s[n]) && !IsBlank(s[n..])
  {
    if |s| > 0 && IsJsSpace(s[0]) then
      var m := LeadingBlank(s[1..]);
      assert s[..m + 1] == [s[0]] + s[1..][..m];
      BlankConcat([s[0]], s[1..][..m]);
      assert s[m + 1..] == s[1..][m..];
      assert m + 1 < |s| ==> s[m + 1] == s[1..][m];
      m + 1
    else
      assert |s| > 0 ==> s[0..][0] == s[0];
      0
  }

  /** How many characters are left once trailing white space is cut off. */
  function KeptLength(s: string): (n: nat)
    ensures n <= |s| && IsBlank(s[n..])
    ensures n > 0 ==> !IsJsSpace(s[n - 1])
  {
    if |s| > 0 && IsJsSpace(s[|s| - 1]) then
      var t := s[..|s| - 1];
      var n := KeptLength(t);
      assert s[n..] == t[n..] + [s[|s| - 1]];
      BlankConcat(t[n..], [s[|s| - 1]]);
      assert n > 0 ==> s[n - 1] == t[n - 1];
      n
    else |s|
  }

  /** `s.trim()`: the middle of `s` once the white-space margins are cut off. What it
      cuts off is white space on both sides, and what it keeps is contiguous. */
  function Trim(s: string): (r: string)
    ensures IsTrimmed(r)
    ensures r == [] <==> IsBlank(s)
    ensures LeadingBlank(s) + |r| <= |s| && r == s[LeadingBlank(s)..LeadingBlank(s) + |r|]
    ensures IsBlank(s[..LeadingBlank(s)]) && IsBlank(s[LeadingBlank(s) + |r|..])
  {
    var i := LeadingBlank(s);
    var n := KeptLength(s[i..]);
    TrimCut(s, i, n);
    s[i..i + n]
  }

  /** The two cuts of `Trim` leave no white-space margin, and keep nothing exactly
      when the string is blank. */
  lemma TrimCut(s: string, i: nat, n: nat)
    requires i == LeadingBlank(s) && n == KeptLength(s[i..])
    ensures i + n <= |s|
    ensures IsTrimmed(s[i..i + n])
    ensures s[i..i + n] == [] <==> IsBlank(s)
    ensures IsBlank(s[i + n..])
    ensures var r := s[i..i + n]; i + |r| <= |s| && r == s[i..i + |r|]
    ensures var r := s[i..i + n]; IsBlank(s[..i]) && IsBlank(s[i + |r|..])
  {
    CutFacts(s, i, s[i..], n);
    assert |s[i..i + n]| == n;
  }

  /** What `TrimCut` states, from nothing but the promises of the two cut lengths. */
  lemma CutFacts(s: string, i: nat, a: string, n: nat)
    requires i <= |s| && a == s[i..] && IsBlank(s[..i])
    requires i < |s| ==> !IsJsSpace(s[i]) && !IsBlank(a)
    requires n <= |a| && IsBlank(a[n..])
    requires n > 0 ==> !IsJsSpace(a[n - 1])
    ensures i + n <= |s|
    ensures IsTrimmed(s[i..i + n])
    ensures s[i..i + n] == [] <==> IsBlank(s)
    ensures IsBlank(s[i + n..])
  {
    assert s[i + n..] == a[n..];
    if n > 0 {
      assert s[i..i + n][0] == s[i];
      assert s[i..i + n][n - 1] == a[n - 1];
    } else {
      assert a[0..] == a;
      assert i == |s|;
      assert s[..i] == s;
    }
  }

  /** Trimming a string that has no white-space margins changes nothing. */
  lemma TrimOfTrimmed(s: string)
    requires IsTrimmed(s)
    ensures Trim(s) == s
  {
    if s != [] {
      assert LeadingBlank(s) == 0;
      assert s[0..] == s;
      assert KeptLength(s) == |s|;
    }
  }

  /** `trim` is idempotent. */
  lemma TrimIdempotent(s: string)
    ensures Trim(Trim(s)) == Trim(s)
  {
    TrimOfTrimmed(Trim(s));
  }

  // ---------------------------------------------------------------------------
  // Case folding, prefixes and suffixes
  // ---------------------------------------------------------------------------

  /** ASCII upper-case letters mapped to lower case, every other character kept. */
  function AsciiLower(c: char): (r: char)
    ensures 'A' <= c <= 'Z' ==> r != c && r as int - c as int == 32
    ensures !('A' <= c <= 'Z') ==> r == c
  {
    if 'A' <= c <= 'Z' then (c as int + 32) as char else c
  }

  /** `s.toLowerCase()` on its ASCII letters. */
  function Lower(s: string): (r: string)
    ensures |r| == |s|
    ensures forall i | 0 <= i < |s| :: r[i] == AsciiLower(s[i])
  {
    seq(|s|, i requires 0 <= i < |s| => AsciiLower(s[i]))
  }

  predicate StartsWith(s: string, prefix: string)
  {
    |prefix| <= |s| && s[..|prefix|] == prefix
  }

  predicate EndsWith(s: string, suffix: string)
  {
    |suffix| <= |s| && s[|s| - |suffix|..] == suffix
  }

  /** `s` begins with `prefix` when both are compared case-insensitively (ASCII). */
  predicate StartsWithIgnoreCase(s: string, prefix: string)
  {
    |prefix| <= |s| && Lower(s[..|prefix|]) == Lower(prefix)
  }

  // ---------------------------------------------------------------------------
  // split / join on one character
  // ---------------------------------------------------------------------------

  /** The pieces joined back together with `sep` between neighbours. */
  function Join(parts: seq<string>, sep: char): string
  {
    if |parts| == 0 then ""
    else if |parts| == 1 then parts[0]
    else parts[0] + [sep] + Join(parts[1..], sep)
  }

  /** `s.split(sep)` for a one-character separator: never empty, and "" gives [""]. */
  function Split(s: string, sep: char): (r: seq<string>)
    ensures |r| >= 1
    ensures forall k | 0 <= k < |r| :: sep !in r[k]
    ensures Join(r, sep) == s
  {
    if |s| == 0 then [""]
    else
      var rest := Split(s[1..], sep);
      if s[0] == sep then
        assert [""] + rest == [""] + rest;
        assert Join([""] + rest, sep) == "" + [sep] + Join(rest, sep) by {
          assert ([""] + rest)[1..] == rest;
        }
        assert s == [sep] + s[1..];
        [""] + rest
      else
        var r := [[s[0]] + rest[0]] + rest[1..];
        assert r[1..] == rest[1..];
        JoinHead(rest, sep, s[0]);
        assert s == [s[0]] + s[1..];
        r
  }

  /** Prepending a character to the first piece prepends it to the join. */
  lemma {:induction false} JoinHead(parts: seq<string>, sep: char, c: char)
    requires |parts| >= 1
    ensures Join([[c] + parts[0]] + parts[1..], sep) == [c] + Join(parts, sep)
  {
    var r := [[c] + parts[0]] + parts[1..];
    assert r[1..] == parts[1..];
  }

  /** Splitting a join gives the pieces back, as long as no piece holds the separator. */
  lemma {:induction false} SplitJoin(parts: seq<string>, sep: char)
    requires |parts| >= 1
    requires forall k | 0 <= k < |parts| :: sep !in parts[k]
    ensures Split(Join(parts, sep), sep) == parts
  {
    if |parts| == 1 {
      SplitNoSep(parts[0], sep);
    } else {
      SplitJoin(parts[1..], sep);
      SplitPrefix(parts[0], Join(parts[1..], sep), sep);
      assert [parts[0]] + parts[1..] == parts;
    }
  }

  /** `s.split(sep)[0]`: the text before the first separator, or all of `s`. */
  function BeforeFirst(s: string, sep: char): (r: string)
    ensures sep !in r
  {
    Split(s, sep)[0]
  }

  /** The first piece of a split is the longest separator-free prefix: it is a prefix
      of `s`, and it is either all of `s` or followed by the separator. */
  lemma {:induction false} BeforeFirstPrefix(s: string, sep: char)
    ensures var h := BeforeFirst(s, sep);
      |h| <= |s| && h == s[..|h|] && (|h| < |s| ==> s[|h|] == sep)
  {
    if |s| > 0 && s[0] != sep {
      BeforeFirstPrefix(s[1..], sep);
      var t := BeforeFirst(s[1..], sep);
      assert BeforeFirst(s, sep) == [s[0]] + t;
    }
  }

  /** A string without the separator splits into itself. */
  lemma {:induction false} SplitNoSep(s: string, sep: char)
    requires sep !in s
    ensures Split(s, sep) == [s]
  {
    if |s| > 0 {
      SplitNoSep(s[1..], sep);
      assert [s[0]] + s[1..] == s;
    }
  }

  /** A separator-free head followed by the separator contributes exactly one piece. */
  lemma {:induction false} SplitPrefix(head: string, tail: string, sep: char)
    requires sep !in head
    ensures Split(head + [sep] + tail, sep) == [head] + Split(tail, sep)
  {
    var s := head + [sep] + tail;
    if |head| == 0 {
      assert s[1..] == tail;
    } else {
      assert s[1..] == head[1..] + [sep] + tail;
      SplitPrefix(head[1..], tail, sep);
      assert [head[0]] + head[1..] == head;
    }
  }

  // ---------------------------------------------------------------------------
  // Decimal numbers
  // ---------------------------------------------------------------------------

  predicate IsDigit(c: char)
  {
    '0' <= c <= '9'
  }

  /** A non-empty run of ASCII digits. */
  predicate IsDigits(s: string)
  {
    |s| > 0 && forall i | 0 <= i < |s| :: IsDigit(s[i])
  }

  /** The value a run of ASCII digits denotes. */
  function DigitsValue(s: string): nat
    requires forall i | 0 <= i < |s| :: IsDigit(s[i])
  {
    if |s| == 0 then 0
    else
      assert IsDigit(s[|s| - 1]);
      DigitsValue(s[..|s| - 1]) * 10 + (s[|s| - 1] as int - '0' as int)
  }

  function DigitChar(d: nat): (c: char)
    requires d < 10
    ensures IsDigit(c) && c as int - '0' as int == d
  {
    ('0' as int + d) as char
  }

  /** `String(n)` for a natural number: its decimal digits, without leading zeros. */
  function NatToString(n: nat): (r: string)
    ensures IsDigits(r)
    ensures r[0] == '0' ==> n == 0
  {
    if n < 10 then [DigitChar(n)] else NatToString(n / 10) + [DigitChar(n % 10)]
  }

  /** Reading back the decimal digits of `n` gives `n`. */
  lemma {:induction false} NatToStringValue(n: nat)
    ensures DigitsValue(NatToString(n)) == n
  {
    if n >= 10 {
      NatToStringValue(n / 10);
      var s := NatToString(n);
      assert s[..|s| - 1] == NatToString(n / 10);
    }
  }

  /** `String(i)` for an integer: a minus sign before the digits of a negative number. */
  function IntToString(i: int): (r: string)
    ensures |r| > 0
    ensures i < 0 <==> r[0] == '-'
  {
    if i < 0 then "-" + NatToString(-i) else NatToString(i)
  }

  /** `String(50)` and `String(200)`, the list limits the paper pages send. */
  lemma LimitTexts()
    ensures IntToString(50) == "50"
    ensures IntToString(200) == "200"
  {
    assert NatToString(5) == "5";
    assert NatToString(50) == NatToString(5) + "0";
    assert NatToString(2) == "2";
    assert NatToString(20) == NatToString(2) + "0";
    assert NatToString(200) == NatToString(20) + "0";
  }

  /** A JavaScript number as the client sees it: an integer, or NaN. */
  datatype JsNumber = Finite(n: int) | NaN

  /** `Number(s)` for integer text: surrounding white space ignored, "" is 0, an
      optional sign before decimal digits; anything else is NaN. */
  function NumberOf(s: string): (r: JsNumber)
    ensures IsBlank(s) ==> r == Finite(0)
    ensures IsDigits(Trim(s)) ==> r == Finite(DigitsValue(Trim(s)))
  {
    var t := Trim(s);
    if t == [] then Finite(0)
    else if IsDigits(t) then Finite(DigitsValue(t))
    else if |t| > 1 && (t[0] == '-' || t[0] == '+') && IsDigits(t[1..]) then
      var v: int := DigitsValue(t[1..]);
      Finite(if t[0] == '-' then -v else v)
    else NaN
  }

  /** `String(x)` for a JavaScript number. */
  function NumberText(x: JsNumber): (r: string)
    ensures |r| > 0
  {
    match x
    case Finite(n) => IntToString(n)
    case NaN => "NaN"
  }

  /** `Number(String(i)) === i`: the decimal text of an integer reads back as that integer. */
  lemma NumberOfIntToString(i: int)
    ensures NumberOf(IntToString(i)) == Finite(i)
  {
    var s := IntToString(i);
    if i < 0 {
      var d := NatToString(-i);
      NatToStringValue(-i);
      assert s == "-" + d && s[1..] == d;
      assert s[|s| - 1] == d[|d| - 1] && IsDigit(d[|d| - 1]);
      assert IsTrimmed(s);
      TrimOfTrimmed(s);
      assert !IsDigits(s) by { assert !IsDigit(s[0]); }
    } else {
      NatToStringValue(i);
      DigitsTrimmed(s);
      TrimOfTrimmed(s);
    }
  }

  /** A run of digits has no white-space margin. */
  lemma DigitsTrimmed(s: string)
    requires IsDigits(s)
    ensures IsTrimmed(s)
  {
    assert IsDigit(s[0]) && IsDigit(s[|s| - 1]);
  }

  // ---------------------------------------------------------------------------
  // `.length`
  // ---------------------------------------------------------------------------

  /** A character outside the Basic Multilingual Plane: two UTF-16 code units. */
  predicate IsAstral(c: char)
  {
    c as int >= 0x1_0000
  }

  /** `s.length`: the number of UTF-16 code units, so a character outside the Basic
      Multilingual Plane counts twice. */
  function Utf16Length(s: string): (r: nat)
    ensures |s| <= r <= 2 * |s|
    ensures r == |s| <==> forall i | 0 <= i < |s| :: !IsAstral(s[i])
    ensures r == 2 * |s| <==> forall i | 0 <= i < |s| :: IsAstral(s[i])
  {
    if |s| == 0 then 0
    else
      assert forall i | 1 <= i < |s| :: s[1..][i - 1] == s[i];
      (if IsAstral(s[0]) then 2 else 1) + Utf16Length(s[1..])
  }

  /** Code units add up over concatenation. */
  lemma {:induction false} Utf16LengthAppend(a: string, b: string)
    ensures Utf16Length(a + b) == Utf16Length(a) + Utf16Length(b)
  {
    if |a| > 0 {
      assert (a + b)[1..] == a[1..] + b;
      Utf16LengthAppend(a[1..], b);
    } else {
      assert a + b == b;
    }
  }
}

=== FILE: upload.dfy ===
/** The paper upload form: the discipline choices, the author list, keyword parsing,
    and `handleSubmit` with its guards, the payload it sends, and the state it
    leaves behind. */
module Upload {
  import opened Wrappers
  import opened Strings
  import opened Api
  import opened Auth
  import Search

  // ---------------------------------------------------------------------------
  // Disciplines
  // ---------------------------------------------------------------------------

  /** The disciplines each school offers. */
  const DisciplinesBySchool: seq<(string, seq<string>)> := [
    ("Business School", ["Business Administration", "Accounting and Finance"]),
    ("School of Public Service and Governance", ["Public Service and Governance"]),
    ("Faculty of Law", ["Law"]),
    ("School of Technology and Social Sciences (SOTSS)", [
      "Computer Science and Information Systems",
      "Information Systems and Innovation",
      "Economics and Hospitality Studies",
      "Liberal Arts and Communication Studies"])
  ]

  /** Every discipline, for a user without a known school. */
  const EveryDiscipline: seq<string> := [
    "Business Administration",
    "Accounting and Finance",
    "Public Service and Governance",
    "Law",
    "Computer Science and Information Systems",
    "Information Systems and Innovation",
    "Economics and Hospitality Studies",
    "Liberal Arts and Communication Studies"
  ]

  /** The upload form's table is the search page's, and its full list is exactly
      the search page's deduplicated union of that table. */
  lemma DisciplinesAgreeWithSearch()
    ensures DisciplinesBySchool == Search.SchoolDisciplineMap
    ensures EveryDiscipline == Search.AllDisciplines()
  {
    var vs := Search.MapValues(DisciplinesBySchool);
    assert vs == [DisciplinesBySchool[0].1, DisciplinesBySchool[1].1, DisciplinesBySchool[2].1, DisciplinesBySchool[3].1];
    assert Search.Flatten(vs[3..]) == vs[3] by {
      assert vs[3..][1..] == [];
    }
    assert Search.Flatten(vs[2..]) == vs[2] + vs[3] by {
      assert vs[2..][1..] == vs[3..];
    }
    assert Search.Flatten(vs[1..]) == vs[1] + vs[2] + vs[3] by {
      assert vs[1..][1..] == vs[2..];
    }
    assert Search.Flatten(vs) == EveryDiscipline;
    assert Search.NoDuplicates(EveryDiscipline);
    Search.DedupOfDistinct(EveryDiscipline);
  }

  /** `disciplineOptions`: the list of the user's school, or every discipline when
      the user has no school, or one the table does not know. */
  function DisciplineOptions(user: Option<User>): (r: seq<string>)
    ensures var school := if user.Some? then OptOrElse(user.value.university, "") else "";
      && (forall i | 0 <= i < |DisciplinesBySchool| && DisciplinesBySchool[i].0 == school :: r == DisciplinesBySchool[i].1)
      && (school !in KeysOf(DisciplinesBySchool) ==> r == EveryDiscipline)
    ensures forall d | d in r :: d in EveryDiscipline
  {
    var school := if user.Some? then OptOrElse(user.value.university, "") else "";
    assert DistinctKeys(DisciplinesBySchool);
    FindDistinct(DisciplinesBySchool, school);
    Find(DisciplinesBySchool, school).GetOr(EveryDiscipline)
  }

  // ---------------------------------------------------------------------------
  // Keywords to tags
  // ---------------------------------------------------------------------------

  /** `.map((k) => k.trim())`. */
  function TrimEach(xs: seq<string>): (r: seq<string>)
    ensures |r| == |xs| && forall i | 0 <= i < |xs| :: r[i] == Trim(xs[i])
  {
    seq(|xs|, i requires 0 <= i < |xs| => Trim(xs[i]))
  }

  /** `.filter(Boolean)` on strings: the non-empty ones, in order. */
  function DropEmpty(xs: seq<string>): (r: seq<string>)
    ensures |r| <= |xs|
    ensures forall i | 0 <= i < |r| :: r[i] != []
    ensures forall x :: x in r <==> x in xs && x != []
  {
    if |xs| == 0 then []
    else
      var rest := DropEmpty(xs[1..]);
      assert forall x :: x in xs <==> x == xs[0] || x in xs[1..];
      if xs[0] == [] then rest else [xs[0]] + rest
  }

  /** Every non-empty string is kept as many times as it occurs, and no empty one. */
  lemma {:induction false} DropEmptyCounts(xs: seq<string>)
    ensures var r := DropEmpty(xs);
      multiset(r)[[]] == 0 && forall x | x != [] :: multiset(r)[x] == multiset(xs)[x]
    decreases |xs|
  {
    if |xs| > 0 {
      DropEmptyCounts(xs[1..]);
      assert xs == [xs[0]] + xs[1..];
    }
  }

  /** Filtering works piece by piece, so the kept strings stay in their order. */
  lemma {:induction false} DropEmptyAppend(xs: seq<string>, ys: seq<string>)
    ensures DropEmpty(xs + ys) == DropEmpty(xs) + DropEmpty(ys)
    decreases |xs|
  {
    if |xs| > 0 {
      assert (xs + ys)[1..] == xs[1..] + ys;
      DropEmptyAppend(xs[1..], ys);
    } else {
      assert xs + ys == ys;
    }
  }

  /** Nothing to drop leaves the list as it is. */
  lemma {:induction false} DropEmptyOfNonEmpty(xs: seq<string>)
    requires forall i | 0 <= i < |xs| :: xs[i] != []
    ensures DropEmpty(xs) == xs
  {
    if |xs| > 0 {
      DropEmptyOfNonEmpty(xs[1..]);
      assert [xs[0]] + xs[1..] == xs;
    }
  }

  /** What `trim` keeps is taken from its argument. */
  lemma TrimFrom(s: string)
    ensures forall c | c in Trim(s) :: c in s
  {
    var i, r := LeadingBlank(s), Trim(s);
    assert r == s[i..i + |r|];
    forall c | c in r ensures c in s {
      assert c in s[i..];
    }
  }

  /** The tags sent for the keywords field: split on ',', each piece trimmed,
      empty pieces dropped. */
  function ParseTags(keywords: string): (r: seq<string>)
    ensures forall i | 0 <= i < |r| :: r[i] != [] && IsTrimmed(r[i]) && ',' !in r[i]
    ensures forall t :: t in r <==> t != [] && t in TrimEach(Split(keywords, ','))
    ensures r == DropEmpty(TrimEach(Split(keywords, ',')))
  {
    var trimmed := TrimEach(Split(keywords, ','));
    TrimEachClean(Split(keywords, ','), ',');
    var r := DropEmpty(trimmed);
    assert forall i | 0 <= i < |r| :: r[i] in r;
    r
  }

  /** A repeated tag is sent twice. */
  lemma ParseTagsKeepsRepeats()
    ensures ParseTags("a,a") == ["a", "a"]
  {
    assert Join(["a", "a"], ',') == "a,a";
    TagsRoundTrip(["a", "a"]);
  }

  /** The empty piece between two commas is dropped, the others kept in order. */
  lemma ParseTagsDropsEmptyPiece()
    ensures ParseTags("a,,b") == ["a", "b"]
  {
    SplitDoubleComma();
    TrimEachOfTrimmed(["a", "", "b"]);
    DropMiddleEmpty();
  }

  lemma SplitDoubleComma()
    ensures Split("a,,b", ',') == ["a", "", "b"]
  {
    var parts := ["a", "", "b"];
    assert Join(parts, ',') == "a,,b" by {
      assert Join(parts[1..], ',') == ",b";
    }
    SplitJoin(parts, ',');
  }

  lemma DropMiddleEmpty()
    ensures DropEmpty(["a", "", "b"]) == ["a", "b"]
  {
    DropEmptyAppend(["a"], ["", "b"]);
    DropEmptyAppend([""], ["b"]);
    assert ["a"] + ["", "b"] == ["a", "", "b"];
    assert [""] + ["b"] == ["", "b"];
  }

  /** Trimming pieces free of a character leaves them trimmed and still free of it. */
  lemma TrimEachClean(xs: seq<string>, c: char)
    requires forall k | 0 <= k < |xs| :: c !in xs[k]
    ensures forall x | x in TrimEach(xs) :: IsTrimmed(x) && c !in x
  {
    forall k | 0 <= k < |xs| ensures c !in Trim(xs[k]) {
      TrimFrom(xs[k]);
    }
  }

  /** Pieces without white-space margins are left as they are. */
  lemma TrimEachOfTrimmed(xs: seq<string>)
    requires forall i | 0 <= i < |xs| :: IsTrimmed(xs[i])
    ensures TrimEach(xs) == xs
  {
    forall i | 0 <= i < |xs| ensures Trim(xs[i]) == xs[i] {
      TrimOfTrimmed(xs[i]);
    }
  }

  /** A list of tags typed with commas between them comes back as the same list,
      as long as each tag is non-empty, has no white-space margin and no comma. */
  lemma TagsRoundTrip(tags: seq<string>)
    requires forall i | 0 <= i < |tags| :: tags[i] != [] && IsTrimmed(tags[i]) && ',' !in tags[i]
    ensures ParseTags(Join(tags, ',')) == tags
  {
    if |tags| == 0 {
      assert Split("", ',') == [""];
      assert TrimEach([""]) == [""];
    } else {
      SplitJoin(tags, ',');
      TrimEachOfTrimmed(tags);
      DropEmptyOfNonEmpty(tags);
    }
  }

  // ---------------------------------------------------------------------------
  // Authors
  // ---------------------------------------------------------------------------

  datatype Author = Author(name: string)

  const FreshAuthors: seq<Author> := [Author("")]

  /** `addAuthor`: one more empty author at the end. */
  function AddAuthor(authors: seq<Author>): (r: seq<Author>)
    ensures |r| == |authors| + 1 && r[..|authors|] == authors && r[|authors|] == Author("")
  {
    authors + [Author("")]
  }

  /** `removeAuthor(index)`: every author but the one at `index`, in order; an index
      outside the list removes nothing. */
  function RemoveAuthor(authors: seq<Author>, index: int): (r: seq<Author>)
    ensures 0 <= index < |authors| ==> |r| == |authors| - 1
    ensures 0 <= index < |authors| ==> forall j | 0 <= j < |r| :: r[j] == (if j < index then authors[j] else authors[j + 1])
    ensures !(0 <= index < |authors|) ==> r == authors
  {
    if 0 <= index < |authors| then authors[..index] + authors[index + 1..] else authors
  }

  /** Adding an author and removing the one just added changes nothing. */
  lemma AddThenRemove(authors: seq<Author>)
    ensures RemoveAuthor(AddAuthor(authors), |authors|) == authors
  {
  }

  /** The remove control is shown only while there is more than one author. */
  predicate RemoveOffered(authors: seq<Author>)
  {
    |authors| > 1
  }

  /** Typing into the name input of the author at `index`. */
  function RenameAuthor(authors: seq<Author>, index: nat, name: string): (r: seq<Author>)
    requires index < |authors|
    ensures |r| == |authors| && r[index] == Author(name)
    ensures forall j | 0 <= j < |authors| && j != index :: r[j] == authors[j]
  {
    authors[index := Author(name)]
  }

  /** What the author section lets a user do. */
  datatype AuthorEdit = AddOne | RemoveAt(index: int) | RenameAt(index: int, name: string)

  /** One edit as the page allows it: removal only while the control is shown,
      renaming only of a listed author. */
  function ApplyEdit(authors: seq<Author>, e: AuthorEdit): seq<Author>
  {
    match e
    case AddOne => AddAuthor(authors)
    case RemoveAt(i) => if RemoveOffered(authors) then RemoveAuthor(authors, i) else authors
    case RenameAt(i, n) => if 0 <= i < |authors| then RenameAuthor(authors, i, n) else authors
  }

  function ApplyEdits(authors: seq<Author>, es: seq<AuthorEdit>): seq<Author>
    decreases |es|
  {
    if |es| == 0 then authors else ApplyEdits(ApplyEdit(authors, es[0]), es[1..])
  }

  /** Whatever a user does in the author section, at least one author remains. */
  lemma {:induction false} AuthorsNeverEmpty(authors: seq<Author>, es: seq<AuthorEdit>)
    requires |authors| >= 1
    ensures |ApplyEdits(authors, es)| >= 1
    decreases |es|
  {
    if |es| > 0 {
      AuthorsNeverEmpty(ApplyEdit(authors, es[0]), es[1..]);
    }
  }

  // ---------------------------------------------------------------------------
  // The form and its submission
  // ---------------------------------------------------------------------------

  /** `formData`. */
  datatype Fields = Fields(title: string, abstractText: string, keywords: string, discipline: string,
                           documentType: string, license: string)

  const EmptyFields := Fields("", "", "", "", "", "")

  /** The page's state. */
  datatype UploadPage = UploadPage(progress: nat, uploading: bool, file: Option<FileRef>, authors: seq<Author>,
                                   fields: Fields, message: string, supervisorId: string)

  const InitialPage := UploadPage(0, false, None, FreshAuthors, EmptyFields, "", "")

  /** Students and members must name a supervisor. */
  predicate NeedsSupervisor(user: Option<User>)
  {
    user.Some? && (user.value.role == Registered(Member) || user.value.role == Registered(Student))
  }

  const SignInFirst := "Please sign in to upload a paper."
  const AttachFirst := "Please attach a file before submitting."
  const SupervisorFirst := "Please assign a supervisor before submitting."
  const UploadFailed := "Upload failed"

  /** The guards in order: an access token, a file, and for students and members a
      supervisor. The first failing one's message, or nothing. */
  function SubmitBlocked(user: Option<User>, token: Option<string>, page: UploadPage): (r: Option<string>)
    ensures r.None? <==> Truthy(token) && page.file.Some? && !(NeedsSupervisor(user) && page.supervisorId == [])
    ensures r == Some(SignInFirst) <==> !Truthy(token)
    ensures r == Some(AttachFirst) <==> Truthy(token) && page.file.None?
    ensures r == Some(SupervisorFirst) <==> Truthy(token) && page.file.Some? && NeedsSupervisor(user) && page.supervisorId == []
  {
    if !Truthy(token) then Some(SignInFirst)
    else if page.file.None? then Some(AttachFirst)
    else if NeedsSupervisor(user) && page.supervisorId == [] then Some(SupervisorFirst)
    else None
  }

  /** The payload built from the page: the user's university or 'GIMPA', the parsed
      tags, the authors by name, and the supervisor as a number when one is chosen. */
  function BuildPayload(user: Option<User>, page: UploadPage, file: FileRef): (p: UploadPayload)
    ensures p.university == Some(if user.Some? && Truthy(user.value.university) then user.value.university.value else "GIMPA")
    ensures p.supervisorId.Some? <==> page.supervisorId != []
    ensures p.supervisorId.Some? ==> p.supervisorId.value == NumberOf(page.supervisorId)
    ensures p.tags == Some(ParseTags(page.fields.keywords))
    ensures p.authors.Some? && |p.authors.value| == |page.authors|
    ensures forall i | 0 <= i < |page.authors| :: p.authors.value[i].name == page.authors[i].name
    ensures p.file == file && p.year.None?
  {
    var f := page.fields;
    UploadPayload(
      f.title, Some(f.abstractText), Some(f.discipline),
      Some(if user.Some? then OptOrElse(user.value.university, "GIMPA") else "GIMPA"),
      None, Some(f.documentType), Some(f.license), None,
      if page.supervisorId != [] then Some(NumberOf(page.supervisorId)) else None,
      Some(ParseTags(f.keywords)),
      Some(seq(|page.authors|, i requires 0 <= i < |page.authors| => AuthorPayload(page.authors[i].name, None, None))),
      file)
  }

  /** The server's answer to the upload: the created paper, or a thrown value (an
      `Error` with its message, or something else). */
  datatype SubmitOutcome = Created(id: int, status: PaperStatus) | Thrown(message: Option<string>)

  /** The message shown after a successful upload. */
  function CreatedMessage(id: int, status: PaperStatus): string
  {
    "Submission sent successfully. Paper ID: " + IntToString(id) + ". It is now in lecturer review ("
      + StatusName(status) + "), and notification emails have been queued."
  }

  /** The page after a submit and the payload sent, if any. */
  datatype SubmitResult = SubmitResult(page: UploadPage, sent: Option<UploadPayload>)

  /** `handleSubmit`. A blocked submit only shows its message. Otherwise the payload
      is sent; success shows the new paper's id and status and resets the form,
      failure shows the error; either way the upload ends not in progress at 0. */
  function HandleSubmit(user: Option<User>, token: Option<string>, page: UploadPage, net: SubmitOutcome): (r: SubmitResult)
    ensures var b := SubmitBlocked(user, token, page);
      b.Some? ==> r == SubmitResult(page.(message := b.value), None)
    ensures r.sent.Some? <==> SubmitBlocked(user, token, page).None?
    ensures r.sent.Some? ==> page.file.Some? && r.sent.value == BuildPayload(user, page, page.file.value)
    ensures r.sent.Some? ==> !r.page.uploading && r.page.progress == 0
    ensures r.sent.Some? && net.Created? ==>
      && r.page == InitialPage.(message := CreatedMessage(net.id, net.status))
      && r.page.authors == FreshAuthors && r.page.supervisorId == [] && r.page.file.None?
    ensures r.sent.Some? && net.Thrown? ==>
      r.page == page.(message := net.message.GetOr(UploadFailed), uploading := false, progress := 0)
  {
    match SubmitBlocked(user, token, page)
    case Some(m) => SubmitResult(page.(message := m), None)
    case None =>
      var payload := BuildPayload(user, page, page.file.value);
      match net
      case Created(id, status) =>
        SubmitResult(UploadPage(0, false, None, FreshAuthors, EmptyFields, CreatedMessage(id, status), ""), Some(payload))
      case Thrown(m) =>
        SubmitResult(page.(message := m.GetOr(UploadFailed), uploading := false, progress := 0), Some(payload))
  }

  /** The browser's own form validation: the title, abstract and keywords inputs,
      every author's name input and the copyright checkbox are `required`, and the
      submit event fires only when none of them is empty (white space alone counts
      as filled). The checkbox is not page state, so it is a parameter. */
  predicate RequiredFilled(page: UploadPage, copyrightConfirmed: bool)
  {
    && page.fields.title != [] && page.fields.abstractText != [] && page.fields.keywords != []
    && (forall i | 0 <= i < |page.authors| :: page.authors[i].name != [])
    && copyrightConfirmed
  }

  /** Pressing Submit: with a required field empty the browser stops the submit,
      so `handleSubmit` never runs and nothing on the page changes; otherwise it is
      `handleSubmit`. */
  function SubmitForm(user: Option<User>, token: Option<string>, page: UploadPage, copyrightConfirmed: bool,
                      net: SubmitOutcome): (r: SubmitResult)
    ensures !RequiredFilled(page, copyrightConfirmed) ==> r == SubmitResult(page, None)
    ensures RequiredFilled(page, copyrightConfirmed) ==> r == HandleSubmit(user, token, page, net)
    ensures r.sent.Some? ==>
      && copyrightConfirmed && r.sent.value.title != [] && r.sent.value.abstractText == Some(page.fields.abstractText)
      && page.fields.abstractText != [] && page.fields.keywords != []
      && r.sent.value.authors.Some? && forall i | 0 <= i < |r.sent.value.authors.value| :: r.sent.value.authors.value[i].name != []
  {
    if RequiredFilled(page, copyrightConfirmed) then HandleSubmit(user, token, page, net) else SubmitResult(page, None)
  }

  /** An upload with an empty title, or without the copyright confirmed, never
      reaches the server and leaves no message. */
  lemma EmptyTitleNeverSent(user: Option<User>, token: Option<string>, page: UploadPage, copyrightConfirmed: bool,
                            net: SubmitOutcome)
    requires page.fields.title == [] || !copyrightConfirmed
    ensures SubmitForm(user, token, page, copyrightConfirmed, net) == SubmitResult(page, None)
  {
  }

  /** On the wire, a sent upload always carries the university (the user's, or
      'GIMPA'), carries supervisor_id exactly when a supervisor was chosen, and
      carries the parsed tags. */
  lemma SentUploadFields(user: Option<User>, token: Option<string>, page: UploadPage, net: SubmitOutcome)
    ensures var sent := HandleSubmit(user, token, page, net).sent;
      sent.Some? ==> var form := UploadForm(sent.value);
      && Find(form, "university") == Some(Text(if user.Some? && Truthy(user.value.university) then user.value.university.value else "GIMPA"))
      && (Find(form, "supervisor_id").Some? <==> page.supervisorId != [])
      && Find(form, "tags") == Some(Text(JsonStrings(ParseTags(page.fields.keywords))))
  {
    var sent := HandleSubmit(user, token, page, net).sent;
    if sent.Some? {
      UploadFormTextFields(sent.value);
      UploadFormNumberFields(sent.value);
      UploadFormFixedFields(sent.value);
    }
  }

  /** A student's submit with a file but no supervisor never reaches the server. */
  lemma StudentNeedsSupervisor(user: Option<User>, token: Option<string>, page: UploadPage, net: SubmitOutcome)
    requires Truthy(token) && page.file.Some? && page.supervisorId == []
    requires user.Some? && user.value.role == Registered(Student)
    ensures HandleSubmit(user, token, page, net) == SubmitResult(page.(message := SupervisorFirst), None)
  {
  }
}

=== FILE: wrappers.dfy ===
/** Option and Result, the two failure-carrying datatypes the rest of the model uses
    for JavaScript's `undefined`/`null` and for thrown errors. */
module Wrappers {

  /** A value that may be absent: `undefined` or `null` in the source. */
  datatype Option<+T> = None | Some(value: T) {

    /** The wrapped value, or `default` when absent (the source's `x ?? d`). */
    function GetOr(default: T): T
    {
      match this
      case Some(v) => v
      case None => default
    }
  }

  /** Either a value or an error message. */
  datatype Result<+R, +E> = Ok(value: R) | Err(error: E)
}
